=== FILE: README.md ===
# Apple Notes ⇄ Readwise: a Dafny model of the converter core

This project models the text-processing core of the Readwise Apple Notes
application, a desktop app that does two things:

- It exports Apple Notes to Markdown or HTML. A decoded note is a text plus a
  list of attribute runs. The model turns it into fragments, then turns each
  fragment into markup with a small formatter state machine covering
  monospaced blocks, lists, alignment and blockquotes.
- It imports Readwise highlights into Apple Notes. This side uses the pure
  helpers of the sync loop:
  - entry-name parsing;
  - the note primary key;
  - the failed and refresh book lists;
  - error messages and export-status classification;
  - the settings flags;
  - the `<br>` insertion applied to rendered HTML.

The modules follow the source files:

| module | file | models |
|---|---|---|
| `Base` | `base.dfy` | JavaScript string operations the source relies on: `trim`, `split`, `join`, decimal text, ASCII lower-casing |
| `NoteModel` | `note_model.dfy` | the decoded note: attribute runs, paragraph styles, attachment kinds |
| `Tokenizer` | `tokenizer.dfy` | `parseTokens`, `attrEquals` and the fragment-splitting regular expression |
| `Formatter` | `formatter.dfy` | `formatMultiRun`, `formatParagraph`, `formatAttr`, `formatHtmlAttr`, `convertAlign` and `formatAttachment` |
| `NoteConverter` | `note_converter.dfy` | `format`, the fold over fragments and the end-of-note closing |
| `Table` | `table.dfy` | the table converter: `parse`, `findLocations`, `computeCells` and the writes it does, `format`, `getTargetUuid`, `uuidToString` |
| `Attachments` | `attachments.dfy` | `splitext`, the queries and source-path layout of `resolveAttachment`, the file key `formatAttachment` reads, `resolveAccountType` |
| `Script` | `script.dfy` | `sanitizeHTML`, reading a script's boolean answer, the account-list split |
| `Sync` | `sync.ts` helpers in `sync.dfy` | entry names, primary keys, book lists, errors, status polling, settings, `<br>` insertion |

Database rows, files on disk and the output of AppleScript are inputs. In
particular, the lookups inside `formatAttachment` and `getInternalLink` are a
`Resolver` record of functions. The file lookups are also modelled one level
down: `Attachments` runs the queries of `resolveAttachment` over a sequence of
sync objects whose columns may be NULL.

Where the source throws a `TypeError` on a shape it does not expect, the
model returns an explicit outcome instead:

- `split('/')[1]` of a name without `/` is `None`;
- a missing `p<digits>` suffix is `None`;
- an out-of-range table object is `Thrown`;
- the URL-card lookup as written is `Thrown`, and so is the conversion of a note holding one.
- an attachment whose database row is missing, or whose embedded table or scan fails to convert, is `Thrown`, and so is the conversion of a note holding it, in either program;
- an attachment file whose row is missing, or whose identifier or file name is NULL where `path.join` receives it, is `Thrown`; with a database this includes every legacy drawing, whose key is never a media object's;
- a link to another note is `Thrown` when its row is missing or when the linked note gives a file, because `getInternalLink` then calls a file manager the converter has no handle to.

Four places in the source evidently do not do what their authors meant
(see "## Findings"). Two of them are in `format`: the numbered-list counter
and the table-cell escaping. The third is the URL-card lookup in
`formatAttachment`; the fourth is the error path of `queueExport`, which
`Sync.AsWrittenThrowBlocksLaterRuns` states as written next to the
corrected `Sync.QueueExport`. Every conversion operation that reaches the
first three takes a `Variant`:

- `AsWritten` follows the code as written;
- `Corrected` follows the evident intent.

The as-written and the corrected behaviour are each stated and proved.

Several properties are round trips against a partner that the model defines:

- the pipe table is parsed back into its cells;
- escaped text is unescaped;
- entry names are rebuilt and parsed again;
- `<br>` tags are removed after insertion.

## Model

| member | source | states |
|---|---|---|
| NoteModel.KindOf | src/main/lib/convert-note.ts:386-447 | an attachment takes the default branch (the `Media` kind, a file on disk) exactly when its UTI is none of the ten listed ones (hashtag, mention, link, table, URL card, two scans, three drawings); the modified scan and the drawings are also read from a file |
| NoteModel.BlockAttachmentKinds | src/main/lib/convert-note.ts:518-521 | hashtags, mentions and internal links are inline attachments; tables, URL cards, scans and drawings are block attachments |
| Tokenizer.AttrEqualsSpec | src/main/lib/convert-note.ts:523-538 | two runs are equal exactly when a next run exists and they agree on every field the model keeps except `length`, except that a run whose checklist carries decoded uuid bytes equals no other run, because byte arrays compare by identity |
| Tokenizer.FragmentSplitSpec | src/main/lib/convert-note.ts:22 | the fragments of a text concatenate back to the text (the split keeps its separators), and every fragment with a visible character has no line break and no whitespace at either end |
| Tokenizer.GroupEnd | src/main/lib/convert-note.ts:70-82 | a merge group runs from `i` to the first run whose successor differs; every run before it equals its successor, so each run is consumed once |
| Tokenizer.GroupEndUnique | src/main/lib/convert-note.ts:70-82 | the end of a merge group is the only index with that property |
| Tokenizer.TokensSpec | src/main/lib/convert-note.ts:58-93 | the fragments of a note concatenate to the note text covered by the runs; none is empty, each is well shaped, and each carries the attributes of a run of the note |
| Tokenizer.MergeGroup | src/main/lib/convert-note.ts:70-82 | the do-while loop stops at the group end, takes the attributes of the group's last run, and collects exactly that run-length span of the text |
| Tokenizer.ParseTokens | src/main/lib/convert-note.ts:58-93 | the imperative loop computes the same fragments as the functional definition |
| Formatter.ConvertAlign | src/main/lib/convert-note.ts:504-516 | each alignment maps to its own CSS keyword, and only that alignment maps to it |
| Formatter.CloseMultiRun | src/main/lib/convert-note.ts:163-190 | the current block is closed only when the run does not continue it: a list on an unindented non-list paragraph or a block attachment, monospace on a non-monospaced run, alignment on an unaligned run; a block left open changes nothing; closing monospace writes `</pre>` or the fence; only the block and the open-list flag change |
| Formatter.OpenMultiRun | src/main/lib/convert-note.ts:192-216 | with no block current, a monospaced run opens a code block with `<pre>` or a fence, a list block opens only on a list style and an alignment block only on an aligned run; with a block current nothing happens; counters and the blockquote flag are untouched |
| Formatter.FormatMultiRun | src/main/lib/convert-note.ts:159-220 | at most one multi-run state is active; monospace opens with a fence and closes with one; a list is left only on an unindented non-list paragraph or a block attachment; list counters and blockquote state are untouched |
| Formatter.Counter | src/main/lib/convert-note.ts:349-356 | the corrected reset of Findings row 1: a numbered item at the recorded indent keeps the counter; anything else resets it to 0 and records the new indent |
| Formatter.NumberingAsWrittenRepeats | src/main/lib/convert-note.ts:349-370 | as written, three numbered items at indent 1 that start a note render as `\t1. a`, `\t1. b`, `\t2. c` |
| Formatter.NumberingCounts | src/main/lib/convert-note.ts:346-370 | after `k` consecutive numbered items at one indent, starting from a reset, the counter is `k` |
| Formatter.NumberedItemText | src/main/lib/convert-note.ts:368-370 | the `k+1`-th consecutive numbered item is rendered as indent tabs, `k+1`, `. ` and the fragment |
| Formatter.MarkdownLinePrefix | src/main/lib/convert-note.ts:346-347 | blockquote paragraphs start with `> `; no other paragraph starts with `>` |
| Formatter.ParagraphMarkdown | src/main/lib/convert-note.ts:344-380 | the fragment ends the line, blockquotes get `> `, the counter counts numbered items and is 0 otherwise, and the multi-run state is untouched |
| Formatter.ParagraphHtml | src/main/lib/convert-note.ts:308-343 | the blockquote flag becomes the paragraph's own flag, nothing else changes, and leaving a blockquote emits `</blockquote><p>…</p>` |
| Formatter.FormatAttachment | src/main/lib/convert-note.ts:383-474 | it throws exactly when a looked-up row is missing, an embedded table or scan fails to convert, the note link an internal-link row holds cannot be made, or a file with a key fails to resolve, or, as written, on any URL card, whose row is read by calling the database handle as a tag; hashtags, mentions, tables and scans give the lookup's answer, an internal link gives the note link for the URI its row holds; corrected, a URL card whose row is found prints `[**title**](url)`; every file kind prints its file link |
| Formatter.NoteLink | src/main/lib/convert-note.ts:476-495 | a link to another note gives `(unknown file link)` exactly when its URI is a note URI and the note it names gives no file; a URI that is not a note URI, a missing row, or a note that gives a file throws |
| Formatter.FileLink | src/main/lib/convert-note.ts:448-471 | it throws exactly when the attachment has a file key and resolving its file throws; without a key it prints the unknown-attachment notice with its UTI; a file that resolves is linked by its `file://` path; with no database it prints a notice |
| Formatter.EmbeddedExactlyWhenRead | src/main/lib/convert-note.ts:448-471 | when the file link does not throw, the output begins as an embedded image exactly when the attachment has a file key and a database gives its path; both notices look different |
| Formatter.MarkdownInlineMirrored | src/main/lib/convert-note.ts:272-302 | the Markdown emphasis and strikethrough marks after the text mirror those before it |
| Formatter.HtmlInlineNested | src/main/lib/convert-note.ts:222-270 | the HTML inline tags nest properly: the closing tags are the opening tags in reverse order |
| NoteConverter.FormatFragment | src/main/lib/convert-note.ts:115-138 | whitespace-only fragments and fragments inside a monospaced block are emitted verbatim after the multi-run prefix; only a lookup can make the fragment throw, an attachment's or that of its link to another note; the formatter invariant is kept |
| NoteConverter.SkippedFragmentsLeaveNoTrace | src/main/lib/convert-note.ts:99-113 | while the first line is skipped, fragments without a line break or attachment produce nothing |
| NoteConverter.CloseMultiRunAtEnd | src/main/lib/convert-note.ts:142 | at the end an open monospace or alignment block is closed (Markdown emits the closing fence) and an open list stays as it was |
| NoteConverter.CloseHtml | src/main/lib/convert-note.ts:145-153 | in HTML an open list and an open blockquote are each closed once; Markdown emits nothing |
| NoteConverter.EndState | src/main/lib/convert-note.ts:142-153 | after formatting no monospace or alignment block and no HTML list remains open, and in HTML no blockquote; there is an end state exactly when the conversion does not throw |
| NoteConverter.Format | src/main/lib/convert-note.ts:95-157 | the converted note is trimmed; it cannot throw when no fragment's attachment and no fragment's link to another note throws; with the corrected escaping a converted table cell contains no line break and no pipe |
| NoteConverter.AttachmentNoteThrows | src/main/lib/convert-note.ts:121-126 | an attachment whose formatting throws makes the whole note throw |
| NoteConverter.FragmentNoteThrows | src/main/lib/convert-note.ts:95-138 | a note of one run over a text without whitespace throws when its only fragment does |
| NoteConverter.ResolvedNoteLinkThrows | src/main/lib/convert-note.ts:476-495 | a Markdown note that links to another note whose file is found throws, in either program |
| NoteConverter.LegacyDrawingNoteThrows | src/main/lib/convert-note.ts:425-456 | with file lookups answered from a database with unique keys, a note holding a legacy drawing whose identifier names an attachment object throws, in either program |
| NoteConverter.TotalResolverConverts | src/main/lib/convert-note.ts:383-495 | when every row lookup succeeds, every embedded table and scan converts, every attachment file resolves, every internal-link row holds a note URI and no linked note gives a file, the corrected program converts every note |
| NoteConverter.AsWrittenTableModeIgnored | src/main/lib/convert-note.ts:143 | as written, table mode changes nothing: a note converts to the same text inside a table as outside one |
| NoteConverter.EscapeFor | src/main/lib/convert-note.ts:143 | as written the text is unchanged; corrected, no line break and no pipe remains |
| NoteConverter.SolidCellExact | src/main/lib/convert-note.ts:95-157 | a table note that is one plain word without whitespace converts to that word, escaped as each variant escapes it |
| NoteConverter.UrlCardNoteThrows | src/main/lib/convert-note.ts:409-414 | as written, converting a note that holds a URL card throws; the corrected program converts it when the card's row is found |
| NoteConverter.EmptyNote | src/main/lib/convert-note.ts:95-157 | a note without runs converts to the empty string |
| NoteConverter.EscapeTable | src/main/lib/convert-note.ts:143 | the intended cell escaping leaves no line break and no pipe, and changes nothing in text that has neither |
| Table.UuidToString | src/main/lib/parser/convert-table.ts:145-147 | `n` bytes give `2n` lower-case hexadecimal digits |
| Table.UuidHexRoundTrip | src/main/lib/parser/convert-table.ts:145-147 | decoding the hexadecimal text gives the bytes back |
| Table.UuidToStringInjective | src/main/lib/parser/convert-table.ts:145-147 | distinct UUIDs have distinct names |
| Table.TargetUuid | src/main/lib/parser/convert-table.ts:139-143 | the lookup throws exactly when the object index is out of range or the object has no map entry; otherwise it gives the name of the UUID its first map entry indexes, or `undefined` when that index is past the UUID list |
| Table.AssignIndices | src/main/lib/parser/convert-table.ts:89-94 | the loop completes exactly when both ends of every element resolve, and every location it stores is between -1 and the ordering length |
| Table.AssignIndicesAt | src/main/lib/parser/convert-table.ts:89-94 | a UUID has a location exactly when it had one or some element names it; then the location is the ordering index of the key of the last element that names it; otherwise it keeps the location it had |
| Table.LastNaming | src/main/lib/parser/convert-table.ts:89-94 | the last element whose value names a UUID, or -1 exactly when none does |
| Table.IndexOf | src/main/lib/parser/convert-table.ts:93 | the first position of the key in the ordering, or -1 exactly when the key is absent |
| Table.LastElementWins | src/main/lib/parser/convert-table.ts:89-94 | the location recorded for a value UUID is the ordering index of the key UUID of its last element |
| Table.FindLocations | src/main/lib/parser/convert-table.ts:81-97 | it succeeds exactly when the object has an ordered set whose elements all resolve; the count is the ordering's length, the map is what the element loop builds, and every location is between -1 and the count |
| Table.FindLocationsAt | src/main/lib/parser/convert-table.ts:81-97 | a UUID has a location exactly when an element names it, and the location is the ordering index of the key of the last element naming it |
| Table.FindRoot | src/main/lib/parser/convert-table.ts:51 | the root is the first object typed as a table, and there is none exactly when no object is |
| Table.SetCell | src/main/lib/parser/convert-table.ts:113-116 | a cell write changes one row only; a column beyond the row grows it with unset slots; a negative or missing column changes nothing |
| Table.SetCellCommutes | src/main/lib/parser/convert-table.ts:113-116 | two writes to different cells commute |
| Table.SwapWrites | src/main/lib/parser/convert-table.ts:105-118 | in any sequence of cell writes, swapping two neighbouring writes to different cells leaves the grid unchanged |
| Table.ApplyAt | src/main/lib/parser/convert-table.ts:105-118 | after a sequence of writes a cell holds the text of the last write to it, or what it held before when nothing wrote it |
| Table.RowWrite | src/main/lib/parser/convert-table.ts:110-116 | a row element whose location is not a row of the grid, or whose content object is missing, writes nothing; otherwise it writes the cell text of the content's note at that row and the column; a missing reference or note throws |
| Table.FillRowsWrites | src/main/lib/parser/convert-table.ts:109-117 | the loop over a column's rows is that column's writes done in order |
| Table.FillColumnsWrites | src/main/lib/parser/convert-table.ts:105-118 | the loop over the columns is every column's writes done in order |
| Table.ComputeCells | src/main/lib/parser/convert-table.ts:100-121 | the grid has `rowCount` rows; a missing cell dictionary throws; with the corrected escaping every cell is a table-safe text |
| Table.ComputeCellsAt | src/main/lib/parser/convert-table.ts:100-121 | each cell holds the cell text of the last write landing on it (the last row element of the last column element that lands there), and a cell nothing lands on stays a hole |
| Table.ComputeCellsWidth | src/main/lib/parser/convert-table.ts:102 | under a consistent layout every row has `columnCount` slots |
| Table.ReadLayout | src/main/lib/parser/convert-table.ts:49-73 | no table root gives `null`; the layout the root's entries establish keeps every location within its count |
| Table.Parse | src/main/lib/parser/convert-table.ts:49-77 | no table root or no cell data gives `null`; otherwise the grid is the one `computeCells` fills from the layout the root establishes, `rowCount` rows of `columnCount` slots; with the corrected escaping every cell is table-safe |
| Table.CellText | src/main/lib/parser/convert-table.ts:115-116 | a cell's text comes back whenever no attachment and no note link in its note throws; with the corrected escaping it is trimmed and free of line breaks and pipes |
| Table.AsWrittenPipeCell | src/main/lib/convert-note.ts:143 | a cell note reading `a`, a pipe and `b` keeps its pipe as written and becomes `a&#124;b` corrected |
| Table.AsWrittenPipeSplitsCell | src/main/lib/convert-note.ts:143 | as written, the rendered row holding that cell reads back as the two cells `a` and `b` |
| Table.FormatTable | src/main/lib/parser/convert-table.ts:124-136 | the table renders as the empty string exactly when parsing finds no table |
| Table.BrokenTableNoteThrows | src/main/lib/parser/convert-table.ts:55-61 | a table whose row list names an object that is not there throws, and so does, in either program, a note holding it as a table attachment |
| Table.RenderedLines | src/main/lib/parser/convert-table.ts:128-135 | the rendering is a line break, the header row, the separator row, the other rows, and a final blank line |
| Table.LinesShape | src/main/lib/parser/convert-table.ts:130-133 | the separator comes directly after the first row, each row renders on one line, and rows keep their order |
| Table.TableRoundTrip | src/main/lib/parser/convert-table.ts:128-135 | parsing the rendered pipe table gives back every row's cell texts, with unset cells as empty text |
| Table.Texts | src/main/lib/parser/convert-table.ts:131 | unset cells join as empty text |
| Attachments.Splitext | src/main/lib/parser/apple-notes.ts:29-40 | with a dot after the first character the name splits at its last dot with a lower-cased extension; otherwise the basename is the whole name and the extension is empty |
| Attachments.SplitextRejoins | src/main/lib/parser/apple-notes.ts:34-37 | basename, dot and extension rebuild a name whose extension is already lower case |
| Attachments.SourceFor | src/main/lib/parser/apple-notes.ts:294-391 | each attachment kind gets its output name and extension; media names come from `splitext` |
| Attachments.ModifiedScanLayout | src/main/lib/parser/apple-notes.ts:304-325 | `FallbackPDFs/<id>/[<generation>/]FallbackPDF.pdf`, with the generation segment left out when empty |
| Attachments.ScanLayout | src/main/lib/parser/apple-notes.ts:327-341 | `Previews/<id>-1-<width>x<height>-0.jpeg`, from which width and height read back when both are numbers |
| Attachments.DrawingLayout | src/main/lib/parser/apple-notes.ts:343-369 | `FallbackImages/<id>/<generation>/FallbackImage.png`, or `FallbackImages/<id>.jpg` without a generation |
| Attachments.MediaLayout | src/main/lib/parser/apple-notes.ts:371-391 | `Media/<id>/[<generation>/]<filename>` |
| Attachments.ResolveAttachment | src/main/lib/parser/apple-notes.ts:293-399 | no database gives null; otherwise it throws exactly when the query for the key and type finds no row or the branch gives a NULL identifier or file name to `path.join`, and gives a path in every other case; for a non-empty account folder the path is the folder, one slash and the source path; a one-segment folder splits back off the front |
| Attachments.QueryRow | src/main/lib/parser/apple-notes.ts:304-388 | there is a row exactly when the query selects some object: for a modified scan, a scan or a drawing an attachment object with the key, for any other type a media object with the key that some object names as its media; the row is the columns of a selected object |
| Attachments.Columns | src/main/lib/parser/apple-notes.ts:316-391 | a branch throws exactly when `path.join` would get a NULL identifier (every branch but the scan preview and the drawing without a generation, whose template literals print `null`) or a media row's NULL file name; otherwise the columns are kept, with a NULL generation as `''` |
| Attachments.AttachmentPath | src/main/lib/parser/apple-notes.ts:293-297 | the path the formatter sees is `''` exactly when there is no database, and throws exactly when resolving the attachment throws |
| Attachments.FileKeyFor | src/main/lib/convert-note.ts:425-446 | the key is 0 when no object has the attachment's identifier; otherwise it is that object's primary key for a modified scan or drawing, and the media it names (0 for none) for any other file |
| Attachments.LegacyDrawingNeverResolves | src/main/lib/parser/apple-notes.ts:371-391 | with unique positive keys, a legacy drawing whose identifier names an attachment object gets a non-zero key that the media query never selects, so resolving it throws |
| Attachments.DrawingResolves | src/main/lib/parser/apple-notes.ts:343-369 | a current drawing is looked up and resolved as the same attachment object, so it gets a non-zero key and resolves |
| Attachments.AccountPrefix | src/main/lib/parser/apple-notes.ts:396 | joining a non-empty folder and a non-empty source path puts exactly one slash between them |
| Attachments.PathJoinSplits | src/main/lib/parser/apple-notes.ts:396 | joined path segments split back into the non-empty segments |
| Attachments.ResolveAccountType | src/main/lib/parser/apple-notes.ts:253-265 | no database gives no answer; otherwise the answer is true exactly when an account row with that name exists |
| Script.SanitizeHTML | src/main/lib/utils.ts:18-25 | null, undefined and `''` give `''`, 0 gives `"0"`, no line break survives, and the length grows by one per escaped character |
| Script.EscapeInOrderIsEscape | src/main/lib/utils.ts:21-24 | the three global replacements, backslash first, equal a one-pass escape of each character |
| Script.UnescapeEscape | src/main/lib/utils.ts:21-24 | unescaping the escaped text gives it back |
| Script.WellEscapedQuotes | src/main/lib/utils.ts:22-23 | in escaped text every double quote follows a backslash, so none can end the literal |
| Script.ScriptBool | src/main/lib/utils.ts:15 | a true answer means the script printed `true` |
| Script.ScriptBoolPadded | src/main/lib/utils.ts:58 | `true` with only whitespace around it reads as true |
| Script.AccountNames | src/main/lib/utils.ts:77 | the account names join back to the trimmed output, and none contains `, ` |
| Script.AccountNamesRoundTrip | src/main/lib/utils.ts:77 | names that are trimmed, non-empty and free of `, ` come back from the printed list unchanged |
| Sync.ParseEntryName | src/main/lib/sync.ts:129-131 | a name parses exactly when it has a `/` and a `--`; the title has no `--` and no `(`, the id has no `.`, and both are trimmed |
| Sync.EntryNameRoundTrip | src/main/lib/sync.ts:129-131 | `<folder>/<title>--<id>.md` parses back to the title and the id |
| Sync.NotePrimaryKey | src/main/lib/sync.ts:165-168 | there is a key exactly when the id ends in `p` and digits, and the key is those digits |
| Sync.NotePrimaryKeyOfId | src/main/lib/sync.ts:165-168 | an id ending in `p<n>` yields the key `n` |
| Sync.NoKeyWithoutDigit | src/main/lib/sync.ts:165-168 | an id not ending in a digit yields no key |
| Sync.RemoveBooks | src/main/lib/sync.ts:373-392 | the list keeps exactly the books not removed; an empty removal changes nothing |
| Sync.KeepOutAppend | src/main/lib/sync.ts:379-381 | the filter keeps order: filtering a concatenation concatenates the filtered parts |
| Sync.RemoveBooksIdempotent | src/main/lib/sync.ts:373-392 | removing the same books twice is removing them once |
| Sync.RecordEntry | src/main/lib/sync.ts:221-245 | a failed save, or a failure with a known id, appends the id to the failed books; otherwise the id leaves both lists and nothing else changes |
| Sync.ErrorMessage | src/main/lib/sync.ts:465-473 | 409 and 417 have their own messages, other statuses give the status text, and no response gives the connection message |
| Sync.ClassifyStatus | src/main/lib/sync.ts:428-452 | the four waiting statuses keep polling, `SUCCESS` downloads, and anything else fails |
| Sync.ExportStatusStep | src/main/lib/sync.ts:413-462 | a failure, a thrown fetch or a bad response ends the run as an error; otherwise the settings are untouched and the step follows the status |
| Sync.ClearSettingsAfterRun | src/main/lib/sync.ts:481-484 | syncing stops and the status id is zero; nothing else changes |
| Sync.HandleSyncError | src/main/lib/sync.ts:475-479 | it also marks the last sync failed; nothing else changes |
| Sync.HandleSyncSuccess | src/main/lib/sync.ts:486-493 | it marks the last sync successful, and the saved status id changes only to a truthy export id |
| Sync.QueueExport | src/main/lib/sync.ts:495-647 | a running sync is left alone; otherwise the run stays in progress exactly when it goes on to poll; the saved id never decreases; an up-to-date answer leaves it unchanged; every failure is an error run with the mapped message |
| Sync.QueueExportReleases | src/main/lib/sync.ts:586-589 | a run that does not go on to poll never blocks the next one |
| Sync.TargetBookIds | src/main/lib/sync.ts:655-664 | the requested ids, then the failed books, then the books to refresh when refreshing, in that order |
| Sync.TagLength | src/main/lib/sync.ts:27 | the length of the closing tag `</p>`, `</h1>`…`</h6>`, `</ul>` or `</ol>` at the start of a text, or 0 when there is none |
| Sync.InsertBreaksLength | src/main/lib/sync.ts:150 | the text grows by four characters per closing tag |
| Sync.BreaksRoundTrip | src/main/lib/sync.ts:150 | removing the `<br>` after every closing tag gives back the rendered HTML |

## Left out

- The enumerations of `@shared/models` are not part of this model. These are the style types, alignments, attachment UTIs, table keys and font weights. They are datatypes and string constants here.
- Binary decoding is an input. The gzip and protobuf decoding in `decodeData` is not modelled; the decoded note and table objects are given.
- The database snapshot and file reads and writes are left out. Row lookups are the `Resolver` parameter of `Formatter.FormatAttachment`; a missing row, or an embedded table or scan that fails to convert, is its answer `Thrown`. Only the file lookups are also modelled as queries (`Attachments.QueryRow`, `Attachments.FileKeyFor`), and a resolver is tied to them only where `NoteConverter.FilesFrom` is assumed. The SQL text is not modelled: a query is a selection over sync objects, and the second object of the media join contributes nothing to the path.
- Converting a linked note is left out. `resolveNote` converts and writes the linked note; the model keeps only whether that gives a file, as the resolver's `noteFile` answer. When it does, `getInternalLink` calls `this.app.fileManager`, and nothing in this code base defines `this.app`, so the model throws there.
- Colours are left out. `convertColor` scales floating-point channels, so the colour style is a given string.
- Handwriting summaries are left out. The extractor has no `includeHandwriting` option, so that branch never runs.
- The HTML switch is a parameter. `decodeData` reads a misspelt property, so in practice notes convert to Markdown; the model covers both modes.
- External services are left out: the network `fetch`, zip reading, the markdown-it renderer, running `osascript`, Electron windows and IPC, and timers.
- The concurrency-limited promise pool is left out, because it exists only for concurrency.
- `downloadExport` and the rest of the import loop are left out. They read a zip archive and call AppleScript.
- Polling is modelled one step at a time: `Sync.ExportStatusStep` is a single answer of the recursive `getExportStatus`. The one-second waits are timers.
- Text case is ASCII only. `toLowerCase` is modelled on ASCII letters, and other letters are unchanged.
- `path.join` normalisation is left out. A path join is "join the non-empty segments with `/`". The layout lemmas assume segments without `/`, `..` or `.`.
- Numbers in `sanitizeHTML` are integers only. Floating-point `toString` is not modelled.
- SQL column names and the `NULL AS zhandwritingsummary` alias are left out. They only select database columns.
- The query parameters of the export request URL are left out. They do not affect the settings.
- Script.ScriptBool: states only that a true answer means the output contained `true`. `Script.ScriptBoolPadded` and `Script.ScriptBoolOnlyPadded` give both directions, as "true exactly when the trimmed output is `true`", using the trim functions.
- Sync.EntryNameRoundTrip: assumes a title that does not end in `-` and an id made of digits. Other titles can be cut differently by the `--` split.
- Tokenizer.AttrEqualsSpec: compares the ten fields an attribute run has in the model. The source's `attrEquals` walks every field of the protobuf schema, and that schema is not part of this model. Two runs that differ only in a field the model does not have stay apart in the source and merge here: if bold runs `a ` and `b` differed so, the source would give `**a** **b**` and the model `**a b**`.
- Tokenizer.TokensSpec: the note text is a sequence of Unicode scalar values, while attribute-run lengths and `substring` count UTF-16 code units. The two agree only on text inside the Basic Multilingual Plane. In a note with an emoji or another character outside it, the source cuts every later run one unit earlier than the model does.
- Formatter.StyleCss: font sizes are whole numbers. The source's point size is a floating-point number printed as it is (`12.5pt`); fractional sizes are not modelled.
- Table.SwapWrites: swaps two neighbouring writes at a time. That every reordering keeping the order of the writes to each cell gives the same grid follows by repeated swaps, and is not stated as one lemma. `Table.ComputeCellsAt` states each cell of the result directly.
- Table.Parse: a JavaScript `TypeError` on an out-of-range object index is the outcome `Thrown`. An out-of-range UUID index gives `undefined` in JavaScript; the model keeps the locations it names under the key `None`, as JavaScript keeps them under the property name "undefined".

## Findings

| source | as written | input that shows it | evidently intended | confidence | as-written member | corrected member |
|---|---|---|---|---|---|---|
| src/main/lib/convert-note.ts:349-356 | the indent of a numbered list is recorded only when the counter is reset from a non-zero value, so the first item of an indented list leaves the recorded indent at 0 | three numbered items at indent 1 render as `1.`, `1.`, `2.` | consecutive numbered items at one indent count 1, 2, 3 | high (not executed) | Formatter.NumberingAsWrittenRepeats | Formatter.NumberingCounts |
| src/main/lib/convert-note.ts:143 | in table mode the escaped string from `replace` is discarded, and only the first occurrence would be replaced anyway | a cell whose text is `a`, a pipe and `b` renders as a row that reads back as the two cells `a` and `b` | every line break and pipe in a cell is escaped, so the table reads back cell for cell | high (not executed) | Table.AsWrittenPipeSplitsCell | Table.TableRoundTrip |
| src/main/lib/sync.ts:586-589 | when the fetch in `queueExport` throws, it returns without `handleSyncError`, so `isSyncing` stays true | a network failure on one run, then any later run until the app restarts or the user disconnects: the later run answers "already in progress"; the flag is cleared only when the app is ready (src/main/index.ts:156-160), on disconnect (src/main/index.ts:287) and before quitting (src/main/index.ts:336-340) | a thrown fetch ends the run as an error ("Can't connect to server"), as other failures do | medium (not executed) | Sync.AsWrittenThrowBlocksLaterRuns | Sync.QueueExport |
| src/main/lib/convert-note.ts:409-414 | the URL card's row is read by calling `this.importer.database` itself as a template tag, without `.get`; the handle is an object, so the call throws and the note fails to convert | any note holding an attachment of type `public.url` | the row is read with `.get`, as in every other branch, and the card renders as `[**title**](url)` | medium (not executed; the SQLite wrapper is not part of this model) | NoteConverter.UrlCardNoteThrows | Formatter.FormatAttachment |

=== FILE: attachments.dfy ===
/** The pure parts of the Apple Notes importer around attachments: file
    name splitting, where an attachment's file lives in the notes
    container (which depends on the Notes version through the generation
    columns), the database queries that find an attachment's row, and
    whether an account is an iCloud account. The database is an input: a
    sequence of sync objects whose text columns may be NULL. */
module Attachments {
  import opened Base
  import opened NoteModel

  // ---------------------------------------------------------------------
  // splitext

  /** `s.lastIndexOf(c)` */
  function LastIndexOf(s: string, c: char): (r: int)
    ensures -1 <= r < |s|
    ensures r >= 0 ==> s[r] == c && forall k :: r < k < |s| ==> s[k] != c
    ensures r == -1 <==> c !in s
  {
    if |s| == 0 then -1
    else if s[|s| - 1] == c then |s| - 1
    else LastIndexOf(s[..|s| - 1], c)
  }

  datatype NameParts = NameParts(basename: string, extension: string)

  /** `splitext`: a name splits at its last dot unless that dot is the
      first character (a dotfile) or there is none. The extension is
      lower-cased. */
  function Splitext(name: string): (r: NameParts)
    ensures '.' !in r.extension
    ensures forall i :: 0 <= i < |r.extension| ==> !('A' <= r.extension[i] <= 'Z')
    ensures |name| == 0 || '.' !in name[1..] ==> r == NameParts(name, "")
    ensures |name| > 0 && '.' in name[1..] ==>
      var b := |r.basename|;
      0 < b < |name| && name == r.basename + "." + name[b + 1..]
      && '.' !in name[b + 1..] && r.extension == ToLowerAscii(name[b + 1..])
  {
    var dot := LastIndexOf(name, '.');
    if dot > 0 then
      assert name == name[..dot] + "." + name[dot + 1..];
      assert '.' in name[1..] by { assert name[1..][dot - 1] == '.'; }
      NameParts(name[..dot], ToLowerAscii(name[dot + 1..]))
    else
      NameParts(name, "")
  }

  /** A name whose extension is already lower case is the basename, a dot
      and the extension, whenever it has a dot past its first character. */
  lemma SplitextRejoins(name: string)
    requires |name| > 0 && '.' in name[1..]
    requires var b := |Splitext(name).basename|;
      forall i :: b + 1 <= i < |name| ==> !('A' <= name[i] <= 'Z')
    ensures name == Splitext(name).basename + "." + Splitext(name).extension
  {
    var r := Splitext(name);
    var b := |r.basename|;
    var ext := name[b + 1..];
    assert r.extension == ext by {
      forall i | 0 <= i < |ext| ensures r.extension[i] == ext[i] {
        assert !('A' <= name[b + 1 + i] <= 'Z');
      }
    }
  }

  // ---------------------------------------------------------------------
  // Paths

  /** The segments that are not empty, in order. */
  function NonEmpty(segs: seq<string>): (r: seq<string>)
    ensures |r| <= |segs|
    ensures forall i :: 0 <= i < |r| ==> r[i] != ""
  {
    if |segs| == 0 then []
    else if segs[0] == "" then NonEmpty(segs[1..])
    else [segs[0]] + NonEmpty(segs[1..])
  }

  /** `path.join` for segments without `..`: empty segments are dropped and
      the rest are joined with `/`; nothing at all gives ".". */
  function PathJoin(segs: seq<string>): (r: string)
    ensures r != ""
  {
    var kept := NonEmpty(segs);
    if |kept| == 0 then "."
    else
      assert kept[0] != "";
      JoinNonEmpty(kept, "/");
      JoinWith(kept, "/")
  }

  lemma {:induction false} JoinNonEmpty(parts: seq<string>, sep: string)
    requires |parts| >= 1 && parts[0] != ""
    ensures JoinWith(parts, sep) != ""
  {
    if |parts| > 1 {
      assert JoinWith(parts, sep)[0] == parts[0][0];
    }
  }

  /** Splitting a joined path at `/` gives back its non-empty segments,
      when no segment holds a slash. */
  lemma PathJoinSplits(segs: seq<string>)
    requires forall i :: 0 <= i < |segs| ==> '/' !in segs[i]
    requires |NonEmpty(segs)| >= 1
    ensures SplitOn(PathJoin(segs), "/") == NonEmpty(segs)
  {
    NonEmptyKeepsOut(segs, '/');
    SplitJoinChar(NonEmpty(segs), '/');
  }

  lemma {:induction false} NonEmptyKeepsOut(segs: seq<string>, c: char)
    requires forall i :: 0 <= i < |segs| ==> c !in segs[i]
    ensures forall i :: 0 <= i < |NonEmpty(segs)| ==> c !in NonEmpty(segs)[i]
  {
    if |segs| > 0 {
      NonEmptyKeepsOut(segs[1..], c);
    }
  }

  lemma NonEmptyCons(s: string, rest: seq<string>)
    ensures NonEmpty([s] + rest) == (if s == "" then [] else [s]) + NonEmpty(rest)
  {
    assert ([s] + rest)[1..] == rest;
  }

  // ---------------------------------------------------------------------
  // resolveAttachment

  /** The columns of an attachment row the path depends on, as the
      importer uses them: an identifier or file name that reached this
      point is text (a NULL one printed by a template literal reads
      "null"), an absent generation is "", and a size is NULL or a
      number. */
  datatype AttachmentRow = AttachmentRow(
    identifier: string,
    generation: string,
    sizeWidth: Option<nat>,
    sizeHeight: Option<nat>,
    filename: string)

  /** Where the file is inside the account folder, and the name and
      extension it is exported under. */
  datatype Resolved = Resolved(sourcePath: string, outName: string, outExt: string)

  /** A size as a template literal prints it. */
  function SizeText(size: Option<nat>): (r: string)
    ensures size.None? ==> r == "null"
    ensures size.Some? ==> ParseNat(r) == size.value
    ensures '/' !in r && 'x' !in r
  {
    match size
    case None => "null"
    case Some(n) => NatToStringRoundTrip(n); NatToString(n)
  }

  /** The preview file name of a scanned page. */
  function ScanPreviewName(row: AttachmentRow): string {
    row.identifier + "-1-" + SizeText(row.sizeWidth) + "x" + SizeText(row.sizeHeight) + "-0.jpeg"
  }

  /** The `switch` of `resolveAttachment` on the type identifier. */
  function SourceFor(uti: string, row: AttachmentRow): (r: Resolved)
    ensures r.sourcePath != ""
    ensures uti == UtiModifiedScan ==> r.outName == "Scan" && r.outExt == "pdf"
    ensures uti == UtiScan ==> r.outName == "Scan Page" && r.outExt == "jpg"
    ensures uti == UtiDrawing ==> r.outName == "Drawing" && r.outExt == "png"
    ensures uti !in {UtiModifiedScan, UtiScan, UtiDrawing} ==>
      NameParts(r.outName, r.outExt) == Splitext(row.filename)
  {
    if uti == UtiModifiedScan then
      Resolved(PathJoin(["FallbackPDFs", row.identifier, row.generation, "FallbackPDF.pdf"]), "Scan", "pdf")
    else if uti == UtiScan then
      Resolved(PathJoin(["Previews", ScanPreviewName(row)]), "Scan Page", "jpg")
    else if uti == UtiDrawing then
      var p :=
        if row.generation != "" then PathJoin(["FallbackImages", row.identifier, row.generation, "FallbackImage.png"])
        else PathJoin(["FallbackImages", row.identifier + ".jpg"]);
      Resolved(p, "Drawing", "png")
    else
      var parts := Splitext(row.filename);
      Resolved(PathJoin(["Media", row.identifier, row.generation, row.filename]), parts.basename, parts.extension)
  }

  /** The optional generation segment. */
  function GenerationSegment(gen: string): seq<string> {
    if gen == "" then [] else [gen]
  }

  /** Identifiers, generations and file names are single path segments. */
  predicate SegmentsOk(row: AttachmentRow) {
    row.identifier != "" && '/' !in row.identifier && '/' !in row.generation
    && row.filename != "" && '/' !in row.filename
  }

  /** A modified scan lives at `FallbackPDFs/<id>/[<generation>/]FallbackPDF.pdf`. */
  lemma ModifiedScanLayout(row: AttachmentRow)
    requires SegmentsOk(row)
    ensures SplitOn(SourceFor(UtiModifiedScan, row).sourcePath, "/")
      == ["FallbackPDFs", row.identifier] + GenerationSegment(row.generation) + ["FallbackPDF.pdf"]
  {
    var segs := ["FallbackPDFs", row.identifier, row.generation, "FallbackPDF.pdf"];
    NonEmptyChain(segs);
    PathJoinSplits(segs);
  }

  /** A drawing with a generation lives at
      `FallbackImages/<id>/<generation>/FallbackImage.png`; without one at
      `FallbackImages/<id>.jpg`. */
  lemma DrawingLayout(row: AttachmentRow)
    requires SegmentsOk(row)
    ensures row.generation != "" ==>
      SplitOn(SourceFor(UtiDrawing, row).sourcePath, "/")
        == ["FallbackImages", row.identifier, row.generation, "FallbackImage.png"]
    ensures row.generation == "" ==>
      SplitOn(SourceFor(UtiDrawing, row).sourcePath, "/") == ["FallbackImages", row.identifier + ".jpg"]
  {
    if row.generation != "" {
      var segs := ["FallbackImages", row.identifier, row.generation, "FallbackImage.png"];
      NonEmptyChain(segs);
      PathJoinSplits(segs);
    } else {
      var segs := ["FallbackImages", row.identifier + ".jpg"];
      NonEmptyCons("FallbackImages", [row.identifier + ".jpg"]);
      NonEmptyCons(row.identifier + ".jpg", []);
      assert '/' !in row.identifier + ".jpg";
      PathJoinSplits(segs);
    }
  }

  /** Any other attachment is a media file at
      `Media/<id>/[<generation>/]<filename>`. */
  lemma MediaLayout(row: AttachmentRow, uti: string)
    requires SegmentsOk(row)
    requires uti !in {UtiModifiedScan, UtiScan, UtiDrawing}
    ensures SplitOn(SourceFor(uti, row).sourcePath, "/")
      == ["Media", row.identifier] + GenerationSegment(row.generation) + [row.filename]
  {
    var segs := ["Media", row.identifier, row.generation, row.filename];
    NonEmptyChain(segs);
    PathJoinSplits(segs);
  }

  /** A scanned page's preview is `Previews/<id>-1-<width>x<height>-0.jpeg`,
      and the dimensions, when both are there, read back from the name. */
  lemma ScanLayout(row: AttachmentRow)
    requires SegmentsOk(row)
    ensures SplitOn(SourceFor(UtiScan, row).sourcePath, "/") == ["Previews", ScanPreviewName(row)]
    ensures var dims := SizeText(row.sizeWidth) + "x" + SizeText(row.sizeHeight);
      SplitOn(dims, "x") == [SizeText(row.sizeWidth), SizeText(row.sizeHeight)]
      && (row.sizeWidth.Some? ==> ParseNat(SplitOn(dims, "x")[0]) == row.sizeWidth.value)
      && (row.sizeHeight.Some? ==> ParseNat(SplitOn(dims, "x")[1]) == row.sizeHeight.value)
  {
    ScanPath(row);
    ScanDimensions(row.sizeWidth, row.sizeHeight);
  }

  lemma ScanPath(row: AttachmentRow)
    requires SegmentsOk(row)
    ensures SplitOn(SourceFor(UtiScan, row).sourcePath, "/") == ["Previews", ScanPreviewName(row)]
  {
    var name := ScanPreviewName(row);
    var w, h := SizeText(row.sizeWidth), SizeText(row.sizeHeight);
    assert name == row.identifier + "-1-" + w + "x" + h + "-0.jpeg";
    assert '/' !in name;
    assert ["Previews", name] == ["Previews"] + [name];
    NonEmptyCons("Previews", [name]);
    assert [name] == [name] + [];
    NonEmptyCons(name, []);
    PathJoinSplits(["Previews", name]);
  }

  lemma ScanDimensions(width: Option<nat>, height: Option<nat>)
    ensures var dims := SizeText(width) + "x" + SizeText(height);
      SplitOn(dims, "x") == [SizeText(width), SizeText(height)]
  {
    var w, h := SizeText(width), SizeText(height);
    assert JoinWith([w, h], "x") == w + "x" + h;
    SplitJoinChar([w, h], 'x');
  }

  lemma NonEmptyChain(segs: seq<string>)
    requires |segs| == 4 && segs[0] != "" && segs[1] != "" && segs[3] != ""
    ensures NonEmpty(segs) == [segs[0], segs[1]] + GenerationSegment(segs[2]) + [segs[3]]
  {
    var a, b, c, d := segs[0], segs[1], segs[2], segs[3];
    var t3 := NonEmpty([d]);
    NonEmptyCons(d, []);
    assert [d] + [] == [d];
    assert t3 == [d];
    var t2 := NonEmpty([c, d]);
    NonEmptyCons(c, [d]);
    assert [c] + [d] == [c, d];
    assert t2 == GenerationSegment(c) + [d];
    var t1 := NonEmpty([b, c, d]);
    NonEmptyCons(b, [c, d]);
    assert [b] + [c, d] == [b, c, d];
    assert t1 == [b] + t2;
    NonEmptyCons(a, [b, c, d]);
    assert [a] + [b, c, d] == segs;
    assert NonEmpty(segs) == [a] + t1;
  }

  // ---------------------------------------------------------------------
  // The attachment queries

  /** The entities of `ziccloudsyncingobject` the queries tell apart. */
  datatype Entity = ICAttachment | ICMedia | OtherEntity

  /** The columns of a sync object the attachment queries read, each of
      which the database may hold as NULL. */
  datatype RawRow = RawRow(
    identifier: Option<string>,
    generation: Option<string>,
    sizeWidth: Option<nat>,
    sizeHeight: Option<nat>,
    filename: Option<string>)

  /** A row of `ziccloudsyncingobject`: its entity, its primary key, the
      key of the media object it names (`zmedia`) and its columns. */
  datatype SyncObject = SyncObject(entity: Entity, pk: int, media: Option<int>, columns: RawRow)

  /** Primary keys are unique and, as Core Data numbers them, positive. */
  predicate KeysValid(db: seq<SyncObject>) {
    && (forall i :: 0 <= i < |db| ==> db[i].pk > 0)
    && (forall i, j :: 0 <= i < j < |db| ==> db[i].pk != db[j].pk)
  }

  /** Some object names `pk` as its media. */
  predicate IsMediaOf(db: seq<SyncObject>, pk: int) {
    exists j :: 0 <= j < |db| && db[j].media == Some(pk)
  }

  /** The three types `resolveAttachment` looks up as attachment objects. */
  predicate IsAttachmentQuery(uti: string) {
    uti in {UtiModifiedScan, UtiScan, UtiDrawing}
  }

  /** Whether the query of `resolveAttachment` for `uti` and `key` selects
      object `i`: for a modified scan, a scan or a drawing an attachment
      object with that key; for any other type a media object with that
      key that some object names as its media. */
  predicate Selects(db: seq<SyncObject>, uti: string, key: int, i: int)
    requires 0 <= i < |db|
  {
    if IsAttachmentQuery(uti) then db[i].entity == ICAttachment && db[i].pk == key
    else db[i].entity == ICMedia && db[i].pk == key && IsMediaOf(db, key)
  }

  /** `database.get`: the first row the query selects, if any. */
  function QueryRow(db: seq<SyncObject>, uti: string, key: int): (r: Option<RawRow>)
    ensures r.None? <==> forall i :: 0 <= i < |db| ==> !Selects(db, uti, key, i)
    ensures r.Some? ==> exists i :: 0 <= i < |db| && Selects(db, uti, key, i) && r.value == db[i].columns
  {
    FirstSelected(db, uti, key, 0)
  }

  function FirstSelected(db: seq<SyncObject>, uti: string, key: int, from: nat): (r: Option<RawRow>)
    requires from <= |db|
    ensures r.None? <==> forall i :: from <= i < |db| ==> !Selects(db, uti, key, i)
    ensures r.Some? ==> exists i :: from <= i < |db| && Selects(db, uti, key, i) && r.value == db[i].columns
    decreases |db| - from
  {
    if from == |db| then None
    else if Selects(db, uti, key, from) then Some(db[from].columns)
    else FirstSelected(db, uti, key, from + 1)
  }

  /** An absent generation, NULL or empty, is "" (`|| ''` and the test of
      the drawing branch). */
  function Generation(raw: RawRow): string {
    match raw.generation
    case None => ""
    case Some(g) => g
  }

  /** Where a NULL identifier goes into a template literal rather than
      `path.join`: the preview name of a scan, and the file name of a
      drawing without a generation. */
  predicate IdentifierPrinted(uti: string, raw: RawRow) {
    uti == UtiScan || (uti == UtiDrawing && Generation(raw) == "")
  }

  /** What the branch of `resolveAttachment` for `uti` makes of a row's
      columns: `path.join` throws on a NULL identifier or file name it is
      given, while a template literal prints a NULL identifier as "null". */
  function Columns(uti: string, raw: RawRow): (r: Outcome<AttachmentRow>)
    ensures r.Thrown? <==>
      (raw.identifier.None? && !IdentifierPrinted(uti, raw))
      || (raw.filename.None? && !IsAttachmentQuery(uti))
    ensures r.Done? ==>
      && r.value.identifier == (if raw.identifier.Some? then raw.identifier.value else "null")
      && (raw.generation.Some? ==> r.value.generation == raw.generation.value)
      && (raw.generation.None? ==> r.value.generation == "")
      && r.value.sizeWidth == raw.sizeWidth && r.value.sizeHeight == raw.sizeHeight
      && (!IsAttachmentQuery(uti) ==> raw.filename == Some(r.value.filename))
  {
    if raw.identifier.None? && !IdentifierPrinted(uti, raw) then Thrown
    else if raw.filename.None? && !IsAttachmentQuery(uti) then Thrown
    else
      var id := match raw.identifier case None => "null" case Some(x) => x;
      var name := match raw.filename case None => "" case Some(x) => x;
      Done(AttachmentRow(id, Generation(raw), raw.sizeWidth, raw.sizeHeight, name))
  }

  /** The row `resolveAttachment` works from: `Thrown` when the query
      finds none (reading a column of `undefined`) or a column it needs
      is NULL. */
  function RowFor(db: seq<SyncObject>, uti: string, key: int): (r: Outcome<AttachmentRow>)
    ensures QueryRow(db, uti, key).None? ==> r.Thrown?
    ensures QueryRow(db, uti, key).Some? ==> r == Columns(uti, QueryRow(db, uti, key).value)
  {
    match QueryRow(db, uti, key)
    case None => Thrown
    case Some(raw) => Columns(uti, raw)
  }

  /** `resolveAttachment`: with no database the importer returns null;
      otherwise it queries the row for the key and type and the file is
      the account folder joined with the row's source path. */
  function ResolveAttachment(db: Option<seq<SyncObject>>, accountPath: string, uti: string, key: int): (r: Outcome<Option<string>>)
    ensures db.None? ==> r == Done(None)
    ensures db.Some? ==> (r.Thrown? <==> RowFor(db.value, uti, key).Thrown?)
    ensures db.Some? && r.Done? ==> r.value.Some?
    ensures db.Some? && r.Done? && accountPath != "" ==>
      r.value.value == accountPath + "/" + SourceFor(uti, RowFor(db.value, uti, key).value).sourcePath
    ensures db.Some? && r.Done? && accountPath != "" && '/' !in accountPath && SegmentsOk(RowFor(db.value, uti, key).value) ==>
      SplitOn(r.value.value, "/") == [accountPath] + SplitOn(SourceFor(uti, RowFor(db.value, uti, key).value).sourcePath, "/")
  {
    if db.None? then Done(None)
    else
      match RowFor(db.value, uti, key)
      case Thrown => Thrown
      case Done(row) =>
        var source := SourceFor(uti, row).sourcePath;
        AccountPrefix(accountPath, source);
        AccountJoin(accountPath, uti, row);
        Done(Some(PathJoin([accountPath, source])))
  }

  /** The path the formatter sees: "" when there is no database. */
  function AttachmentPath(db: Option<seq<SyncObject>>, accountPath: string, uti: string, key: int): (r: Outcome<string>)
    ensures r.Thrown? <==> ResolveAttachment(db, accountPath, uti, key).Thrown?
    ensures r == Done("") <==> db.None?
  {
    match ResolveAttachment(db, accountPath, uti, key)
    case Thrown => Thrown
    case Done(None) => Done("")
    case Done(Some(p)) => Done(p)
  }

  // ---------------------------------------------------------------------
  // The key formatAttachment resolves

  /** The first object whose identifier is `identifier`. */
  function FirstWithIdentifier(db: seq<SyncObject>, identifier: string, from: nat): (r: Option<nat>)
    requires from <= |db|
    ensures r.Some? ==>
      && from <= r.value < |db| && db[r.value].columns.identifier == Some(identifier)
      && (forall i :: from <= i < r.value ==> db[i].columns.identifier != Some(identifier))
    ensures r.None? ==> forall i :: from <= i < |db| ==> db[i].columns.identifier != Some(identifier)
    decreases |db| - from
  {
    if from == |db| then None
    else if db[from].columns.identifier == Some(identifier) then Some(from)
    else FirstWithIdentifier(db, identifier, from + 1)
  }

  /** The key `formatAttachment` hands to `resolveAttachment`, read from
      the object with the attachment's identifier: its primary key for a
      modified scan or any drawing, the media it names for any other file;
      0 (no file) when there is no such object or no media. */
  function FileKeyFor(db: seq<SyncObject>, kind: AttachmentKind, identifier: string): (r: int)
    ensures FirstWithIdentifier(db, identifier, 0).None? ==> r == 0
    ensures kind in {ModifiedScan, DrawingLegacy, DrawingLegacy2, Drawing} && FirstWithIdentifier(db, identifier, 0).Some? ==>
      r == db[FirstWithIdentifier(db, identifier, 0).value].pk
    ensures kind == Media && FirstWithIdentifier(db, identifier, 0).Some? ==>
      (var o := db[FirstWithIdentifier(db, identifier, 0).value];
       r == (if o.media.Some? then o.media.value else 0))
  {
    match FirstWithIdentifier(db, identifier, 0)
    case None => 0
    case Some(i) =>
      if kind in {ModifiedScan, DrawingLegacy, DrawingLegacy2, Drawing} then db[i].pk
      else if kind == Media then (match db[i].media case None => 0 case Some(m) => m)
      else 0
  }

  /** The attachment's identifier names an attachment object. */
  predicate NamesAttachment(db: seq<SyncObject>, identifier: string) {
    && FirstWithIdentifier(db, identifier, 0).Some?
    && db[FirstWithIdentifier(db, identifier, 0).value].entity == ICAttachment
  }

  /** A legacy drawing is looked up by its attachment object's key but
      resolved through the media query, which selects only media objects:
      with unique keys no row is found, so resolving it throws. */
  lemma LegacyDrawingNeverResolves(db: seq<SyncObject>, accountPath: string, uti: string, identifier: string)
    requires uti == UtiDrawingLegacy || uti == UtiDrawingLegacy2
    requires KeysValid(db) && NamesAttachment(db, identifier)
    ensures FileKeyFor(db, KindOf(uti), identifier) != 0
    ensures ResolveAttachment(Some(db), accountPath, uti, FileKeyFor(db, KindOf(uti), identifier)) == Thrown
  {
    var a := FirstWithIdentifier(db, identifier, 0).value;
    var key := FileKeyFor(db, KindOf(uti), identifier);
    assert key == db[a].pk;
    assert !IsAttachmentQuery(uti);
    forall i | 0 <= i < |db| && db[i].pk == key ensures !Selects(db, uti, key, i) {
      SameKey(db, i, a);
    }
  }

  /** Two objects with the same key are the same object. */
  lemma SameKey(db: seq<SyncObject>, i: int, j: int)
    requires KeysValid(db) && 0 <= i < |db| && 0 <= j < |db| && db[i].pk == db[j].pk
    ensures i == j
  {
  }

  /** A current drawing is looked up and resolved as the same attachment
      object, so it resolves whenever its identifier is not NULL. */
  lemma DrawingResolves(db: seq<SyncObject>, accountPath: string, identifier: string)
    requires KeysValid(db) && NamesAttachment(db, identifier)
    ensures FileKeyFor(db, Drawing, identifier) != 0
    ensures ResolveAttachment(Some(db), accountPath, UtiDrawing, FileKeyFor(db, Drawing, identifier)).Done?
  {
    var a := FirstWithIdentifier(db, identifier, 0).value;
    var key := FileKeyFor(db, Drawing, identifier);
    assert Selects(db, UtiDrawing, key, a);
    var raw := QueryRow(db, UtiDrawing, key).value;
    var i :| 0 <= i < |db| && Selects(db, UtiDrawing, key, i) && raw == db[i].columns;
    SameKey(db, i, a);
    assert raw.identifier == Some(identifier);
  }

  /** Joining a non-empty folder and a non-empty relative path puts one
      slash between them. */
  lemma AccountPrefix(folder: string, source: string)
    requires source != ""
    ensures folder != "" ==> PathJoin([folder, source]) == folder + "/" + source
  {
    if folder != "" {
      assert [folder, source] == [folder] + [source];
      NonEmptyCons(folder, [source]);
      assert [source] == [source] + [];
      NonEmptyCons(source, []);
      assert NonEmpty([folder, source]) == [folder, source];
      JoinCons(folder, [source], "/");
    }
  }

  lemma AccountJoin(accountPath: string, uti: string, row: AttachmentRow)
    ensures accountPath != "" && '/' !in accountPath && SegmentsOk(row) ==>
      SplitOn(PathJoin([accountPath, SourceFor(uti, row).sourcePath]), "/")
      == [accountPath] + SplitOn(SourceFor(uti, row).sourcePath, "/")
  {
    if accountPath != "" && '/' !in accountPath && SegmentsOk(row) {
      var source := SourceFor(uti, row).sourcePath;
      var parts := SplitOn(source, "/");
      assert JoinWith(parts, "/") == source;
      assert [accountPath, source] == [accountPath] + [source];
      NonEmptyCons(accountPath, [source]);
      assert [source] == [source] + [];
      NonEmptyCons(source, []);
      assert NonEmpty([accountPath, source]) == [accountPath, source];
      assert [accountPath, source][1..] == [source];
      assert JoinWith([accountPath, source], "/") == accountPath + "/" + source;
      assert PathJoin([accountPath, source]) == accountPath + "/" + source;
      assert JoinWith([accountPath] + parts, "/") == accountPath + "/" + source by {
        JoinWithAppend([accountPath], parts, "/");
      }
      SplitJoinChar([accountPath] + parts, '/') by {
        forall i | 0 <= i < |[accountPath] + parts| ensures '/' !in ([accountPath] + parts)[i] {
          if i > 0 {
            assert ([accountPath] + parts)[i] == parts[i - 1];
            NotContainsChar(parts[i - 1], '/');
          }
        }
      }
    }
  }

  // ---------------------------------------------------------------------
  // resolveAccountType

  datatype AccountRow = AccountRow(entity: int, name: string, identifier: string)

  /** The first account row of the account entity with that name. */
  function FindAccount(rows: seq<AccountRow>, accountEntity: int, name: string): (r: Option<nat>)
    ensures r.Some? ==> r.value < |rows| && rows[r.value].entity == accountEntity && rows[r.value].name == name
    ensures r.None? ==> forall i :: 0 <= i < |rows| ==> !(rows[i].entity == accountEntity && rows[i].name == name)
  {
    if |rows| == 0 then None
    else if rows[0].entity == accountEntity && rows[0].name == name then Some(0)
    else
      match FindAccount(rows[1..], accountEntity, name)
      case None => None
      case Some(i) => Some(i + 1)
  }

  /** `resolveAccountType`: `undefined` (here `None`) without a database,
      otherwise whether an account row has that name. */
  function ResolveAccountType(database: Option<seq<AccountRow>>, accountEntity: int, name: string): (r: Option<bool>)
    ensures r.None? <==> database.None?
    ensures r == Some(true) <==>
      (database.Some? &&
       exists i :: 0 <= i < |database.value| && database.value[i].entity == accountEntity && database.value[i].name == name)
  {
    if database.None? then None
    else Some(FindAccount(database.value, accountEntity, name).Some?)
  }
}

=== FILE: base.dfy ===
/** Shared vocabulary: an optional value, JavaScript's whitespace class, and the
    string helpers the converters lean on (trim, split on a separator, join,
    decimal rendering). Every other module imports this one. */
module Base {

  datatype Option<+T> = None | Some(value: T)

  /** The result of code that can raise: a value, or a `TypeError` thrown
      by reading a field of `undefined` or calling something that is not a
      function. */
  datatype Outcome<T> = Done(value: T) | Thrown

  /** The characters JavaScript's `\s` matches; `String.prototype.trim`
      strips the same set. */
  predicate IsWs(c: char) {
    || c == ' ' || c == '\t' || c == '\n' || c == '\r' || c == '\U{B}' || c == '\U{C}'
    || c == '\U{A0}' || c == '\U{1680}' || ('\U{2000}' <= c <= '\U{200A}')
    || c == '\U{2028}' || c == '\U{2029}' || c == '\U{202F}' || c == '\U{205F}'
    || c == '\U{3000}' || c == '\U{FEFF}'
  }

  predicate AllWs(s: string) {
    forall i :: 0 <= i < |s| ==> IsWs(s[i])
  }

  /** `/\S/.test(s)` */
  predicate HasNonWs(s: string) {
    exists i :: 0 <= i < |s| && !IsWs(s[i])
  }

  /** `sub` occurs in `s` starting at index `k`. */
  predicate OccursAt(s: string, sub: string, k: nat) {
    k + |sub| <= |s| && s[k..k + |sub|] == sub
  }

  /** `s.includes(sub)` */
  predicate Contains(s: string, sub: string) {
    exists k :: 0 <= k <= |s| - |sub| && OccursAt(s, sub, k)
  }

  function Concat(parts: seq<string>): string {
    if |parts| == 0 then "" else parts[0] + Concat(parts[1..])
  }

  lemma ConcatAppend(a: seq<string>, b: seq<string>)
    ensures Concat(a + b) == Concat(a) + Concat(b)
  {
    if |a| == 0 {
      assert a + b == b;
    } else {
      assert (a + b)[1..] == a[1..] + b;
      ConcatAppend(a[1..], b);
    }
  }

  /** The first index at or after `i` that holds no whitespace, or `|s|`. */
  function SkipWs(s: string, i: nat): (k: nat)
    requires i <= |s|
    ensures i <= k <= |s| && (k == |s| || !IsWs(s[k]))
    ensures forall j :: i <= j < k ==> IsWs(s[j])
    decreases |s| - i
  {
    if i < |s| && IsWs(s[i]) then SkipWs(s, i + 1) else i
  }

  /** The end of the last character before `j` that is not whitespace, or
      0 when there is none. */
  function SkipWsBack(s: string, j: nat): (k: nat)
    requires j <= |s|
    ensures k <= j && (k == 0 || !IsWs(s[k - 1]))
    ensures forall m :: k <= m < j ==> IsWs(s[m])
    decreases j
  {
    if j > 0 && IsWs(s[j - 1]) then SkipWsBack(s, j - 1) else j
  }

  /** `String.prototype.trim`: the result is the slice of `s` left after the
      leading whitespace (up to `SkipWs(s, 0)`) and the trailing whitespace
      are cut; it neither begins nor ends with whitespace. */
  function Trim(s: string): (r: string)
    ensures var a := SkipWs(s, 0);
      a + |r| <= |s| && r == s[a..a + |r|] && AllWs(s[..a]) && AllWs(s[a + |r|..])
    ensures r == [] || (!IsWs(r[0]) && !IsWs(r[|r| - 1]))
  {
    var a := SkipWs(s, 0);
    if a == |s| then [] else s[a..SkipWsBack(s, |s|)]
  }

  /** The leading whitespace ends exactly where the first other character
      is. */
  lemma SkipWsAt(s: string, i: nat, k: nat)
    requires i <= k <= |s| && (k == |s| || !IsWs(s[k]))
    requires forall j :: i <= j < k ==> IsWs(s[j])
    ensures SkipWs(s, i) == k
  {
  }

  /** The trailing whitespace starts exactly after the last other
      character. */
  lemma SkipWsBackAt(s: string, j: nat, k: nat)
    requires k <= j <= |s| && (k == 0 || !IsWs(s[k - 1]))
    requires forall m :: k <= m < j ==> IsWs(s[m])
    ensures SkipWsBack(s, j) == k
  {
  }

  /** Text of whitespace only trims to nothing. */
  lemma TrimAllWs(s: string)
    requires AllWs(s)
    ensures Trim(s) == ""
  {
    var r := Trim(s);
    var a := SkipWs(s, 0);
    AllWsSlice(s, a, a + |r|);
  }

  /** A slice of whitespace-only text is whitespace only. */
  lemma AllWsSlice(s: string, p: nat, q: nat)
    requires AllWs(s) && p <= q <= |s|
    ensures AllWs(s[p..q])
  {
    forall i | 0 <= i < q - p ensures IsWs(s[p..q][i]) {
      assert s[p..q][i] == s[p + i];
    }
  }

  lemma TrimKeepsOut(s: string, c: char)
    requires c !in s
    ensures c !in Trim(s)
  {
    var r := Trim(s);
    var a := SkipWs(s, 0);
    assert forall i :: 0 <= i < |r| ==> r[i] == s[a + i];
  }

  /** Trimming text that has whitespace only around a core that neither
      begins nor ends with whitespace gives back the core. */
  lemma TrimPadded(lead: string, core: string, trail: string)
    requires AllWs(lead) && AllWs(trail)
    requires core != [] && !IsWs(core[0]) && !IsWs(core[|core| - 1])
    ensures Trim(lead + core + trail) == core
  {
    var s := lead + core + trail;
    var a, b := |lead|, |lead| + |core|;
    forall j | 0 <= j < a ensures IsWs(s[j]) {
      assert s[j] == lead[j];
    }
    assert s[a] == core[0];
    SkipWsAt(s, 0, a);
    forall m | b <= m < |s| ensures IsWs(s[m]) {
      assert s[m] == trail[m - b];
    }
    assert s[b - 1] == core[|core| - 1];
    SkipWsBackAt(s, |s|, b);
    assert s[a..b] == core;
  }

  /** `s.split(sep)` for a non-empty string separator, following the
      ECMAScript split loop: `p` is where the current piece starts, `q` the
      position tried next; occurrences are taken leftmost first and never
      overlap. */
  function SplitFrom(s: string, sep: string, p: nat, q: nat): (parts: seq<string>)
    requires |sep| > 0 && p <= q <= |s|
    ensures |parts| >= 1
    decreases |s| - q
  {
    if q + |sep| > |s| then
      [s[p..]]
    else if OccursAt(s, sep, q) then
      [s[p..q]] + SplitFrom(s, sep, q + |sep|, q + |sep|)
    else
      SplitFrom(s, sep, p, q + 1)
  }

  /** Joining the pieces with the separator gives back the text split. */
  lemma {:induction false} SplitFromJoin(s: string, sep: string, p: nat, q: nat)
    requires |sep| > 0 && p <= q <= |s|
    ensures JoinWith(SplitFrom(s, sep, p, q), sep) == s[p..]
    decreases |s| - q
  {
    SplitFromStep(s, sep, p, q);
    if q + |sep| > |s| {
    } else if OccursAt(s, sep, q) {
      var next := q + |sep|;
      SplitFromJoin(s, sep, next, next);
      JoinCons(s[p..q], SplitFrom(s, sep, next, next), sep);
    } else {
      SplitFromJoin(s, sep, p, q + 1);
    }
  }

  /** One step of the scan: the rest of the text is one piece, a piece is
      cut off at an occurrence of the separator, or the scan moves on. */
  lemma SplitFromStep(s: string, sep: string, p: nat, q: nat)
    requires |sep| > 0 && p <= q <= |s|
    ensures q + |sep| > |s| ==> SplitFrom(s, sep, p, q) == [s[p..]]
    ensures q + |sep| <= |s| && OccursAt(s, sep, q) ==>
      && SplitFrom(s, sep, p, q) == [s[p..q]] + SplitFrom(s, sep, q + |sep|, q + |sep|)
      && s[p..] == s[p..q] + sep + s[q + |sep|..]
    ensures q + |sep| <= |s| && !OccursAt(s, sep, q) ==> SplitFrom(s, sep, p, q) == SplitFrom(s, sep, p, q + 1)
  {
    if q + |sep| <= |s| && OccursAt(s, sep, q) {
      assert s[p..] == s[p..q] + s[q..q + |sep|] + s[q + |sep|..];
    }
  }

  /** No piece of a split contains the separator: the scan stops at the first
      occurrence, so none is left inside a piece. */
  lemma {:induction false} SplitPiecesFree(s: string, sep: string, p: nat, q: nat)
    requires |sep| > 0 && p <= q <= |s|
    requires forall k :: p <= k < q ==> !OccursAt(s, sep, k)
    ensures forall i :: 0 <= i < |SplitFrom(s, sep, p, q)| ==> !Contains(SplitFrom(s, sep, p, q)[i], sep)
    decreases |s| - q
  {
    if q + |sep| > |s| {
      SliceFree(s, sep, p, |s|);
      assert s[p..|s|] == s[p..];
      assert SplitFrom(s, sep, p, q) == [s[p..]];
    } else if OccursAt(s, sep, q) {
      SliceFree(s, sep, p, q);
      SplitPiecesFree(s, sep, q + |sep|, q + |sep|);
    } else {
      SplitPiecesFree(s, sep, p, q + 1);
    }
  }

  lemma SliceFree(s: string, sep: string, p: nat, q: nat)
    requires |sep| > 0 && p <= q <= |s|
    requires forall k :: p <= k && k + |sep| <= q ==> !OccursAt(s, sep, k)
    ensures !Contains(s[p..q], sep)
  {
    var t := s[p..q];
    forall k | 0 <= k <= |t| - |sep| ensures !OccursAt(t, sep, k) {
      SliceOfSlice(s, p, q, k, k + |sep|);
      assert !OccursAt(s, sep, p + k);
    }
  }

  lemma SliceOfSlice(s: string, p: nat, q: nat, i: nat, j: nat)
    requires p <= q <= |s| && i <= j <= q - p
    ensures s[p..q][i..j] == s[p + i..p + j]
  {
    var a, b := s[p..q][i..j], s[p + i..p + j];
    assert |a| == |b|;
    forall k | 0 <= k < |a| ensures a[k] == b[k] {
      assert a[k] == s[p..q][i + k] == s[p + i + k];
    }
  }

  function SplitOn(s: string, sep: string): (parts: seq<string>)
    requires |sep| > 0
    ensures |parts| >= 1
    ensures forall i :: 0 <= i < |parts| ==> !Contains(parts[i], sep)
    ensures JoinWith(parts, sep) == s
  {
    SplitPiecesFree(s, sep, 0, 0);
    SplitFromJoin(s, sep, 0, 0);
    SplitFrom(s, sep, 0, 0)
  }

  /** A one-character separator that does not occur is a character that
      is not there. */
  lemma NotContainsChar(s: string, c: char)
    requires !Contains(s, [c])
    ensures c !in s
  {
    if c in s {
      var k :| 0 <= k < |s| && s[k] == c;
      assert OccursAt(s, [c], k);
    }
  }

  /** `parts.join(sep)` */
  function JoinWith(parts: seq<string>, sep: string): string {
    if |parts| == 0 then ""
    else if |parts| == 1 then parts[0]
    else parts[0] + sep + JoinWith(parts[1..], sep)
  }

  /** Joining a part in front of other parts puts one separator between. */
  lemma JoinCons(x: string, rest: seq<string>, sep: string)
    requires |rest| >= 1
    ensures JoinWith([x] + rest, sep) == x + sep + JoinWith(rest, sep)
  {
    assert ([x] + rest)[1..] == rest;
  }

  lemma {:induction false} JoinWithAppend(a: seq<string>, b: seq<string>, sep: string)
    requires |a| >= 1 && |b| >= 1
    ensures JoinWith(a + b, sep) == JoinWith(a, sep) + sep + JoinWith(b, sep)
    decreases |a|
  {
    if |a| == 1 {
      assert a + b == [a[0]] + b;
      assert (a + b)[1..] == b;
    } else {
      assert (a + b)[1..] == a[1..] + b;
      JoinWithAppend(a[1..], b, sep);
    }
  }

  /** Joining with an empty piece at each end puts a separator at each
      end. */
  lemma JoinWithBracket(parts: seq<string>, sep: string)
    requires |parts| >= 1
    ensures JoinWith([""] + parts + [""], sep) == sep + JoinWith(parts, sep) + sep
  {
    JoinWithAppend([""], parts, sep);
    JoinWithAppend([""] + parts, [""], sep);
    assert JoinWith([""], sep) == "";
  }

  /** Splitting a join on a one-character separator that no part contains
      gives the parts back. */
  lemma {:induction false} SplitJoinChar(parts: seq<string>, c: char)
    requires |parts| >= 1
    requires forall i :: 0 <= i < |parts| ==> c !in parts[i]
    ensures SplitOn(JoinWith(parts, [c]), [c]) == parts
    decreases |parts|
  {
    if |parts| == 1 {
      SplitCharPrefix(parts[0], None, c);
    } else {
      SplitCharPrefix(parts[0], Some(JoinWith(parts[1..], [c])), c);
      SplitJoinChar(parts[1..], c);
      assert parts == [parts[0]] + parts[1..];
    }
  }

  /** Splitting `head + c + rest` (or `head` alone) on `c`, when `head` has no
      `c`, puts `head` first and then the split of `rest`. */
  lemma SplitCharPrefix(head: string, rest: Option<string>, c: char)
    requires c !in head
    ensures rest.None? ==> SplitOn(head, [c]) == [head]
    ensures rest.Some? ==> SplitOn(head + [c] + rest.value, [c]) == [head] + SplitOn(rest.value, [c])
  {
    var s := if rest.None? then head else head + [c] + rest.value;
    assert forall k :: 0 <= k < |head| ==> s[k] == head[k];
    SplitScanFrom(s, c, |head|, 0);
    if rest.Some? {
      assert s[..|head|] == head;
      assert s[|head| + 1..] == rest.value;
      SplitShift(s, [c], |head| + 1, 0);
    }
  }

  lemma {:induction false} SplitScanFrom(s: string, c: char, h: nat, q: nat)
    requires q <= h <= |s|
    requires forall k :: 0 <= k < h ==> s[k] != c
    requires h < |s| ==> s[h] == c
    ensures h == |s| ==> SplitFrom(s, [c], 0, q) == [s]
    ensures h < |s| ==> SplitFrom(s, [c], 0, q) == [s[..h]] + SplitFrom(s, [c], h + 1, h + 1)
    decreases h - q
  {
    if q < h {
      assert s[q..q + 1][0] == s[q];
      assert !OccursAt(s, [c], q);
      SplitScanFrom(s, c, h, q + 1);
    } else if h < |s| {
      assert s[q..q + 1] == [c];
      assert OccursAt(s, [c], q);
    }
  }

  /** No proper suffix of `sep` is also a prefix of it, so two occurrences
      can never overlap and none can straddle the end of a piece. */
  predicate BorderFree(sep: string) {
    forall j :: 0 < j < |sep| ==> sep[j..] != sep[..|sep| - j]
  }

  lemma {:induction false} SplitScanSep(s: string, sep: string, h: nat, q: nat)
    requires |sep| > 0 && q <= h <= |s|
    requires forall k :: q <= k < h ==> !OccursAt(s, sep, k)
    requires h < |s| ==> OccursAt(s, sep, h)
    ensures h == |s| ==> SplitFrom(s, sep, 0, q) == [s]
    ensures h < |s| ==> h + |sep| <= |s| && SplitFrom(s, sep, 0, q) == [s[..h]] + SplitFrom(s, sep, h + |sep|, h + |sep|)
    decreases h - q
  {
    if q + |sep| > |s| {
      assert s[0..] == s;
    } else if q < h {
      SplitScanSep(s, sep, h, q + 1);
    }
  }

  /** In `head + sep + rest`, with `head` free of `sep` and `sep` border
      free, the first occurrence is the one after `head`. */
  lemma NoEarlyOccurrence(head: string, sep: string, rest: string)
    requires |sep| > 0 && BorderFree(sep) && !Contains(head, sep)
    ensures forall k :: 0 <= k < |head| ==> !OccursAt(head + sep + rest, sep, k)
  {
    var s := head + sep + rest;
    forall k | 0 <= k < |head| ensures !OccursAt(s, sep, k) {
      if k + |sep| <= |head| {
        assert s[k..k + |sep|] == head[k..k + |sep|];
        assert !OccursAt(head, sep, k);
      } else if k + |sep| <= |s| {
        var j := |head| - k;
        assert s[k..k + |sep|][j..] == sep[..|sep| - j];
        assert sep[j..] != sep[..|sep| - j];
      }
    }
  }

  /** Splitting `head + sep + rest` puts `head` first and then the split of
      `rest`. */
  lemma SplitSepPrefix(head: string, sep: string, rest: string)
    requires |sep| > 0 && BorderFree(sep) && !Contains(head, sep)
    ensures SplitOn(head + sep + rest, sep) == [head] + SplitOn(rest, sep)
  {
    NoEarlyOccurrence(head, sep, rest);
    SplitAfter(head, sep, rest);
  }

  /** No non-empty suffix of `head` is a proper prefix of `sep`: an
      occurrence cannot begin inside `head` and end in the `sep` after it. */
  predicate NoPartialSep(head: string, sep: string) {
    forall j :: 0 < j < |sep| && j <= |head| ==> head[|head| - j..] != sep[..j]
  }

  /** The first occurrence in `head + sep + rest` is the one after `head`
      when `head` holds none and ends in no part of `sep`. */
  lemma NoEarlyOccurrenceEdge(head: string, sep: string, rest: string)
    requires |sep| > 0 && !Contains(head, sep) && NoPartialSep(head, sep)
    ensures forall k :: 0 <= k < |head| ==> !OccursAt(head + sep + rest, sep, k)
  {
    var s := head + sep + rest;
    forall k | 0 <= k < |head| ensures !OccursAt(s, sep, k) {
      if k + |sep| <= |head| {
        assert s[k..k + |sep|] == head[k..k + |sep|];
        assert !OccursAt(head, sep, k);
      } else if k + |sep| <= |s| {
        var j := |head| - k;
        StraddlePrefix(head, sep, rest, k);
        assert head[|head| - j..] != sep[..j];
      }
    }
  }

  /** A window of `|sep|` characters that starts inside `head` and runs
      past its end begins with the rest of `head`. */
  lemma StraddlePrefix(head: string, sep: string, rest: string, k: nat)
    requires k < |head| < k + |sep| <= |head + sep + rest|
    ensures (head + sep + rest)[k..k + |sep|][..|head| - k] == head[k..]
  {
    var s := head + sep + rest;
    var w := s[k..k + |sep|][..|head| - k];
    forall i | 0 <= i < |head| - k ensures w[i] == head[k..][i] {
      assert w[i] == s[k + i];
    }
  }

  /** A text whose characters avoid the separator's first character holds
      no occurrence of it. */
  lemma NoFirstChar(s: string, sep: string)
    requires |sep| > 0 && sep[0] !in s
    ensures !Contains(s, sep)
  {
    forall k | 0 <= k <= |s| - |sep| ensures !OccursAt(s, sep, k) {
      assert s[k..k + |sep|][0] == s[k];
    }
  }

  /** Splitting `head + sep + rest`, when no occurrence starts inside
      `head`, puts `head` first and then the split of `rest`. */
  lemma SplitAfter(head: string, sep: string, rest: string)
    requires |sep| > 0
    requires forall k :: 0 <= k < |head| ==> !OccursAt(head + sep + rest, sep, k)
    ensures SplitOn(head + sep + rest, sep) == [head] + SplitOn(rest, sep)
  {
    var s := head + sep + rest;
    var e := |head| + |sep|;
    assert s[|head|..e] == sep;
    assert OccursAt(s, sep, |head|);
    SplitScanSep(s, sep, |head|, 0);
    assert s[..|head|] == head;
    assert s[e..] == rest;
    ShiftAtStart(s, sep, e);
  }

  lemma SplitAlone(s: string, sep: string)
    requires |sep| > 0 && !Contains(s, sep)
    ensures SplitOn(s, sep) == [s]
  {
    SplitScanSep(s, sep, |s|, 0);
  }

  /** A split has a second piece exactly when the separator occurs. */
  lemma SplitCount(s: string, sep: string)
    requires |sep| > 0
    ensures |SplitOn(s, sep)| >= 2 <==> Contains(s, sep)
  {
    if !Contains(s, sep) {
      SplitAlone(s, sep);
    }
  }

  /** The first piece of a split is a prefix of the text split. */
  lemma SplitFirstPrefix(s: string, sep: string)
    requires |sep| > 0
    ensures |SplitOn(s, sep)[0]| <= |s| && SplitOn(s, sep)[0] == s[..|SplitOn(s, sep)[0]|]
  {
    var parts := SplitOn(s, sep);
    if |parts| > 1 {
      assert s == parts[0] + sep + JoinWith(parts[1..], sep);
    }
  }

  /** A prefix of a text without `sub` has no `sub` either. */
  lemma PrefixFree(s: string, n: nat, sub: string)
    requires n <= |s| && |sub| > 0 && !Contains(s, sub)
    ensures !Contains(s[..n], sub)
  {
    SliceFree(s, sub, 0, n);
    assert s[0..n] == s[..n];
  }

  /** Trimming keeps a text free of `sub`. */
  lemma TrimFree(s: string, sub: string)
    requires |sub| > 0 && !Contains(s, sub)
    ensures !Contains(Trim(s), sub)
  {
    var r := Trim(s);
    var a := SkipWs(s, 0);
    SliceFree(s, sub, a, a + |r|);
  }

  /** A non-empty text that neither begins nor ends with whitespace trims
      to itself. */
  lemma TrimmedAlready(s: string)
    requires s != [] && !IsWs(s[0]) && !IsWs(s[|s| - 1])
    ensures Trim(s) == s
  {
    TrimPadded("", s, "");
    assert "" + s + "" == s;
  }

  /** One character with a space on either side trims to the character. */
  lemma TrimPaddedChar(c: char)
    requires !IsWs(c)
    ensures Trim([' ', c]) == [c]
    ensures Trim([c, ' ']) == [c]
  {
    var s, t := [' ', c], [c, ' '];
    assert SkipWs(s, 1) == 1;
    assert SkipWs(s, 0) == 1;
    assert SkipWsBack(s, 2) == 2;
    assert s[1..2] == [c];
    assert SkipWs(t, 0) == 0;
    assert SkipWsBack(t, 1) == 1;
    assert SkipWsBack(t, 2) == 1;
    assert t[0..1] == [c];
  }

  /** Splitting a join on a border-free separator that no part contains
      gives the parts back. */
  lemma {:induction false} SplitJoinSep(parts: seq<string>, sep: string)
    requires |parts| >= 1 && |sep| > 0 && BorderFree(sep)
    requires forall i :: 0 <= i < |parts| ==> !Contains(parts[i], sep)
    ensures SplitOn(JoinWith(parts, sep), sep) == parts
    decreases |parts|
  {
    if |parts| == 1 {
      SplitAlone(parts[0], sep);
    } else {
      SplitJoinSep(parts[1..], sep);
      SplitSepPrefix(parts[0], sep, JoinWith(parts[1..], sep));
      assert parts == [parts[0]] + parts[1..];
    }
  }

  /** Positions are relative: splitting from `p` is splitting the suffix
      `s[p..]` from its start. */
  lemma SplitShift(s: string, sep: string, p: nat, d: nat)
    requires |sep| > 0 && p + d <= |s|
    ensures SplitFrom(s, sep, p, p + d) == SplitFrom(s[p..], sep, 0, d)
  {
    SplitSame(s, s[p..], sep, p, 0, p + d, d);
  }

  /** The split from a position depends only on the text from there on. */
  lemma {:induction false} SplitSame(s: string, s2: string, sep: string, p: nat, p2: nat, q: nat, q2: nat)
    requires |sep| > 0 && p <= q <= |s| && p2 <= q2 && q2 - p2 == q - p
    requires p2 <= |s2| && s[p..] == s2[p2..]
    ensures q2 <= |s2|
    ensures SplitFrom(s, sep, p, q) == SplitFrom(s2, sep, p2, q2)
    decreases |s| - q, 1
  {
    assert |s| - p == |s2| - p2;
    if q + |sep| <= |s| {
      SameSlice(s, s2, p, p2, q - p, q - p + |sep|);
      if OccursAt(s, sep, q) {
        SplitSameHit(s, s2, sep, p, p2, q, q2);
      } else {
        SplitSameMiss(s, s2, sep, p, p2, q, q2);
      }
    } else {
      SplitPastEnd(s, sep, p, q);
      SplitPastEnd(s2, sep, p2, q2);
    }
  }

  /** `SplitSame` where both texts have the separator at the scan. */
  lemma {:induction false} SplitSameHit(s: string, s2: string, sep: string, p: nat, p2: nat, q: nat, q2: nat)
    requires |sep| > 0 && p <= q && q + |sep| <= |s| && p2 <= q2 && q2 - p2 == q - p
    requires p2 <= |s2| && s[p..] == s2[p2..]
    requires OccursAt(s, sep, q) && OccursAt(s2, sep, q2)
    ensures SplitFrom(s, sep, p, q) == SplitFrom(s2, sep, p2, q2)
    decreases |s| - q, 0
  {
    var e, e2 := q + |sep|, q2 + |sep|;
    SameSlice(s, s2, p, p2, 0, q - p);
    SameSuffix(s, s2, p, p2, e - p);
    SplitSame(s, s2, sep, e, e2, e, e2);
    SplitAtOccurrence(s, sep, p, q, e);
    SplitAtOccurrence(s2, sep, p2, q2, e2);
  }

  /** `SplitSame` where neither text has the separator at the scan. */
  lemma {:induction false} SplitSameMiss(s: string, s2: string, sep: string, p: nat, p2: nat, q: nat, q2: nat)
    requires |sep| > 0 && p <= q && q + |sep| <= |s| && p2 <= q2 && q2 - p2 == q - p
    requires p2 <= |s2| && q2 + |sep| <= |s2| && s[p..] == s2[p2..]
    requires !OccursAt(s, sep, q) && !OccursAt(s2, sep, q2)
    ensures SplitFrom(s, sep, p, q) == SplitFrom(s2, sep, p2, q2)
    decreases |s| - q, 0
  {
    SplitSame(s, s2, sep, p, p2, q + 1, q2 + 1);
    SplitPastMiss(s, sep, p, q);
    SplitPastMiss(s2, sep, p2, q2);
  }

  /** At an occurrence the piece so far is cut off and the split restarts
      at `e`, just past the separator. */
  lemma SplitAtOccurrence(s: string, sep: string, p: nat, q: nat, e: nat)
    requires |sep| > 0 && p <= q && e == q + |sep| <= |s| && OccursAt(s, sep, q)
    ensures SplitFrom(s, sep, p, q) == [s[p..q]] + SplitFrom(s, sep, e, e)
  {
  }

  /** Where the separator does not occur the scan moves on by one. */
  lemma SplitPastMiss(s: string, sep: string, p: nat, q: nat)
    requires |sep| > 0 && p <= q && q + |sep| <= |s| && !OccursAt(s, sep, q)
    ensures SplitFrom(s, sep, p, q) == SplitFrom(s, sep, p, q + 1)
  {
  }

  /** Too near the end for the separator, the rest is one piece. */
  lemma SplitPastEnd(s: string, sep: string, p: nat, q: nat)
    requires |sep| > 0 && p <= q <= |s| < q + |sep|
    ensures SplitFrom(s, sep, p, q) == [s[p..]]
  {
  }

  /** Equal suffixes have equal slices. */
  lemma SameSlice(s: string, s2: string, p: nat, p2: nat, i: nat, j: nat)
    requires p + j <= |s| && p2 <= |s2| && s[p..] == s2[p2..] && i <= j
    ensures p2 + j <= |s2| && s[p + i..p + j] == s2[p2 + i..p2 + j]
  {
    var a, b := s[p + i..p + j], s2[p2 + i..p2 + j];
    var t := s[p..];
    forall k | 0 <= k < |a| ensures a[k] == b[k] {
      assert a[k] == t[i + k];
    }
  }

  /** Equal suffixes stay equal further on. */
  lemma SameSuffix(s: string, s2: string, p: nat, p2: nat, k: nat)
    requires p + k <= |s| && p2 <= |s2| && s[p..] == s2[p2..]
    ensures p2 + k <= |s2| && s[p + k..] == s2[p2 + k..]
  {
    var a, b := s[p + k..], s2[p2 + k..];
    var t := s[p..];
    forall m | 0 <= m < |a| ensures a[m] == b[m] {
      assert a[m] == t[k + m];
    }
  }

  lemma ShiftAtStart(s: string, sep: string, e: nat)
    requires |sep| > 0 && e <= |s|
    ensures SplitFrom(s, sep, e, e) == SplitFrom(s[e..], sep, 0, 0)
  {
    SplitShift(s, sep, e, 0);
  }

  /** Decimal digits of a natural number, most significant first. */
  function NatToString(n: nat): (r: string)
    ensures |r| >= 1
    ensures forall i :: 0 <= i < |r| ==> '0' <= r[i] <= '9'
    decreases n
  {
    var d := [(('0' as int) + n % 10) as char];
    if n < 10 then d else NatToString(n / 10) + d
  }

  /** The value of a string of decimal digits. */
  function ParseNat(s: string): nat
    decreases |s|
  {
    if |s| == 0 then 0
    else ParseNat(s[..|s| - 1]) * 10 + ((s[|s| - 1] as int - '0' as int) % 10)
  }

  /** Decimal text reads back as the number it was written from. */
  lemma {:induction false} NatToStringRoundTrip(n: nat)
    ensures ParseNat(NatToString(n)) == n
    decreases n
  {
    var s := NatToString(n);
    var d := (('0' as int) + n % 10) as char;
    if n >= 10 {
      NatToStringRoundTrip(n / 10);
      assert s[..|s| - 1] == NatToString(n / 10);
    }
    assert s[|s| - 1] == d;
  }

  /** `String(n)` for an integer. */
  function IntToString(n: int): string {
    if n < 0 then "-" + NatToString(-n) else NatToString(n)
  }

  /** `s.toLowerCase()` restricted to ASCII letters. */
  function ToLowerAscii(s: string): (r: string)
    ensures |r| == |s|
    ensures forall i :: 0 <= i < |s| ==> (s[i] == '.' <==> r[i] == '.')
    ensures forall i :: 0 <= i < |s| ==> !('A' <= r[i] <= 'Z')
    ensures forall i :: 0 <= i < |s| ==> (r[i] == s[i] <==> !('A' <= s[i] <= 'Z'))
  {
    if |s| == 0 then ""
    else
      var c := s[0];
      var l := if 'A' <= c <= 'Z' then ((c as int) + 32) as char else c;
      [l] + ToLowerAscii(s[1..])
  }

  /** `s.repeat(n)` */
  function Repeat(s: string, n: nat): (r: string)
    ensures |r| == |s| * n
    ensures forall i :: 0 <= i < |r| ==> r[i] in s
  {
    if n == 0 then "" else s + Repeat(s, n - 1)
  }

  function Reverse(s: string): (r: string)
    ensures |r| == |s|
    ensures forall i :: 0 <= i < |s| ==> r[i] == s[|s| - 1 - i]
  {
    if |s| == 0 then "" else Reverse(s[1..]) + [s[0]]
  }
}

=== FILE: formatter.dfy ===
/** The per-fragment formatting of the note converter: the blocks that span
    several runs (lists, code blocks, aligned paragraphs), paragraph
    prefixes, inline styles, and attachments. The converter's mutable
    fields are the `FormatState` each function takes and gives back. */
module Formatter {
  import opened Base
  import opened NoteModel

  datatype MultiRun = NoRun | ListRun | MonospacedRun | AlignmentRun

  datatype FormatState = FormatState(
    multiRun: MultiRun,
    listNumber: nat,
    listIndent: nat,
    inList: bool,
    currentListIsOrdered: bool,
    inBlockquote: bool)

  const Initial := FormatState(NoRun, 0, 0, false, false, false)

  /** Text produced by one formatting step and the state after it. */
  datatype Step = Step(text: string, state: FormatState)

  /** Which program is meant: the converter as its source is written, or
      with its evident slips put right (the numbered-list counter, the
      table-cell escaping, the URL-card lookup). */
  datatype Variant = AsWritten | Corrected

  /** What the converter looks up outside the note: database rows, files on
      disk, and the notes other notes link to. */
  datatype Resolver = Resolver(
    // alt text of a hashtag or mention, the note URI of an internal link,
    // the rendering of a table or a scan, by attachment identifier;
    // `Thrown` when the row is missing or the embedded object cannot be
    // converted
    inlineText: (AttachmentKind, string) -> Outcome<string>,
    // title and URL of a URL card, by attachment identifier; `Thrown` when
    // the row is missing
    urlCard: string -> Outcome<(string, string)>,
    // primary key of the attachment's file (`z_pk` or `zmedia`); 0 when none
    // (see `Attachments.FileKeyFor`)
    fileKey: (AttachmentKind, string) -> int,
    // `resolveAttachment` for a key and type: the path of the file, "" when
    // there is no database, `Thrown` when the query finds no row or a column
    // the path needs is NULL (see `Attachments.AttachmentPath`)
    filePath: (int, string) -> Outcome<string>,
    // `resolveNote` for the note a note URI names: whether it gives a file
    // (a non-empty conversion); `Thrown` when the URI's row is missing or
    // the linked note cannot be converted
    noteFile: string -> Outcome<bool>,
    // CSS text of a colour
    colorCss: Color -> string)

  /** In HTML output every list opened is still open exactly while the list
      block is current; Markdown output never tracks an open list. */
  predicate StateOk(html: bool, st: FormatState) {
    (html ==> (st.inList <==> st.multiRun == ListRun))
    && (!html ==> !st.inList)
  }

  const DefaultEmoji := ".AppleColorEmojiUI"

  // ---------------------------------------------------------------------
  // Blocks spanning several runs

  /** A list ends at a paragraph of indent zero that is not a list item, and
      at a block attachment. A run without paragraph style does not end it. */
  predicate EndsList(a: AttributeRun) {
    (IndentOf(a) == Some(0) && !InListStyles(StyleOf(a))) || IsBlockAttachment(a)
  }

  function ListClose(st: FormatState): string {
    if st.currentListIsOrdered then "</ol>" else "</ul>"
  }

  /** The CSS value of an alignment; the zero value and anything unknown
      read as left. */
  function ConvertAlign(al: Alignment): (r: string)
    ensures r == "left" <==> al == Left
    ensures r == "center" <==> al == Centre
    ensures r == "right" <==> al == Right
    ensures r == "justify" <==> al == Justify
  {
    match al
    case Centre => "center"
    case Right => "right"
    case Justify => "justify"
    case Left => "left"
  }

  /** First half of `formatMultiRun`: close the current block if this run
      does not continue it. */
  function CloseMultiRun(st: FormatState, html: bool, a: AttributeRun): (r: Step)
    ensures StateOk(html, st) ==> StateOk(html, r.state)
    ensures r.state.multiRun != NoRun ==> r == Step("", st)
    ensures r.state == st.(multiRun := r.state.multiRun, inList := r.state.inList)
    ensures st.multiRun == ListRun ==> (r.state.multiRun == NoRun <==> EndsList(a))
    ensures st.multiRun == MonospacedRun ==> (r.state.multiRun == NoRun <==> StyleOf(a) != Some(Monospaced))
    ensures st.multiRun == MonospacedRun && r.state.multiRun == NoRun ==> r.text == (if html then "</pre>" else "```\n")
    ensures st.multiRun == AlignmentRun ==> (r.state.multiRun == NoRun <==> !HasAlignment(a))
  {
    match st.multiRun
    case ListRun =>
      if EndsList(a) then
        Step(if html && st.inList then ListClose(st) else "",
             st.(multiRun := NoRun, inList := st.inList && !html))
      else Step("", st)
    case MonospacedRun =>
      if StyleOf(a) != Some(Monospaced) then
        Step(if html then "</pre>" else "```\n", st.(multiRun := NoRun))
      else Step("", st)
    case AlignmentRun =>
      if !HasAlignment(a) then
        Step(if html then "</p>" else "", st.(multiRun := NoRun))
      else Step("", st)
    case NoRun => Step("", st)
  }

  /** Second half of `formatMultiRun`: with no block current, open the one
      this run begins. */
  function OpenMultiRun(st: FormatState, html: bool, a: AttributeRun): (r: Step)
    ensures st.multiRun != NoRun ==> r == Step("", st)
    ensures r.state.listNumber == st.listNumber && r.state.listIndent == st.listIndent
    ensures r.state.inBlockquote == st.inBlockquote
    ensures StateOk(html, st) ==> StateOk(html, r.state)
    ensures st.multiRun == NoRun ==> (r.state.multiRun == MonospacedRun <==> StyleOf(a) == Some(Monospaced))
    ensures st.multiRun == NoRun && r.state.multiRun == MonospacedRun ==> r.text == (if html then "<pre>" else "\n```\n")
    ensures st.multiRun == NoRun && r.state.multiRun == ListRun ==> InListStyles(StyleOf(a))
    ensures st.multiRun == NoRun && r.state.multiRun == AlignmentRun ==> HasAlignment(a)
  {
    if st.multiRun != NoRun then Step("", st)
    else if StyleOf(a) == Some(Monospaced) then
      Step(if html then "<pre>" else "\n```\n", st.(multiRun := MonospacedRun))
    else if InListStyles(StyleOf(a)) then
      if html then
        var ordered := StyleOf(a) == Some(NumberedList);
        Step(if ordered then "<ol>" else "<ul>",
             st.(multiRun := ListRun, currentListIsOrdered := ordered, inList := true))
      else
        Step("\n", st.(multiRun := ListRun))
    else if HasAlignment(a) then
      Step(if html then "<p style=\"text-align:" + ConvertAlign(a.paragraphStyle.value.alignment) + ";margin:0\">" else "",
           st.(multiRun := AlignmentRun))
    else Step("", st)
  }

  /** `formatMultiRun`. The block current afterwards always agrees with the
      run; a code block is left exactly when the run is not monospaced; a
      list survives a run that does not end it; counters and the blockquote
      flag are untouched, and the HTML list bookkeeping stays consistent. */
  function FormatMultiRun(st: FormatState, html: bool, a: AttributeRun): (r: Step)
    ensures StateOk(html, st) ==> StateOk(html, r.state)
    ensures r.state.listNumber == st.listNumber && r.state.listIndent == st.listIndent
    ensures r.state.inBlockquote == st.inBlockquote
    ensures r.state.multiRun == MonospacedRun ==> StyleOf(a) == Some(Monospaced)
    ensures r.state.multiRun == AlignmentRun ==> HasAlignment(a)
    ensures r.state.multiRun == ListRun ==> st.multiRun == ListRun || InListStyles(StyleOf(a))
    ensures st.multiRun == MonospacedRun ==> (r.state.multiRun == MonospacedRun <==> StyleOf(a) == Some(Monospaced))
    ensures st.multiRun == NoRun && StyleOf(a) == Some(Monospaced) ==> r.state.multiRun == MonospacedRun
    ensures st.multiRun == ListRun && !EndsList(a) ==> r.state == st && r.text == ""
    ensures !html && st.multiRun != MonospacedRun && r.state.multiRun == MonospacedRun ==> r.text == "\n```\n"
    ensures !html && st.multiRun == MonospacedRun && r.state.multiRun != MonospacedRun
      ==> |r.text| >= 4 && r.text[..4] == "```\n"
  {
    var c := CloseMultiRun(st, html, a);
    var o := OpenMultiRun(c.state, html, a);
    Step(c.text + o.text, o.state)
  }

  // ---------------------------------------------------------------------
  // Paragraph prefixes

  predicate IsBlockquote(a: AttributeRun) {
    a.paragraphStyle.Some? && a.paragraphStyle.value.blockquote == 1
  }

  /** `attr.paragraphStyle?.indentAmount || 0` */
  function IndentCount(a: AttributeRun): nat {
    if a.paragraphStyle.Some? then a.paragraphStyle.value.indentAmount else 0
  }

  /** `attr.paragraphStyle!.checklist?.done` is truthy. */
  predicate IsDone(a: AttributeRun) {
    a.paragraphStyle.Some? && a.paragraphStyle.value.checklist.Some?
    && a.paragraphStyle.value.checklist.value.done != 0
  }

  /** The numbered-list counter reset exactly as the Markdown branch writes
      it: only a non-zero counter is reset, so the indent of a list that
      starts from zero is never recorded. */
  function CounterAsWritten(st: FormatState, a: AttributeRun): (r: FormatState)
    ensures r.multiRun == st.multiRun && r.inList == st.inList && r.inBlockquote == st.inBlockquote
  {
    if st.listNumber != 0 && (StyleOf(a) != Some(NumberedList) || Some(st.listIndent) != IndentOf(a))
    then st.(listIndent := IndentCount(a), listNumber := 0)
    else st
  }

  /** The counter reset as intended: any paragraph that is not a numbered
      item at the recorded indent starts the count again and records its
      indent. */
  function Counter(st: FormatState, a: AttributeRun): (r: FormatState)
    ensures r.multiRun == st.multiRun && r.inList == st.inList && r.inBlockquote == st.inBlockquote
    ensures StyleOf(a) == Some(NumberedList) && IndentOf(a) == Some(st.listIndent) ==> r == st
    ensures !(StyleOf(a) == Some(NumberedList) && IndentOf(a) == Some(st.listIndent))
      ==> r.listNumber == 0 && r.listIndent == IndentCount(a)
  {
    if StyleOf(a) != Some(NumberedList) || Some(st.listIndent) != IndentOf(a)
    then st.(listIndent := IndentCount(a), listNumber := 0)
    else st
  }

  /** The text a Markdown line starts with: the quote prelude, then the
      heading mark, or the indent and list marker (numbered items show `n`),
      or, inside a list, the indent alone. */
  function MarkdownLinePrefix(st: FormatState, a: AttributeRun, n: nat): (r: string)
    ensures IsBlockquote(a) ==> |r| >= 2 && r[..2] == "> "
    ensures !IsBlockquote(a) && |r| > 0 ==> r[0] != '>'
  {
    var prelude := if IsBlockquote(a) then "> " else "";
    var indent := Repeat("\t", IndentCount(a));
    var mark :=
      match StyleOf(a)
      case Some(Title) => "# "
      case Some(Heading) => "## "
      case Some(Subheading) => "### "
      case Some(DashedList) => indent + "- "
      case Some(DottedList) => indent + "- "
      case Some(NumberedList) => indent + NatToString(n) + ". "
      case Some(Checkbox) => indent + "- " + (if IsDone(a) then "[x]" else "[ ]") + " "
      case _ => if st.multiRun == ListRun then indent else "";
    assert |mark| > 0 ==> mark[0] != '>';
    prelude + mark
  }

  /** The Markdown branch of `formatParagraph`, with the counter update
      passed in so that the as-written and the corrected reset share the
      rest: a numbered item counts one more than the updated counter. */
  function ParagraphMarkdownWith(st: FormatState, a: AttributeRun, f: string, counted: FormatState): Step {
    var next := if StyleOf(a) == Some(NumberedList) then counted.(listNumber := counted.listNumber + 1) else counted;
    Step(MarkdownLinePrefix(st, a, next.listNumber) + f, next)
  }

  /** The Markdown paragraph as written. */
  function ParagraphMarkdownAsWritten(st: FormatState, a: AttributeRun, f: string): Step {
    ParagraphMarkdownWith(st, a, f, CounterAsWritten(st, a))
  }

  /** The Markdown paragraph with the corrected counter: the fragment is
      kept whole at the end of the line, a line has a "> " prelude exactly
      when its paragraph is quoted, and only numbered items move the
      counter. */
  function ParagraphMarkdown(st: FormatState, a: AttributeRun, f: string): (r: Step)
    ensures |f| <= |r.text| && r.text[|r.text| - |f|..] == f
    ensures IsBlockquote(a) ==> |r.text| >= |f| + 2 && r.text[..2] == "> "
    ensures !IsBlockquote(a) && |r.text| > |f| ==> r.text[0] != '>'
    ensures StyleOf(a) == Some(NumberedList) ==> r.state.listNumber >= 1
    ensures StyleOf(a) != Some(NumberedList) ==> r.state.listNumber == 0
    ensures r.state.multiRun == st.multiRun && r.state.inList == st.inList
    ensures r.state.inBlockquote == st.inBlockquote
  {
    var r := ParagraphMarkdownWith(st, a, f, Counter(st, a));
    var p := MarkdownLinePrefix(st, a, r.state.listNumber);
    assert r.text == p + f;
    assert r.text[|r.text| - |f|..] == f;
    r
  }

  /** The HTML branch of `formatParagraph`. A paragraph is only formatted at
      the start of a line, so an open blockquote is reopened on every line
      that is not a list item. */
  function ParagraphHtml(st: FormatState, a: AttributeRun, f: string): (r: Step)
    ensures r.state.inBlockquote == IsBlockquote(a)
    ensures r.state.(inBlockquote := st.inBlockquote) == st
    ensures st.inBlockquote && !IsBlockquote(a) ==> r.text == "</blockquote><p>" + f + "</p>"
  {
    var quoted := IsBlockquote(a);
    if st.inBlockquote && !quoted then
      Step("</blockquote><p>" + f + "</p>", st.(inBlockquote := false))
    else
      var st' := st.(inBlockquote := quoted);
      var open := if quoted then "<blockquote>" else "";
      match StyleOf(a)
      case Some(Title) => Step(open + "<h1>" + f + "</h1>", st')
      case Some(Heading) => Step(open + "<h2>" + f + "</h2>", st')
      case Some(Subheading) => Step(open + "<h3>" + f + "</h3>", st')
      case Some(DottedList) => Step("<li>" + f + "</li>", st')
      case Some(DashedList) => Step("<li>" + f + "</li>", st')
      case Some(Checkbox) =>
        Step("<li>" + (if IsDone(a) then "\U{2611} " else "\U{2610} ") + f + "</li>", st')
      case Some(NumberedList) => Step("<li>" + f + "</li>", st')
      case _ => Step(open + "<p>" + f + "</p>", st')
  }

  /** `formatParagraph`: only the Markdown counter differs between the
      program as written and the corrected one. */
  function FormatParagraph(v: Variant, st: FormatState, html: bool, a: AttributeRun, f: string): (r: Step)
    ensures r.state.multiRun == st.multiRun && r.state.inList == st.inList
  {
    if html then ParagraphHtml(st, a, f)
    else if v == AsWritten then ParagraphMarkdownAsWritten(st, a, f)
    else ParagraphMarkdown(st, a, f)
  }

  // ---------------------------------------------------------------------
  // Inline styles

  /** `NOTE_URI.test(link)`: the link holds "applenotes:note/" followed by
      at least one identifier character. */
  predicate IsNoteUri(link: string) {
    exists k :: 0 <= k && k + 17 <= |link| && OccursAt(link, "applenotes:note/", k) && IsNoteIdChar(link[k + 16])
  }

  predicate IsNoteIdChar(c: char) {
    c == '-' || ('0' <= c <= '9') || ('a' <= c <= 'f')
  }

  /** Bold and italic markers, in Markdown the same on both sides. */
  function WeightMark(w: FontWeight): string {
    match w
    case Bold => "**"
    case Italic => "*"
    case BoldItalic => "***"
    case Regular => ""
  }

  /** HTML tags for a weight, innermost first. */
  function WeightTags(w: FontWeight): seq<string> {
    match w
    case Bold => ["b"]
    case Italic => ["i"]
    case BoldItalic => ["i", "b"]
    case Regular => []
  }

  function WrapWeight(w: FontWeight, html: bool, f: string): string {
    match w
    case Bold => if html then TagIf(true, "b", f) else "**" + f + "**"
    case Italic => if html then TagIf(true, "i", f) else "*" + f + "*"
    case BoldItalic => if html then TagIf(true, "b", TagIf(true, "i", f)) else "***" + f + "***"
    case Regular => f
  }

  function WrapStrike(strike: bool, html: bool, f: string): string {
    if !strike then f else if html then TagIf(true, "s", f) else "~~" + f + "~~"
  }

  /** Weight then strikethrough, as `formatAttr` applies them. */
  function MarkdownInline(a: AttributeRun, html: bool, f: string): string {
    WrapStrike(a.strikethrough, html, WrapWeight(a.fontWeight, html, f))
  }

  /** `formatAttr`: weight, strikethrough, then a link unless the link text
      is the link itself; the result becomes a paragraph at a line start.
      A link to another note goes through `getInternalLink`, which can
      throw. */
  function FormatAttr(v: Variant, st: FormatState, html: bool, res: Resolver, a: AttributeRun, f: string, atLineStart: bool): (r: Outcome<Step>)
    ensures r.Thrown? <==>
      a.link != "" && a.link != MarkdownInline(a, html, f) && IsNoteUri(a.link) && NoteLink(res, a.link).Thrown?
    ensures r.Done? ==> r.value.state.multiRun == st.multiRun && r.value.state.inList == st.inList
    ensures a.link == "" ==>
      r == Done(if atLineStart then FormatParagraph(v, st, html, a, MarkdownInline(a, html, f))
                else Step(MarkdownInline(a, html, f), st))
  {
    var g := MarkdownInline(a, html, f);
    var h :=
      if a.link != "" && a.link != g then
        if IsNoteUri(a.link) then NoteLink(res, a.link) else Done("[" + g + "](" + a.link + ")")
      else Done(g);
    match h
    case Thrown => Thrown
    case Done(t) => Done(if atLineStart then FormatParagraph(v, st, html, a, t) else Step(t, st))
  }

  /** `getInternalLink`: the URI must name a note; its row is read without
      a check, so a missing row throws; a note without a file reads
      "(unknown file link)"; any other link is made by the host
      application's file manager, which the converter holds no handle to,
      so that call throws too. */
  function NoteLink(res: Resolver, uri: string): (r: Outcome<string>)
    ensures r.Done? <==> IsNoteUri(uri) && res.noteFile(uri) == Done(false)
    ensures r.Done? ==> r.value == "(unknown file link)"
  {
    if !IsNoteUri(uri) then Thrown
    else
      match res.noteFile(uri)
      case Thrown => Thrown
      case Done(found) => if found then Thrown else Done("(unknown file link)")
  }

  /** Strikethrough, underline, baseline and weight, as `formatHtmlAttr`
      applies them. */
  function HtmlInline(a: AttributeRun, html: bool, f: string): string {
    var f1 := WrapStrike(a.strikethrough, html, f);
    var f2 := TagIf(a.underlined, "u", f1);
    var f3 := TagIf(a.superscript == BaselineSuper, "sup", f2);
    var f4 := TagIf(a.superscript == BaselineSub, "sub", f3);
    WrapWeight(a.fontWeight, html, f4)
  }

  /** `<t>f</t>` when `c` holds, `f` otherwise. */
  function TagIf(c: bool, t: string, f: string): string {
    if c then "<" + t + ">" + f + "</" + t + ">" else f
  }

  /** The inline CSS of a run: font family unless it is the emoji font,
      font size, colour. */
  function StyleCss(res: Resolver, a: AttributeRun): string {
    var family :=
      if a.font.Some? && a.font.value.fontName != "" && a.font.value.fontName != DefaultEmoji
      then "font-family:" + a.font.value.fontName + ";" else "";
    var size := if a.font.Some? && a.font.value.pointSize != 0
      then "font-size:" + NatToString(a.font.value.pointSize) + "pt;" else "";
    var color := if a.color.Some? then "color:" + res.colorCss(a.color.value) + ";" else "";
    family + size + color
  }

  /** `formatHtmlAttr`: inline tags, then an external link carrying the
      style, or a span carrying it, with a link to another note resolved
      inside the span; the result becomes a paragraph at a line start. */
  function FormatHtmlAttr(v: Variant, st: FormatState, html: bool, res: Resolver, a: AttributeRun, f: string, atLineStart: bool): (r: Outcome<Step>)
    ensures r.Thrown? <==>
      a.link != "" && IsNoteUri(a.link) && StyleCss(res, a) != "" && NoteLink(res, a.link).Thrown?
    ensures r.Done? ==> r.value.state.multiRun == st.multiRun && r.value.state.inList == st.inList
  {
    var g := HtmlInline(a, html, f);
    var style := StyleCss(res, a);
    var h :=
      if a.link != "" && !IsNoteUri(a.link) then
        Done("<a href=\"" + a.link + "\" rel=\"noopener\" class=\"external-link\" target=\"_blank\""
          + (if style != "" then " style=\"" + style + "\"" else "") + ">" + g + "</a>")
      else if style != "" then
        match (if a.link != "" then NoteLink(res, a.link) else Done(g))
        case Thrown => Thrown
        case Done(inner) => Done("<span style=\"" + style + "\">" + inner + "</span>")
      else Done(g);
    match h
    case Thrown => Thrown
    case Done(t) => Done(if atLineStart then FormatParagraph(v, st, html, a, t) else Step(t, st))
  }

  // ---------------------------------------------------------------------
  // Attachments

  /** The kinds whose text is looked up rather than read from a file. */
  predicate IsLookupKind(k: AttachmentKind) {
    k in {Hashtag, Mention, TableKind, ScanKind}
  }

  /** `formatAttachment`. Hashtags, mentions, tables and scans are looked
      up as text, and a note link by the URI its row holds; reading a field
      of a missing row, or converting an embedded table or scan that cannot
      be converted, throws. A URL card is meant to become a bold link, but
      as written its row is read by calling the database handle itself as
      a template tag, which is not a function, so the call throws. The
      other kinds need a file: without a key the attachment is reported
      unknown, and otherwise its file is resolved, which can throw. */
  function FormatAttachment(v: Variant, html: bool, res: Resolver, info: AttachmentInfo): (r: Outcome<string>)
    ensures r.Thrown? <==>
      || (KindOf(info.typeUti) == UrlCard && (v == AsWritten || res.urlCard(info.attachmentIdentifier).Thrown?))
      || (IsLookupKind(KindOf(info.typeUti)) && res.inlineText(KindOf(info.typeUti), info.attachmentIdentifier).Thrown?)
      || (KindOf(info.typeUti) == InternalLink && (res.inlineText(InternalLink, info.attachmentIdentifier).Thrown?
            || NoteLink(res, res.inlineText(InternalLink, info.attachmentIdentifier).value).Thrown?))
      || (IsFileKind(KindOf(info.typeUti)) && FileKey(res, info) != 0 && FilePathOf(res, info).Thrown?)
    ensures IsLookupKind(KindOf(info.typeUti))
      ==> r == res.inlineText(KindOf(info.typeUti), info.attachmentIdentifier)
    ensures KindOf(info.typeUti) == InternalLink && res.inlineText(InternalLink, info.attachmentIdentifier).Done?
      ==> r == NoteLink(res, res.inlineText(InternalLink, info.attachmentIdentifier).value)
    ensures KindOf(info.typeUti) == UrlCard && v == Corrected && res.urlCard(info.attachmentIdentifier).Done?
      ==> r == Done("[**" + res.urlCard(info.attachmentIdentifier).value.0 + "**]("
                    + res.urlCard(info.attachmentIdentifier).value.1 + ")")
    ensures IsFileKind(KindOf(info.typeUti)) ==> r == FileLink(html, res, info)
  {
    var kind := KindOf(info.typeUti);
    if kind == UrlCard then
      if v == AsWritten then Thrown
      else
        match res.urlCard(info.attachmentIdentifier)
        case Thrown => Thrown
        case Done(card) => Done("[**" + card.0 + "**](" + card.1 + ")")
    else if kind == InternalLink then
      match res.inlineText(InternalLink, info.attachmentIdentifier)
      case Thrown => Thrown
      case Done(uri) => NoteLink(res, uri)
    else if !IsFileKind(kind) then
      res.inlineText(kind, info.attachmentIdentifier)
    else
      FileLink(html, res, info)
  }

  /** The key of the attachment's file, 0 when it has none. */
  function FileKey(res: Resolver, info: AttachmentInfo): int {
    res.fileKey(KindOf(info.typeUti), info.attachmentIdentifier)
  }

  /** The path of the attachment's file: "" without a database, `Thrown`
      when it cannot be resolved. */
  function FilePathOf(res: Resolver, info: AttachmentInfo): Outcome<string> {
    res.filePath(FileKey(res, info), info.typeUti)
  }

  /** What an attachment held in a file becomes: a notice that it is
      unknown, a notice that it could not be read, or the file embedded by
      its `file://` address; resolving the file can throw. */
  function FileLink(html: bool, res: Resolver, info: AttachmentInfo): (r: Outcome<string>)
    ensures r.Thrown? <==> FileKey(res, info) != 0 && FilePathOf(res, info).Thrown?
    ensures FileKey(res, info) == 0 ==> r.Done? && Contains(r.value, "(unknown attachment: " + info.typeUti + ")")
    ensures FileKey(res, info) != 0 && FilePathOf(res, info).Done? && FilePathOf(res, info).value != ""
      ==> r.Done? && Contains(r.value, "file://" + FilePathOf(res, info).value)
    ensures r.Done? && (FileKey(res, info) == 0 || FilePathOf(res, info) == Done(""))
      ==> |r.value| >= 2 && r.value[1] == (if html then 's' else '*')
  {
    if FileKey(res, info) == 0 then
      Done(Notice(html, "(unknown attachment: " + info.typeUti + ")", " "))
    else
      match FilePathOf(res, info)
      case Thrown => Thrown
      case Done(path) =>
        if path != "" then
          var r := if html then "<img src='" + "file://" + path + "'>" else "![](" + "file://" + path + ")";
          assert OccursAt(r, "file://" + path, if html then 10 else 4);
          Done(r)
        else Done(Notice(html, "(error reading attachment)", ""))
  }

  /** A notice in place of a file: a span in HTML, bold text in Markdown
      followed by `trail`. */
  function Notice(html: bool, msg: string, trail: string): (r: string)
    ensures Contains(r, msg)
    ensures |r| >= 2 && r[1] == (if html then 's' else '*')
  {
    var r := if html then "<span>" + msg + "</span>" else " **" + msg + "**" + trail;
    assert OccursAt(r, msg, if html then 6 else 3);
    r
  }

  /** How an embedded file begins in each format. */
  function EmbedOpening(html: bool): string {
    if html then "<img src='file://" else "![](file://"
  }

  /** A file attachment that resolves is embedded exactly when it has a
      key and its path is not empty; the two notices never look like an
      embedding. */
  lemma EmbeddedExactlyWhenRead(html: bool, res: Resolver, info: AttachmentInfo)
    requires FileLink(html, res, info).Done?
    ensures var r := FileLink(html, res, info).value;
      (|r| >= |EmbedOpening(html)| && r[..|EmbedOpening(html)|] == EmbedOpening(html))
      <==> FileKey(res, info) != 0 && FilePathOf(res, info).Done? && FilePathOf(res, info).value != ""
  {
    var r := FileLink(html, res, info).value;
    var e := EmbedOpening(html);
    if FileKey(res, info) == 0 || FilePathOf(res, info) == Done("") {
      NoticeNotEmbed(html, r, e);
    } else {
      assert r[..|e|] == e;
    }
  }

  /** The notices differ from the embedding in their second character. */
  lemma NoticeNotEmbed(html: bool, r: string, e: string)
    requires e == EmbedOpening(html)
    requires |r| >= 2 && r[1] == (if html then 's' else '*')
    ensures !(|r| >= |e| && r[..|e|] == e)
  {
    if |r| >= |e| {
      assert r[..|e|][1] == r[1] != e[1];
    }
  }

  // ---------------------------------------------------------------------
  // Properties of the inline styles

  /** Opening tags, outermost first, for tags listed innermost first. */
  function OpenTags(tags: seq<string>): string {
    if |tags| == 0 then "" else OpenTags(tags[1..]) + "<" + tags[0] + ">"
  }

  /** Closing tags, innermost first. */
  function CloseTags(tags: seq<string>): string {
    if |tags| == 0 then "" else "</" + tags[0] + ">" + CloseTags(tags[1..])
  }

  /** The tags `formatHtmlAttr` puts around a fragment in HTML output,
      innermost first. */
  function InlineTags(a: AttributeRun): seq<string> {
    (if a.strikethrough then ["s"] else [])
    + (if a.underlined then ["u"] else [])
    + (if a.superscript == BaselineSuper then ["sup"] else [])
    + (if a.superscript == BaselineSub then ["sub"] else [])
    + WeightTags(a.fontWeight)
  }

  lemma {:induction false} OpenCloseSnoc(tags: seq<string>, t: string)
    ensures OpenTags(tags + [t]) == "<" + t + ">" + OpenTags(tags)
    ensures CloseTags(tags + [t]) == CloseTags(tags) + "</" + t + ">"
    decreases |tags|
  {
    if |tags| > 0 {
      assert (tags + [t])[1..] == tags[1..] + [t];
      OpenCloseSnoc(tags[1..], t);
    } else {
      assert OpenTags([t]) == OpenTags([]) + "<" + t + ">";
      assert CloseTags([t]) == "</" + t + ">" + CloseTags([]);
    }
  }

  /** A text inside the given tags, innermost first. */
  function Tagged(tags: seq<string>, f: string): string {
    OpenTags(tags) + f + CloseTags(tags)
  }

  /** Wrapping a tagged text in one more tag, when `c` holds, extends the
      tag list on the outside. */
  lemma WrapTag(tags: seq<string>, c: bool, t: string, f: string)
    ensures TagIf(c, t, Tagged(tags, f)) == Tagged(tags + (if c then [t] else []), f)
  {
    if c {
      OpenCloseSnoc(tags, t);
    } else {
      assert tags + [] == tags;
    }
  }

  /** In HTML output the inline tags are properly nested: they open
      outermost first and close in the reverse order. */
  lemma HtmlInlineNested(a: AttributeRun, f: string)
    ensures HtmlInline(a, true, f) == Tagged(InlineTags(a), f)
  {
    var t1: seq<string> := if a.strikethrough then ["s"] else [];
    var t2 := t1 + (if a.underlined then ["u"] else []);
    var t3 := t2 + (if a.superscript == BaselineSuper then ["sup"] else []);
    var t4 := t3 + (if a.superscript == BaselineSub then ["sub"] else []);
    var f1 := WrapStrike(a.strikethrough, true, f);
    assert Tagged([], f) == f;
    WrapTag([], a.strikethrough, "s", f);
    assert [] + t1 == t1;
    assert f1 == Tagged(t1, f);
    var f2 := TagIf(a.underlined, "u", f1);
    WrapTag(t1, a.underlined, "u", f);
    assert f2 == Tagged(t2, f);
    var f3 := TagIf(a.superscript == BaselineSuper, "sup", f2);
    WrapTag(t2, a.superscript == BaselineSuper, "sup", f);
    assert f3 == Tagged(t3, f);
    var f4 := TagIf(a.superscript == BaselineSub, "sub", f3);
    WrapTag(t3, a.superscript == BaselineSub, "sub", f);
    assert f4 == Tagged(t4, f);
    WeightNested(a.fontWeight, t4, f);
    assert InlineTags(a) == t4 + WeightTags(a.fontWeight);
  }

  /** The weight tags go outside the tags already there. */
  lemma WeightNested(w: FontWeight, tags: seq<string>, f: string)
    ensures WrapWeight(w, true, Tagged(tags, f)) == Tagged(tags + WeightTags(w), f)
  {
    match w {
      case Bold => WrapTag(tags, true, "b", f);
      case Italic => WrapTag(tags, true, "i", f);
      case BoldItalic =>
        WrapTag(tags, true, "i", f);
        WrapTag(tags + ["i"], true, "b", f);
        assert tags + ["i"] + ["b"] == tags + ["i", "b"];
      case Regular => assert tags + [] == tags;
    }
  }

  /** The Markdown markers `formatAttr` puts before a fragment. */
  function OpeningMarks(a: AttributeRun): string {
    (if a.strikethrough then "~~" else "") + WeightMark(a.fontWeight)
  }

  /** The Markdown markers `formatAttr` puts after a fragment. */
  function ClosingMarks(a: AttributeRun): string {
    WeightMark(a.fontWeight) + (if a.strikethrough then "~~" else "")
  }

  lemma MarkdownInlineMarks(a: AttributeRun, f: string)
    ensures MarkdownInline(a, false, f) == OpeningMarks(a) + f + ClosingMarks(a)
  {
    var m := WeightMark(a.fontWeight);
    assert WrapWeight(a.fontWeight, false, f) == m + f + m;
    if a.strikethrough {
      assert "~~" + (m + f + m) + "~~" == ("~~" + m) + f + (m + "~~");
    } else {
      assert "" + m == m && m + "" == m;
    }
  }

  /** In Markdown output the markers after a fragment are those before it
      in reverse order, so each emphasis closes the one opened last. */
  lemma MarkdownInlineMirrored(a: AttributeRun, f: string)
    ensures MarkdownInline(a, false, f) == OpeningMarks(a) + f + Reverse(OpeningMarks(a))
  {
    MarkdownInlineMarks(a, f);
    var o := OpeningMarks(a);
    var c := ClosingMarks(a);
    assert |c| == |o|;
    forall i | 0 <= i < |o| ensures c[i] == Reverse(o)[i] {
    }
  }

  // ---------------------------------------------------------------------
  // Numbered lists in Markdown

  /** A paragraph numbered at indent `d`, with no other attribute. */
  function NumberedItem(d: nat): AttributeRun {
    EmptyRun.(paragraphStyle := Some(ParagraphStyle(NumberedList, Left, d, 0, None)))
  }

  /** As written, a numbered list at indent 1 that starts the note is
      numbered 1, 1, 2: the first item leaves the recorded indent at 0, so
      the second resets the counter. */
  lemma NumberingAsWrittenRepeats()
    ensures var a := NumberedItem(1);
      var s1 := ParagraphMarkdownAsWritten(Initial, a, "a");
      var s2 := ParagraphMarkdownAsWritten(s1.state, a, "b");
      var s3 := ParagraphMarkdownAsWritten(s2.state, a, "c");
      s1.text == "\t1. a" && s2.text == "\t1. b" && s3.text == "\t2. c"
  {
    var a := NumberedItem(1);
    assert Repeat("\t", 1) == "\t";
    assert NatToString(1) == "1";
    assert NatToString(2) == "2";
  }

  /** The state after `k` consecutive Markdown paragraphs of run `a`. */
  function AfterItems(st: FormatState, a: AttributeRun, k: nat): FormatState {
    if k == 0 then st else ParagraphMarkdown(AfterItems(st, a, k - 1), a, "").state
  }

  /** With the corrected counter, consecutive numbered items at one indent
      are numbered 1, 2, 3, ... whenever the list does not continue one at
      the same indent. */
  lemma {:induction false} NumberingCounts(st: FormatState, a: AttributeRun, k: nat)
    requires StyleOf(a) == Some(NumberedList)
    requires st.listNumber == 0 || st.listIndent != IndentCount(a)
    ensures k >= 1 ==> AfterItems(st, a, k).listNumber == k && AfterItems(st, a, k).listIndent == IndentCount(a)
  {
    if k >= 1 {
      var prev := AfterItems(st, a, k - 1);
      NumberingCounts(st, a, k - 1);
      if k == 1 {
        assert prev == st;
      }
      CounterAtItem(prev, a, k - 1);
      ItemState(prev, a, "");
    }
  }

  /** A numbered item counts one past the updated counter. */
  lemma ItemState(st: FormatState, a: AttributeRun, f: string)
    requires StyleOf(a) == Some(NumberedList)
    ensures ParagraphMarkdown(st, a, f).state.listNumber == Counter(st, a).listNumber + 1
    ensures ParagraphMarkdown(st, a, f).state.listIndent == Counter(st, a).listIndent
  {
  }

  /** The text of the item numbered `k + 1`. */
  lemma NumberedItemText(st: FormatState, a: AttributeRun, k: nat, f: string)
    requires StyleOf(a) == Some(NumberedList) && !IsBlockquote(a)
    requires st.listNumber == 0 || st.listIndent != IndentCount(a)
    ensures ParagraphMarkdown(AfterItems(st, a, k), a, f).text
      == Repeat("\t", IndentCount(a)) + NatToString(k + 1) + ". " + f
  {
    var s := AfterItems(st, a, k);
    CounterAfterItems(st, a, k);
    NumberedText(s, a, f);
  }

  /** Before item `k + 1` of a fresh list the updated counter is `k`. */
  lemma CounterAfterItems(st: FormatState, a: AttributeRun, k: nat)
    requires StyleOf(a) == Some(NumberedList)
    requires st.listNumber == 0 || st.listIndent != IndentCount(a)
    ensures Counter(AfterItems(st, a, k), a).listNumber == k
  {
    var s := AfterItems(st, a, k);
    NumberingCounts(st, a, k);
    if k == 0 {
      assert s == st;
    }
    CounterAtItem(s, a, k);
  }

  /** Before item `k + 1` the updated counter is `k`: a fresh list starts
      from zero, and a running one keeps its count. */
  lemma CounterAtItem(st: FormatState, a: AttributeRun, k: nat)
    requires StyleOf(a) == Some(NumberedList)
    requires k == 0 ==> st.listNumber == 0 || st.listIndent != IndentCount(a)
    requires k >= 1 ==> st.listNumber == k && st.listIndent == IndentCount(a)
    ensures Counter(st, a).listNumber == k
  {
    assert IndentOf(a) == Some(IndentCount(a));
  }

  /** An unquoted numbered item is written with its indent and the number
      one past the updated counter. */
  lemma NumberedText(st: FormatState, a: AttributeRun, f: string)
    requires StyleOf(a) == Some(NumberedList) && !IsBlockquote(a)
    ensures ParagraphMarkdown(st, a, f).text
      == Repeat("\t", IndentCount(a)) + NatToString(Counter(st, a).listNumber + 1) + ". " + f
  {
    var n := Counter(st, a).listNumber + 1;
    assert ParagraphMarkdown(st, a, f).text == MarkdownLinePrefix(st, a, n) + f;
    NumberedPrefix(st, a, n);
  }

  /** The line prefix of an unquoted numbered item. */
  lemma NumberedPrefix(st: FormatState, a: AttributeRun, n: nat)
    requires StyleOf(a) == Some(NumberedList) && !IsBlockquote(a)
    ensures MarkdownLinePrefix(st, a, n) == Repeat("\t", IndentCount(a)) + NatToString(n) + ". "
  {
    assert "" + (Repeat("\t", IndentCount(a)) + NatToString(n) + ". ")
      == Repeat("\t", IndentCount(a)) + NatToString(n) + ". ";
  }
}

=== FILE: note_converter.dfy ===
/** `NoteConverter.format`: the fragments of a note formatted one after the
    other, the first line optionally skipped, the open blocks closed at the
    end, and the result trimmed. */
module NoteConverter {
  import opened Base
  import opened NoteModel
  import opened Tokenizer
  import opened Formatter
  import Attachments

  /** One fragment: close or open the blocks around it, then format its text
      by kind. Whitespace and code are copied as they are; attachments are
      resolved; runs that need HTML-only styling go through
      `formatHtmlAttr`; everything else through `formatAttr`. Only a lookup
      can throw: an attachment's, or that of a link to another note. */
  function FormatFragment(v: Variant, st: FormatState, html: bool, res: Resolver, fr: Fragment, atLineStart: bool): (r: Outcome<Step>)
    ensures r.Thrown? ==> LookupFails(v, html, res, fr)
    ensures r.Done? && StateOk(html, st) ==> StateOk(html, r.value.state)
    ensures !HasNonWs(fr.text) ==> r == Done(Step(FormatMultiRun(st, html, fr.attr).text + fr.text, FormatMultiRun(st, html, fr.attr).state))
    ensures FormatMultiRun(st, html, fr.attr).state.multiRun == MonospacedRun
      ==> r == Done(Step(FormatMultiRun(st, html, fr.attr).text + fr.text, FormatMultiRun(st, html, fr.attr).state))
  {
    var a := fr.attr;
    var f := fr.text;
    var m := FormatMultiRun(st, html, a);
    if !HasNonWs(f) || m.state.multiRun == MonospacedRun then
      Done(Step(m.text + f, m.state))
    else if a.attachmentInfo.Some? then
      match FormatAttachment(v, html, res, a.attachmentInfo.value)
      case Thrown => Thrown
      case Done(t) => Done(Step(m.text + t, m.state))
    else if a.superscript != 0 || a.underlined || a.color.Some? || a.font.Some? || m.state.multiRun == AlignmentRun then
      match FormatHtmlAttr(v, m.state, html, res, a, f, atLineStart)
      case Thrown => Thrown
      case Done(h) => Done(Step(m.text + h.text, h.state))
    else
      match FormatAttr(v, m.state, html, res, a, f, atLineStart)
      case Thrown => Thrown
      case Done(h) => Done(Step(m.text + h.text, h.state))
  }

  /** A lookup the fragment may need throws: it is an attachment whose
      formatting throws, or it links to another note and that link cannot
      be made. */
  predicate LookupFails(v: Variant, html: bool, res: Resolver, fr: Fragment) {
    || (fr.attr.attachmentInfo.Some? && FormatAttachment(v, html, res, fr.attr.attachmentInfo.value).Thrown?)
    || (fr.attr.link != "" && IsNoteUri(fr.attr.link) && NoteLink(res, fr.attr.link).Thrown?)
  }

  /** No lookup any of the fragments may need throws. */
  predicate LookupsHold(v: Variant, html: bool, res: Resolver, frags: seq<Fragment>) {
    forall k :: 0 <= k < |frags| ==> !LookupFails(v, html, res, frags[k])
  }

  /** Output so far, the converter state, and whether the first line is
      still being skipped. */
  datatype Progress = Progress(out: string, state: FormatState, skipping: bool)

  /** A fragment ends the skipped first line when it holds a line break or
      is an attachment. */
  predicate EndsSkip(fr: Fragment) {
    '\n' in fr.text || fr.attr.attachmentInfo.Some?
  }

  /** The `for` loop of `format`, from fragment `j` on. A fragment is at a
      line start when it is the first one or the fragment before it, skipped
      or not, holds a line break. A fragment that throws ends the loop. */
  function FormatLoop(v: Variant, html: bool, res: Resolver, frags: seq<Fragment>, j: nat, acc: Progress): (r: Outcome<Progress>)
    requires j <= |frags|
    ensures r.Done? && StateOk(html, acc.state) ==> StateOk(html, r.value.state)
    ensures r.Done? && !acc.skipping ==> !r.value.skipping
    ensures (forall k :: j <= k < |frags| ==> !LookupFails(v, html, res, frags[k])) ==> r.Done?
    decreases |frags| - j
  {
    if j == |frags| then Done(acc)
    else if acc.skipping && !EndsSkip(frags[j]) then
      FormatLoop(v, html, res, frags, j + 1, acc)
    else
      var atLineStart := j == 0 || '\n' in frags[j - 1].text;
      match FormatFragment(v, acc.state, html, res, frags[j], atLineStart)
      case Thrown => Thrown
      case Done(s) => FormatLoop(v, html, res, frags, j + 1, Progress(acc.out + s.text, s.state, false))
  }

  /** While the first line is skipped nothing is written and the state does
      not move; once a fragment ends the skip, formatting goes on exactly as
      if the skipped fragments had not been there. */
  lemma {:induction false} SkippedFragmentsLeaveNoTrace(v: Variant, html: bool, res: Resolver, frags: seq<Fragment>, j: nat, k: nat, acc: Progress)
    requires j <= k <= |frags| && acc.skipping
    requires forall i :: j <= i < k ==> !EndsSkip(frags[i])
    ensures FormatLoop(v, html, res, frags, j, acc) == FormatLoop(v, html, res, frags, k, acc)
    decreases k - j
  {
    if j < k {
      SkippedFragmentsLeaveNoTrace(v, html, res, frags, j + 1, k, acc);
    }
  }

  /** Every block left open is closed: the block current at the end is
      closed with the empty run (which never ends a list), then HTML lists
      and blockquotes still open are closed. */
  function CloseMultiRunAtEnd(st: FormatState, html: bool): (r: Step)
    ensures StateOk(html, st) ==> StateOk(html, r.state)
    ensures r.state.multiRun == NoRun || r.state.multiRun == ListRun
    ensures r.state.multiRun == ListRun <==> st.multiRun == ListRun
    ensures !html && st.multiRun == MonospacedRun ==> r.text == "```\n"
    ensures st.multiRun == NoRun ==> r == Step("", st)
  {
    if st.multiRun != NoRun then FormatMultiRun(st, html, EmptyRun) else Step("", st)
  }

  /** The HTML closing tags still owed at the end of a note. */
  function CloseHtml(st: FormatState, html: bool): (r: Step)
    ensures StateOk(html, st) ==> !r.state.inList
    ensures html ==> !r.state.inList && !r.state.inBlockquote
    ensures r.state.multiRun == st.multiRun
    ensures !html ==> r == Step("", st)
    ensures '|' !in r.text && '\n' !in r.text
  {
    var t1 := if html && st.inList then ListClose(st) else "";
    var t2 := if html && st.inBlockquote then "</blockquote>" else "";
    Step(t1 + t2, st.(inList := st.inList && !html, inBlockquote := st.inBlockquote && !html))
  }

  /** In table mode the result is meant to be escaped for a pipe table:
      every line break becomes `<br>` and every `|` becomes `&#124;`. */
  function EscapeTable(s: string): (r: string)
    ensures '\n' !in r && '|' !in r
    ensures '\n' !in s && '|' !in s ==> r == s
  {
    if |s| == 0 then ""
    else
      var c := s[0];
      (if c == '\n' then "<br>" else if c == '|' then "&#124;" else [c]) + EscapeTable(s[1..])
  }

  /** The escaping as written: the replaced string is discarded, so the
      text comes back unchanged. */
  function EscapeTableAsWritten(s: string): (r: string)
    ensures |r| == |s|
  {
    s
  }

  /** The table-mode escaping each variant applies. */
  function EscapeFor(v: Variant, s: string): (r: string)
    ensures v == Corrected ==> '\n' !in r && '|' !in r
    ensures v == AsWritten ==> r == s
  {
    if v == AsWritten then EscapeTableAsWritten(s) else EscapeTable(s)
  }

  /** `format(table)`: tokens formatted in order, the open blocks closed,
      the text trimmed. The result neither begins nor ends with
      whitespace; only a lookup can make it throw, and only the
      corrected program keeps table cells free of line breaks and pipes. */
  function Format(v: Variant, doc: Document, html: bool, omitFirstLine: bool, table: bool, res: Resolver): (r: Outcome<string>)
    ensures r.Done? ==> r.value == [] || (!IsWs(r.value[0]) && !IsWs(r.value[|r.value| - 1]))
    ensures LookupsHold(v, html, res, Tokens(doc)) ==> r.Done?
    ensures v == Corrected && table && r.Done? ==> '|' !in r.value && '\n' !in r.value
  {
    var frags := Tokens(doc);
    var skip := !table && omitFirstLine && '\n' in doc.noteText;
    match FormatLoop(v, html, res, frags, 0, Progress("", Initial, skip))
    case Thrown => Thrown
    case Done(p) =>
      var m := CloseMultiRunAtEnd(p.state, html);
      var body := if table then EscapeFor(v, p.out + m.text) else p.out + m.text;
      var c := CloseHtml(m.state, html);
      if table && v == Corrected then
        assert '|' !in body + c.text;
        TrimKeepsOut(body + c.text, '|');
        assert '\n' !in body + c.text;
        TrimKeepsOut(body + c.text, '\n');
        Done(Trim(body + c.text))
      else Done(Trim(body + c.text))
  }

  /** The converter's state at the end of a note: every block is closed but
      a Markdown list, which needs no closing mark. */
  function EndState(v: Variant, doc: Document, html: bool, omitFirstLine: bool, table: bool, res: Resolver): (r: Outcome<FormatState>)
    ensures r.Done? ==> r.value.multiRun != MonospacedRun && r.value.multiRun != AlignmentRun && !r.value.inList
    ensures r.Done? && html ==> !r.value.inBlockquote
    ensures r.Done? <==> Format(v, doc, html, omitFirstLine, table, res).Done?
  {
    var skip := !table && omitFirstLine && '\n' in doc.noteText;
    match FormatLoop(v, html, res, Tokens(doc), 0, Progress("", Initial, skip))
    case Thrown => Thrown
    case Done(p) => Done(CloseHtml(CloseMultiRunAtEnd(p.state, html).state, html).state)
  }

  /** As written, table mode leaves the text as it is: a table cell comes
      out exactly as the same note outside a table. */
  lemma AsWrittenTableModeIgnored(doc: Document, html: bool, res: Resolver)
    ensures Format(AsWritten, doc, html, false, true, res) == Format(AsWritten, doc, html, false, false, res)
  {
  }

  /** A plain run: no paragraph style, no inline style, no attachment. */
  function PlainRun(n: nat): AttributeRun {
    EmptyRun.(length := n)
  }

  /** A plain run at the start of a note opens no block and gets no line
      prefix. */
  lemma PlainRunFormats(v: Variant, res: Resolver, text: string)
    requires HasNonWs(text)
    ensures FormatAttr(v, Initial, false, res, PlainRun(|text|), text, true).Done?
    ensures FormatFragment(v, Initial, false, res, Fragment(PlainRun(|text|), text), true)
      == Done(Step(text, FormatAttr(v, Initial, false, res, PlainRun(|text|), text, true).value.state))
    ensures FormatAttr(v, Initial, false, res, PlainRun(|text|), text, true).value.state.multiRun == NoRun
  {
    var run := PlainRun(|text|);
    assert CloseMultiRun(Initial, false, run) == Step("", Initial);
    assert OpenMultiRun(Initial, false, run) == Step("", Initial);
    assert FormatMultiRun(Initial, false, run) == Step("", Initial);
    assert MarkdownInline(run, false, text) == text;
    forall n: nat ensures MarkdownLinePrefix(Initial, run, n) == "" {
    }
    assert FormatAttr(v, Initial, false, res, run, text, true).value.text == text;
  }

  /** A table cell whose note is one plain run over a text without
      whitespace comes out as that text, escaped as each variant escapes
      it. */
  lemma SolidCellText(v: Variant, res: Resolver, text: string)
    requires text != [] && forall i :: 0 <= i < |text| ==> !IsWs(text[i])
    ensures Format(v, Document(text, [PlainRun(|text|)]), false, false, true, res) == Done(Trim(EscapeFor(v, text)))
  {
    var doc := Document(text, [PlainRun(|text|)]);
    var st := SolidLoop(v, res, text);
    TableFormatOfLoop(v, doc, res, text, st);
  }

  /** A note of one whitespace-free word comes back as the escaped word,
      nothing trimmed away. */
  lemma SolidCellExact(v: Variant, res: Resolver, text: string)
    requires text != [] && forall i :: 0 <= i < |text| ==> !IsWs(text[i])
    ensures Format(v, Document(text, [PlainRun(|text|)]), false, false, true, res) == Done(EscapeFor(v, text))
  {
    SolidCellText(v, res, text);
    EscapeSolid(text);
    var e := EscapeFor(v, text);
    TrimmedAlready(e);
  }

  /** Escaping for a table adds no whitespace and loses no character. */
  lemma {:induction false} EscapeSolid(s: string)
    requires forall i :: 0 <= i < |s| ==> !IsWs(s[i])
    ensures |EscapeTable(s)| >= |s|
    ensures forall i :: 0 <= i < |EscapeTable(s)| ==> !IsWs(EscapeTable(s)[i])
    decreases |s|
  {
    if |s| > 0 {
      EscapeSolid(s[1..]);
    }
  }

  /** The loop over the single fragment of such a note writes the text. */
  lemma SolidLoop(v: Variant, res: Resolver, text: string) returns (st: FormatState)
    requires text != [] && forall i :: 0 <= i < |text| ==> !IsWs(text[i])
    ensures st.multiRun == NoRun
    ensures FormatLoop(v, false, res, Tokens(Document(text, [PlainRun(|text|)])), 0, Progress("", Initial, false))
      == Done(Progress(text, st, false))
  {
    var run := PlainRun(|text|);
    var fr := Fragment(run, text);
    SolidTextOneToken(text, run);
    assert HasNonWs(text) by {
      assert !IsWs(text[0]);
    }
    PlainRunFormats(v, res, text);
    st := FormatAttr(v, Initial, false, res, run, text, true).value.state;
    assert FormatLoop(v, false, res, [fr], 0, Progress("", Initial, false))
      == FormatLoop(v, false, res, [fr], 1, Progress("" + text, st, false));
    assert "" + text == text;
  }

  /** In Markdown table mode, a loop that ends with no block open gives
      its output escaped and trimmed. */
  lemma TableFormatOfLoop(v: Variant, doc: Document, res: Resolver, out: string, st: FormatState)
    requires st.multiRun == NoRun
    requires FormatLoop(v, false, res, Tokens(doc), 0, Progress("", Initial, false)) == Done(Progress(out, st, false))
    ensures Format(v, doc, false, false, true, res) == Done(Trim(EscapeFor(v, out)))
  {
    assert CloseMultiRunAtEnd(st, false) == Step("", st);
    assert out + "" == out;
    assert EscapeFor(v, out) + "" == EscapeFor(v, out);
  }

  /** The note of one attachment over a text without whitespace. */
  function AttachmentNote(info: AttachmentInfo, text: string): Document {
    Document(text, [PlainRun(|text|).(attachmentInfo := Some(info))])
  }

  /** An attachment whose formatting throws takes the whole note with
      it. */
  lemma AttachmentNoteThrows(v: Variant, html: bool, table: bool, res: Resolver, info: AttachmentInfo, text: string)
    requires FormatAttachment(v, html, res, info).Thrown?
    requires text != [] && forall i :: 0 <= i < |text| ==> !IsWs(text[i])
    ensures Format(v, AttachmentNote(info, text), html, false, table, res) == Thrown
  {
    var run := PlainRun(|text|).(attachmentInfo := Some(info));
    assert HasNonWs(text) by {
      assert !IsWs(text[0]);
    }
    assert FormatMultiRun(Initial, html, run).state.multiRun == NoRun;
    assert FormatFragment(v, Initial, html, res, Fragment(run, text), true) == Thrown;
    FragmentNoteThrows(v, html, table, res, run, text);
  }

  /** A note of one run over a text without whitespace is that one
      fragment at the start of a line: when it throws, so does the note. */
  lemma FragmentNoteThrows(v: Variant, html: bool, table: bool, res: Resolver, run: AttributeRun, text: string)
    requires text != [] && run.length == |text| && forall i :: 0 <= i < |text| ==> !IsWs(text[i])
    requires FormatFragment(v, Initial, html, res, Fragment(run, text), true).Thrown?
    ensures Format(v, Document(text, [run]), html, false, table, res) == Thrown
  {
    SolidTextOneToken(text, run);
    assert FormatLoop(v, html, res, [Fragment(run, text)], 0, Progress("", Initial, false)) == Thrown;
  }

  /** The resolver's file lookups are those of the importer on a
      database: the key `formatAttachment` reads, and the path
      `resolveAttachment` finds for it. */
  ghost predicate FilesFrom(res: Resolver, db: seq<Attachments.SyncObject>, accountPath: string) {
    && (forall k, id :: res.fileKey(k, id) == Attachments.FileKeyFor(db, k, id))
    && (forall key, uti :: res.filePath(key, uti) == Attachments.AttachmentPath(Some(db), accountPath, uti, key))
  }

  /** A note holding a legacy drawing that names an attachment object
      throws once there is a database: the drawing's key is that of the
      attachment object, which the media query never selects. */
  lemma LegacyDrawingNoteThrows(v: Variant, html: bool, table: bool, res: Resolver,
                                db: seq<Attachments.SyncObject>, accountPath: string, info: AttachmentInfo, text: string)
    requires FilesFrom(res, db, accountPath)
    requires info.typeUti == UtiDrawingLegacy || info.typeUti == UtiDrawingLegacy2
    requires Attachments.KeysValid(db) && Attachments.NamesAttachment(db, info.attachmentIdentifier)
    requires text != [] && forall i :: 0 <= i < |text| ==> !IsWs(text[i])
    ensures Format(v, AttachmentNote(info, text), html, false, table, res) == Thrown
  {
    Attachments.LegacyDrawingNeverResolves(db, accountPath, info.typeUti, info.attachmentIdentifier);
    assert FileKey(res, info) == Attachments.FileKeyFor(db, KindOf(info.typeUti), info.attachmentIdentifier);
    assert FilePathOf(res, info).Thrown?;
    assert FormatAttachment(v, html, res, info).Thrown?;
    AttachmentNoteThrows(v, html, table, res, info, text);
  }

  /** Every row the resolver is asked for is there, every embedded table
      and scan converts, every attachment file resolves, every note link's
      row holds a note URI, and no linked note gives a file (one that does
      makes the host-application call of `getInternalLink` throw). */
  ghost predicate ResolverTotal(res: Resolver) {
    && (forall k, id :: res.inlineText(k, id).Done?)
    && (forall id :: res.inlineText(InternalLink, id).Done? && IsNoteUri(res.inlineText(InternalLink, id).value))
    && (forall id :: res.urlCard(id).Done?)
    && (forall key, uti :: res.filePath(key, uti).Done?)
    && (forall uri :: res.noteFile(uri) == Done(false))
  }

  /** With every lookup answered, the corrected program converts every
      note; as written it still throws on a URL card. */
  lemma TotalResolverConverts(doc: Document, html: bool, omitFirstLine: bool, table: bool, res: Resolver)
    requires ResolverTotal(res)
    ensures Format(Corrected, doc, html, omitFirstLine, table, res).Done?
  {
    var frags := Tokens(doc);
    forall k | 0 <= k < |frags| ensures !LookupFails(Corrected, html, res, frags[k]) {
      TotalResolverFragment(html, res, frags[k]);
    }
  }

  lemma TotalResolverFragment(html: bool, res: Resolver, fr: Fragment)
    requires ResolverTotal(res)
    ensures !LookupFails(Corrected, html, res, fr)
  {
    var a := fr.attr;
    assert res.noteFile(a.link) == Done(false);
    if a.attachmentInfo.Some? {
      var info := a.attachmentInfo.value;
      assert res.urlCard(info.attachmentIdentifier).Done?;
      assert res.inlineText(KindOf(info.typeUti), info.attachmentIdentifier).Done?;
      var uri := res.inlineText(InternalLink, info.attachmentIdentifier).value;
      assert IsNoteUri(uri) && res.noteFile(uri) == Done(false);
      assert res.filePath(FileKey(res, info), info.typeUti).Done?;
    }
  }

  /** The note of one plain run over a text without whitespace that links
      to `uri`. */
  function LinkNote(uri: string, text: string): Document {
    Document(text, [PlainRun(|text|).(link := uri)])
  }

  /** A note linking to another note whose file is found cannot be
      converted: `getInternalLink` hands the link to the host application's
      file manager, which the converter has no handle to. */
  lemma ResolvedNoteLinkThrows(v: Variant, table: bool, res: Resolver, uri: string, text: string)
    requires IsNoteUri(uri) && res.noteFile(uri) == Done(true) && uri != text
    requires text != [] && forall i :: 0 <= i < |text| ==> !IsWs(text[i])
    ensures Format(v, LinkNote(uri, text), false, false, table, res) == Thrown
  {
    var run := PlainRun(|text|).(link := uri);
    assert HasNonWs(text) by {
      assert !IsWs(text[0]);
    }
    assert FormatMultiRun(Initial, false, run) == Step("", Initial);
    assert MarkdownInline(run, false, text) == text;
    assert FormatAttr(v, Initial, false, res, run, text, true) == Thrown;
    assert FormatFragment(v, Initial, false, res, Fragment(run, text), true) == Thrown;
    FragmentNoteThrows(v, false, table, res, run, text);
  }

  /** As written, a note holding a URL card cannot be converted: the
      card's lookup throws and takes the whole note with it. The corrected
      program converts it whenever the card's row is there. */
  lemma UrlCardNoteThrows(html: bool, table: bool, res: Resolver, info: AttachmentInfo, text: string)
    requires KindOf(info.typeUti) == UrlCard
    requires text != [] && forall i :: 0 <= i < |text| ==> !IsWs(text[i])
    ensures Format(AsWritten, AttachmentNote(info, text), html, false, table, res) == Thrown
    ensures res.urlCard(info.attachmentIdentifier).Done?
      ==> Format(Corrected, AttachmentNote(info, text), html, false, table, res).Done?
  {
    AttachmentNoteThrows(AsWritten, html, table, res, info, text);
    var run := PlainRun(|text|).(attachmentInfo := Some(info));
    SolidTextOneToken(text, run);
    assert Tokens(AttachmentNote(info, text)) == [Fragment(run, text)];
  }

  /** A note without attribute runs converts to the empty string. */
  lemma EmptyNote(v: Variant, text: string, html: bool, omitFirstLine: bool, table: bool, res: Resolver)
    ensures Format(v, Document(text, []), html, omitFirstLine, table, res) == Done("")
  {
    assert Tokens(Document(text, [])) == [];
  }
}

=== FILE: note_model.dfy ===
/** The decoded Apple Notes document: a note's text and the attribute runs
    that cover it, as the protobuf decoder hands them to the converter. Of
    each attribute run, the fields the converter formats are kept; any
    further fields of the schema are not. Enumeration values follow the
    Apple Notes protobuf schema. */
module NoteModel {
  import opened Base

  /** Paragraph style types; the protobuf integers are -1, 0, 1, 2, 4 and
      100 to 103 in this order. */
  datatype StyleType =
    | Default | Title | Heading | Subheading | Monospaced
    | DottedList | DashedList | NumberedList | Checkbox

  /** Paragraph alignment; `Left` is the protobuf zero, the falsy value the
      converter treats as "no alignment". */
  datatype Alignment = Left | Centre | Right | Justify

  datatype FontWeight = Regular | Bold | Italic | BoldItalic

  /** Baseline values: 1 is superscript, -1 subscript, 0 the normal line;
      any non-zero value is truthy. */
  const BaselineSuper: int := 1
  const BaselineSub: int := -1

  datatype Checklist = Checklist(uuid: seq<bv8>, done: int)

  datatype ParagraphStyle = ParagraphStyle(
    styleType: StyleType,
    alignment: Alignment,
    indentAmount: nat,
    blockquote: int,
    checklist: Option<Checklist>)

  datatype Font = Font(fontName: string, pointSize: nat, fontHints: int)

  /** Colour channels, kept as the decoder gives them; turning them into CSS
      text is a parameter of the formatter. */
  datatype Color = Color(red: int, green: int, blue: int, alpha: int)

  datatype AttachmentInfo = AttachmentInfo(attachmentIdentifier: string, typeUti: string)

  /** One attribute run: `length` characters of the note text share these
      attributes. An absent sub-message is `None`; an absent link is "". */
  datatype AttributeRun = AttributeRun(
    length: nat,
    paragraphStyle: Option<ParagraphStyle>,
    font: Option<Font>,
    fontWeight: FontWeight,
    underlined: bool,
    strikethrough: bool,
    superscript: int,
    link: string,
    color: Option<Color>,
    attachmentInfo: Option<AttachmentInfo>)

  datatype Document = Document(noteText: string, attributeRun: seq<AttributeRun>)

  /** A piece of text together with the run whose attributes it carries. */
  datatype Fragment = Fragment(attr: AttributeRun, text: string)

  /** The run the formatter is handed after the last fragment: every field
      absent. */
  const EmptyRun: AttributeRun :=
    AttributeRun(0, None, None, Regular, false, false, 0, "", None, None)

  /** `attr.paragraphStyle?.styleType`, with `None` for undefined. */
  function StyleOf(a: AttributeRun): Option<StyleType> {
    if a.paragraphStyle.Some? then Some(a.paragraphStyle.value.styleType) else None
  }

  /** `attr.paragraphStyle?.indentAmount`, with `None` for undefined. */
  function IndentOf(a: AttributeRun): Option<nat> {
    if a.paragraphStyle.Some? then Some(a.paragraphStyle.value.indentAmount) else None
  }

  /** `attr.paragraphStyle?.alignment` is truthy. */
  predicate HasAlignment(a: AttributeRun) {
    a.paragraphStyle.Some? && a.paragraphStyle.value.alignment != Left
  }

  predicate IsListStyle(t: StyleType) {
    t == DottedList || t == DashedList || t == NumberedList || t == Checkbox
  }

  /** `LIST_STYLES.includes(styleType)`; undefined is not a list style. */
  predicate InListStyles(t: Option<StyleType>) {
    t.Some? && IsListStyle(t.value)
  }

  // Attachment type identifiers (UTIs).
  const UtiDrawing := "com.apple.paper"
  const UtiDrawingLegacy := "com.apple.drawing"
  const UtiDrawingLegacy2 := "com.apple.drawing.2"
  const UtiHashtag := "com.apple.notes.inlinetextattachment.hashtag"
  const UtiMention := "com.apple.notes.inlinetextattachment.mention"
  const UtiInternalLink := "com.apple.notes.inlinetextattachment.link"
  const UtiModifiedScan := "com.apple.paper.doc.pdf"
  const UtiScan := "com.apple.paper.doc.scan"
  const UtiTable := "com.apple.notes.table"
  const UtiUrlCard := "public.url"
  const InlineAttachmentPrefix := "com.apple.notes.inlinetextattachment"

  /** How the converter treats an attachment, by its type identifier. */
  datatype AttachmentKind =
    | Hashtag | Mention | InternalLink | TableKind | UrlCard | ScanKind
    | ModifiedScan | DrawingLegacy | DrawingLegacy2 | Drawing
    | Media   // any other identifier: a file on disk

  function KindOf(uti: string): (k: AttachmentKind)
    ensures k == Media <==>
      uti !in {UtiHashtag, UtiMention, UtiInternalLink, UtiTable, UtiUrlCard,
               UtiScan, UtiModifiedScan, UtiDrawingLegacy, UtiDrawingLegacy2, UtiDrawing}
  {
    if uti == UtiHashtag then Hashtag
    else if uti == UtiMention then Mention
    else if uti == UtiInternalLink then InternalLink
    else if uti == UtiTable then TableKind
    else if uti == UtiUrlCard then UrlCard
    else if uti == UtiScan then ScanKind
    else if uti == UtiModifiedScan then ModifiedScan
    else if uti == UtiDrawingLegacy then DrawingLegacy
    else if uti == UtiDrawingLegacy2 then DrawingLegacy2
    else if uti == UtiDrawing then Drawing
    else Media
  }

  /** Kinds whose content is a file on disk, found through a primary key. */
  predicate IsFileKind(k: AttachmentKind) {
    k == ModifiedScan || k == DrawingLegacy || k == DrawingLegacy2 || k == Drawing || k == Media
  }

  /** A block attachment is one whose type is not an inline text attachment;
      it ends a list. */
  predicate IsBlockAttachment(a: AttributeRun) {
    a.attachmentInfo.Some? && !Contains(a.attachmentInfo.value.typeUti, InlineAttachmentPrefix)
  }

  /** Inline attachments (hashtags, mentions, note links) never end a list;
      tables, URL cards, scans and drawings always do. */
  lemma {:induction false} BlockAttachmentKinds(a: AttributeRun)
    requires a.attachmentInfo.Some?
    ensures KindOf(a.attachmentInfo.value.typeUti) in {Hashtag, Mention, InternalLink} ==> !IsBlockAttachment(a)
    ensures KindOf(a.attachmentInfo.value.typeUti) !in {Hashtag, Mention, InternalLink, Media} ==> IsBlockAttachment(a)
  {
    var u := a.attachmentInfo.value.typeUti;
    var k := KindOf(u);
    if k in {Hashtag, Mention, InternalLink} {
      assert OccursAt(u, InlineAttachmentPrefix, 0);
    }
    if k !in {Hashtag, Mention, InternalLink, Media} {
      assert |u| < |InlineAttachmentPrefix|;
    }
  }
}

=== FILE: script.dfy ===
/** The text handling around the AppleScript bridge: the escaper that
    makes a value safe inside an AppleScript string literal, the reading
    of a script's boolean answer, and the splitting of the account list
    the script returns. Running `osascript` is not part of this model;
    its standard output is an input. */
module Script {
  import opened Base

  /** The values the escaper is called with. Numbers are integers here. */
  datatype ScriptValue = Null | Undefined | Text(text: string) | Number(number: int)

  /** `s.replace(/c/g, by)` for a single character `c`. */
  function ReplaceAll(s: string, c: char, with: string): (r: string)
    ensures c !in with ==> c !in r
  {
    if |s| == 0 then ""
    else (if s[0] == c then with else [s[0]]) + ReplaceAll(s[1..], c, with)
  }

  lemma {:induction false} ReplaceAllAppend(a: string, b: string, c: char, with: string)
    ensures ReplaceAll(a + b, c, with) == ReplaceAll(a, c, with) + ReplaceAll(b, c, with)
    decreases |a|
  {
    if |a| == 0 {
      assert a + b == b;
    } else {
      assert (a + b)[1..] == a[1..] + b;
      ReplaceAllAppend(a[1..], b, c, with);
    }
  }

  /** The escaper as written: backslashes first, then double quotes, then
      line breaks, each a separate global replacement. */
  function EscapeInOrder(s: string): string {
    ReplaceAll(ReplaceAll(ReplaceAll(s, '\\', "\\\\"), '"', "\\\""), '\n', "\\n")
  }

  predicate NeedsEscape(c: char) {
    c == '\\' || c == '"' || c == '\n'
  }

  /** The characters that get a backslash. */
  function EscapeCount(s: string): (n: nat)
    ensures n <= |s|
  {
    if |s| == 0 then 0 else (if NeedsEscape(s[0]) then 1 else 0) + EscapeCount(s[1..])
  }

  /** One character's escape. */
  function EscapeChar(c: char): (r: string)
    ensures NeedsEscape(c) ==> |r| == 2 && r[0] == '\\'
    ensures !NeedsEscape(c) ==> r == [c]
  {
    if c == '\\' then "\\\\" else if c == '"' then "\\\"" else if c == '\n' then "\\n" else [c]
  }

  /** The escaping as one left-to-right pass: each character escaped on its
      own. */
  function Escape(s: string): (r: string)
    ensures |r| == |s| + EscapeCount(s)
    ensures '\n' !in r
  {
    if |s| == 0 then "" else EscapeChar(s[0]) + Escape(s[1..])
  }

  /** The three replacements in sequence do the same as the single pass:
      escaping backslashes first means the backslashes added for quotes and
      line breaks are not escaped again. */
  lemma {:induction false} EscapeInOrderIsEscape(s: string)
    ensures EscapeInOrder(s) == Escape(s)
    decreases |s|
  {
    if |s| > 0 {
      var c, t := s[0], s[1..];
      assert s == [c] + t;
      ReplaceAllAppend([c], t, '\\', "\\\\");
      var a := ReplaceAll([c], '\\', "\\\\");
      ReplaceAllAppend(a, ReplaceAll(t, '\\', "\\\\"), '"', "\\\"");
      var b := ReplaceAll(a, '"', "\\\"");
      ReplaceAllAppend(b, ReplaceAll(ReplaceAll(t, '\\', "\\\\"), '"', "\\\""), '\n', "\\n");
      EscapeInOrderIsEscape(t);
      EscapeCharInOrder(c);
    }
  }

  lemma EscapeCharInOrder(c: char)
    ensures ReplaceAll(ReplaceAll(ReplaceAll([c], '\\', "\\\\"), '"', "\\\""), '\n', "\\n") == EscapeChar(c)
  {
    assert [c][1..] == [];
    if c == '\\' {
      assert ReplaceAll([c], '\\', "\\\\") == "\\\\";
      assert "\\\\"[1..] == "\\";
      assert ReplaceAll("\\\\", '"', "\\\"") == "\\\\";
      assert ReplaceAll("\\\\", '\n', "\\n") == "\\\\";
    } else if c == '"' {
      assert ReplaceAll([c], '\\', "\\\\") == "\"";
      assert ReplaceAll("\"", '"', "\\\"") == "\\\"";
      assert "\\\""[1..] == "\"";
      assert ReplaceAll("\\\"", '\n', "\\n") == "\\\"";
    } else if c == '\n' {
      assert ReplaceAll([c], '\\', "\\\\") == "\n";
      assert ReplaceAll("\n", '"', "\\\"") == "\n";
      assert ReplaceAll("\n", '\n', "\\n") == "\\n";
    }
  }

  /** `sanitizeHTML`: null, undefined and the empty string give the empty
      string; the number 0 is kept; anything else is turned into text and
      escaped. */
  function SanitizeHTML(v: ScriptValue): (r: string)
    ensures v == Null || v == Undefined || v == Text("") ==> r == ""
    ensures v == Number(0) ==> r == "0"
    ensures '\n' !in r
    ensures v.Text? ==> |r| == |v.text| + EscapeCount(v.text)
    ensures v.Text? ==> r == Escape(v.text)
  {
    match v
    case Null => ""
    case Undefined => ""
    case Text(s) =>
      EscapeInOrderIsEscape(s);
      if s == "" then "" else EscapeInOrder(s)
    case Number(n) =>
      EscapeInOrderIsEscape(IntToString(n));
      EscapeInOrder(IntToString(n))
  }

  /** Reading an escaped literal back, left to right. */
  function Unescape(s: string): string
    decreases |s|
  {
    if |s| == 0 then ""
    else if s[0] == '\\' && |s| >= 2 then
      (if s[1] == 'n' then "\n" else [s[1]]) + Unescape(s[2..])
    else [s[0]] + Unescape(s[1..])
  }

  /** Unescaping the escaped text gives the text back. */
  lemma {:induction false} UnescapeEscape(s: string)
    ensures Unescape(Escape(s)) == s
    decreases |s|
  {
    if |s| > 0 {
      var e := EscapeChar(s[0]);
      var rest := Escape(s[1..]);
      UnescapeEscape(s[1..]);
      assert Escape(s) == e + rest;
      if NeedsEscape(s[0]) {
        assert (e + rest)[2..] == rest;
      } else {
        assert (e + rest)[1..] == rest;
      }
      assert s == [s[0]] + s[1..];
    }
  }

  /** Text made only of escape pairs and characters that need no escape:
      every quote is escaped, so none can end the surrounding literal. */
  predicate WellEscaped(s: string)
    decreases |s|
  {
    if |s| == 0 then true
    else if s[0] == '\\' then |s| >= 2 && (s[1] == '\\' || s[1] == '"' || s[1] == 'n') && WellEscaped(s[2..])
    else !NeedsEscape(s[0]) && WellEscaped(s[1..])
  }

  lemma {:induction false} EscapeWellEscaped(s: string)
    ensures WellEscaped(Escape(s))
    decreases |s|
  {
    if |s| > 0 {
      var e := EscapeChar(s[0]);
      var rest := Escape(s[1..]);
      EscapeWellEscaped(s[1..]);
      if NeedsEscape(s[0]) {
        assert (e + rest)[2..] == rest;
      } else {
        assert (e + rest)[1..] == rest;
      }
    }
  }

  /** A quote in well-escaped text always follows a backslash. */
  lemma {:induction false} WellEscapedQuotes(s: string, i: nat)
    requires WellEscaped(s) && i < |s| && s[i] == '"'
    ensures i > 0 && s[i - 1] == '\\'
    decreases |s|
  {
    if s[0] == '\\' {
      if i >= 2 {
        WellEscapedQuotes(s[2..], i - 2);
      }
    } else {
      WellEscapedQuotes(s[1..], i - 1);
    }
  }

  // ---------------------------------------------------------------------
  // Script answers

  /** The boolean helpers: the script's output, trimmed, is `true`. */
  function ScriptBool(stdout: string): (r: bool)
    ensures r ==> Contains(stdout, "true")
  {
    var t := Trim(stdout);
    if t == "true" then
      var a := SkipWs(stdout, 0);
      assert OccursAt(stdout, "true", a);
      true
    else false
  }

  /** The answer is true exactly when the output is `true` with only
      whitespace around it. */
  lemma ScriptBoolPadded(lead: string, trail: string)
    requires AllWs(lead) && AllWs(trail)
    ensures ScriptBool(lead + "true" + trail)
  {
    TrimPadded(lead, "true", trail);
  }

  lemma ScriptBoolOnlyPadded(stdout: string)
    requires ScriptBool(stdout)
    ensures var a := SkipWs(stdout, 0);
      a + 4 <= |stdout| && AllWs(stdout[..a]) && stdout[a..a + 4] == "true" && AllWs(stdout[a + 4..])
  {
  }

  const AccountSeparator := ", "

  /** The account list: AppleScript prints a list as its items separated by
      a comma and a space. */
  function AccountNames(stdout: string): (r: seq<string>)
    ensures |r| >= 1
    ensures JoinWith(r, AccountSeparator) == Trim(stdout)
    ensures forall i :: 0 <= i < |r| ==> !Contains(r[i], AccountSeparator)
  {
    SplitOn(Trim(stdout), AccountSeparator)
  }

  /** Account names that are non-empty, carry no surrounding whitespace and
      hold no ", " come back from the printed list as they were. */
  lemma AccountNamesRoundTrip(names: seq<string>)
    requires |names| >= 1
    requires forall i :: 0 <= i < |names| ==> names[i] != [] && !Contains(names[i], AccountSeparator)
    requires !IsWs(names[0][0]) && !IsWs(names[|names| - 1][|names[|names| - 1]| - 1])
    ensures AccountNames(JoinWith(names, AccountSeparator)) == names
  {
    var j := JoinWith(names, AccountSeparator);
    JoinTrimmed(names, AccountSeparator);
    SeparatorBorderFree();
    SplitJoinSep(names, AccountSeparator);
  }

  lemma SeparatorBorderFree()
    ensures BorderFree(AccountSeparator)
  {
    assert AccountSeparator[1..][0] == ' ' && AccountSeparator[..1][0] == ',';
  }

  /** A join whose first and last characters are not whitespace trims to
      itself. */
  lemma JoinTrimmed(parts: seq<string>, sep: string)
    requires |parts| >= 1 && forall i :: 0 <= i < |parts| ==> parts[i] != []
    requires !IsWs(parts[0][0]) && !IsWs(parts[|parts| - 1][|parts[|parts| - 1]| - 1])
    ensures Trim(JoinWith(parts, sep)) == JoinWith(parts, sep)
  {
    var j := JoinWith(parts, sep);
    JoinEdges(parts, sep);
    assert AllWs("");
    TrimPadded("", j, "");
    assert "" + j + "" == j;
  }

  /** A join starts with the first part's first character and ends with the
      last part's last character. */
  lemma {:induction false} JoinEdges(parts: seq<string>, sep: string)
    requires |parts| >= 1 && forall i :: 0 <= i < |parts| ==> parts[i] != []
    ensures var j := JoinWith(parts, sep);
      j != [] && j[0] == parts[0][0] && j[|j| - 1] == parts[|parts| - 1][|parts[|parts| - 1]| - 1]
    decreases |parts|
  {
    if |parts| > 1 {
      JoinEdges(parts[1..], sep);
    }
  }
}

=== FILE: sync.dfy ===
/** The bookkeeping around a Readwise sync: naming notes after the export
    archive's entries, the primary key inside an Apple Notes id, the lists
    of books to refresh and books that failed, the stored sync settings and
    how a run changes them, and the line breaks added to the rendered HTML.
    Requests to the Readwise server, the archive, markdown rendering and
    AppleScript are not part of this model; their answers are inputs. */
module Sync {
  import opened Base

  // ---------------------------------------------------------------------
  // Archive entries

  /** The note title and book id carried by an entry's file name, such as
      `Readwise/Atomic Habits--1234.md`. */
  datatype EntryName = EntryName(originalName: string, bookId: string)

  /** `writeZipEntryToAppleNotes`'s first two lines: the title is the second
      `/`-segment cut at the first `--` and at the first `(`, then trimmed;
      the book id is what follows the first `--`, cut at the first `.`,
      then trimmed. `None` is the TypeError raised when the name has no `/`
      or no `--`, so that the second piece is `undefined`. */
  function ParseEntryName(filename: string): (r: Option<EntryName>)
    ensures r.None? <==> !Contains(filename, "/") || !Contains(filename, "--")
    ensures r.Some? ==> !Contains(r.value.originalName, "--") && '(' !in r.value.originalName
    ensures r.Some? ==> '.' !in r.value.bookId
    ensures r.Some? ==> r.value.originalName == [] || !IsWs(r.value.originalName[0])
    ensures r.Some? ==> r.value.bookId == [] || !IsWs(r.value.bookId[|r.value.bookId| - 1])
  {
    SplitCount(filename, "/");
    SplitCount(filename, "--");
    var slash := SplitOn(filename, "/");
    var dashes := SplitOn(filename, "--");
    if |slash| < 2 || |dashes| < 2 then None
    else
      var segment := SplitOn(slash[1], "--")[0];
      var title := SplitOn(segment, "(")[0];
      var id := SplitOn(dashes[1], ".")[0];
      SplitFirstPrefix(segment, "(");
      PrefixFree(segment, |title|, "--");
      TrimFree(title, "--");
      NotContainsChar(title, '(');
      TrimKeepsOut(title, '(');
      NotContainsChar(id, '.');
      TrimKeepsOut(id, '.');
      Some(EntryName(Trim(title), Trim(id)))
  }

  /** The archive's naming scheme read back: a title free of `/`, `(` and
      `--` that neither ends in `-` nor carries surrounding whitespace, in a
      folder without `/` or `-`, under a numeric book id, gives back that
      title and that id. */
  lemma EntryNameRoundTrip(folder: string, title: string, id: string)
    requires '/' !in folder && '-' !in folder
    requires title != [] && !IsWs(title[0]) && !IsWs(title[|title| - 1]) && title[|title| - 1] != '-'
    requires '/' !in title && '(' !in title && !Contains(title, "--")
    requires id != [] && AllDigits(id)
    ensures ParseEntryName(folder + "/" + title + "--" + id + ".md") == Some(EntryName(title, id))
  {
    var f := folder + "/" + title + "--" + id + ".md";
    var tail := title + "--" + (id + ".md");
    TitleOfName(folder, title, id);
    IdOfName(folder, title, id);
    TrimmedAlready(title);
    TrimmedAlready(id);
    ParseFromPieces(f, tail, title, id);
  }

  /** The second `/`-segment of the name is `title--id.md`, and the title
      is its part before the `--`. */
  lemma TitleOfName(folder: string, title: string, id: string)
    requires '/' !in folder && '/' !in title && '(' !in title && !Contains(title, "--")
    requires title != [] && title[|title| - 1] != '-'
    requires id != [] && AllDigits(id)
    ensures var tail := title + "--" + (id + ".md");
      && SplitOn(folder + "/" + title + "--" + id + ".md", "/") == [folder, tail]
      && SplitOn(SplitOn(tail, "--")[0], "(")[0] == title
  {
    var ext := id + ".md";
    var tail := title + "--" + ext;
    assert folder + "/" + title + "--" + id + ".md" == folder + "/" + tail;
    assert '/' !in ext && '-' !in ext;
    SlashSplit(folder, tail);
    TitleOfTail(title, ext);
  }

  /** The split on `/` of `folder/tail`, neither holding a `/`. */
  lemma SlashSplit(folder: string, tail: string)
    requires '/' !in folder && '/' !in tail
    ensures SplitOn(folder + "/" + tail, "/") == [folder, tail]
  {
    SplitCharPrefix(tail, None, '/');
    SplitCharPrefix(folder, Some(tail), '/');
  }

  /** The title is the part of `title--ext` before the `--`, and it has no
      `(` to cut at. */
  lemma TitleOfTail(title: string, ext: string)
    requires title != [] && title[|title| - 1] != '-' && '(' !in title && !Contains(title, "--")
    requires '-' !in ext
    ensures SplitOn(SplitOn(title + "--" + ext, "--")[0], "(")[0] == title
  {
    assert "--"[..1] == "-";
    assert title[|title| - 1..] == [title[|title| - 1]];
    NoEarlyOccurrenceEdge(title, "--", ext);
    SplitAfter(title, "--", ext);
    SplitCharPrefix(title, None, '(');
  }

  /** The book id is the part after the first `--`, cut at the `.` of the
      extension. */
  lemma IdOfName(folder: string, title: string, id: string)
    requires '/' !in folder && '-' !in folder
    requires title != [] && title[|title| - 1] != '-' && !Contains(title, "--")
    requires '-' !in id && '.' !in id
    ensures var parts := SplitOn(folder + "/" + title + "--" + id + ".md", "--");
      |parts| >= 2 && SplitOn(parts[1], ".")[0] == id
  {
    var ext := id + ".md";
    var head := folder + "/" + title;
    assert folder + "/" + title + "--" + id + ".md" == head + "--" + ext;
    assert '-' !in ext;
    HeadFree(folder, title);
    NoEarlyOccurrenceEdge(head, "--", ext);
    SplitAfter(head, "--", ext);
    NoFirstChar(ext, "--");
    SplitAlone(ext, "--");
    assert ext == id + "." + "md";
    SplitCharPrefix(id, Some("md"), '.');
  }

  /** The parse read off the pieces of the three splits. */
  lemma ParseFromPieces(f: string, tail: string, title: string, id: string)
    requires |SplitOn(f, "/")| == 2 && SplitOn(f, "/")[1] == tail
    requires SplitOn(SplitOn(tail, "--")[0], "(")[0] == title && Trim(title) == title
    requires |SplitOn(f, "--")| >= 2 && SplitOn(SplitOn(f, "--")[1], ".")[0] == id && Trim(id) == id
    ensures ParseEntryName(f) == Some(EntryName(title, id))
  {
  }

  /** `folder/title` holds no `--` and does not end in `-`. */
  lemma HeadFree(folder: string, title: string)
    requires '/' !in folder && '-' !in folder
    requires title != [] && title[|title| - 1] != '-' && !Contains(title, "--")
    ensures !Contains(folder + "/" + title, "--") && NoPartialSep(folder + "/" + title, "--")
  {
    var h := folder + "/" + title;
    var d := |folder| + 1;
    forall k | 0 <= k <= |h| - 2 ensures !OccursAt(h, "--", k) {
      if k < d {
        assert h[k..k + 2][0] == h[k];
      } else {
        assert h[k..k + 2] == title[k - d..k - d + 2];
        assert !OccursAt(title, "--", k - d);
      }
    }
    assert h[|h| - 1..] == [title[|title| - 1]];
    assert "--"[..1] == "-";
  }

  // ---------------------------------------------------------------------
  // Note primary keys

  predicate IsDigit(c: char) {
    '0' <= c <= '9'
  }

  predicate AllDigits(s: string) {
    forall i :: 0 <= i < |s| ==> IsDigit(s[i])
  }

  /** Where the run of digits that ends the text begins. */
  function DigitRunStart(s: string): (k: nat)
    ensures k <= |s| && AllDigits(s[k..])
    ensures k > 0 ==> !IsDigit(s[k - 1])
    decreases |s|
  {
    if |s| == 0 || !IsDigit(s[|s| - 1]) then |s|
    else
      var k := DigitRunStart(s[..|s| - 1]);
      assert s[k..] == s[..|s| - 1][k..] + [s[|s| - 1]];
      k
  }

  /** A suffix of digits, position by position. */
  lemma DigitsFrom(s: string, a: nat)
    requires a <= |s|
    ensures AllDigits(s[a..]) <==> forall i :: a <= i < |s| ==> IsDigit(s[i])
  {
    assert forall i :: a <= i < |s| ==> s[a..][i - a] == s[i];
  }

  /** The regular expression `p(\d+)$` matches with its `p` at `k`. */
  predicate KeyAt(noteId: string, k: int) {
    0 <= k && k + 1 < |noteId| && noteId[k] == 'p' && AllDigits(noteId[k + 1..])
  }

  /** `note_id.match(/p(\d+)$/)[1]`: the digits that end the id, when a `p`
      stands right before them. `None` is the TypeError raised when nothing
      matches; a match always captures at least one digit, so the source's
      later test for an empty key never fires. */
  function NotePrimaryKey(noteId: string): (r: Option<string>)
    ensures r.Some? <==> exists k :: KeyAt(noteId, k)
    ensures forall k :: KeyAt(noteId, k) ==> r == Some(noteId[k + 1..])
  {
    var k := DigitRunStart(noteId);
    DigitsFrom(noteId, k);
    assert forall j :: KeyAt(noteId, j) ==> j + 1 == k by {
      forall j | KeyAt(noteId, j) ensures j + 1 == k {
        DigitsFrom(noteId, j + 1);
      }
    }
    if 0 < k < |noteId| && noteId[k - 1] == 'p' then
      assert KeyAt(noteId, k - 1);
      Some(noteId[k..])
    else None
  }

  /** The id AppleScript returns for a note, such as
      `x-coredata://E5AB9D06-…/ICNote/p235619`, yields the number after its
      final `p`. */
  lemma NotePrimaryKeyOfId(prefix: string, pk: nat)
    ensures NotePrimaryKey(prefix + "p" + NatToString(pk)) == Some(NatToString(pk))
    ensures ParseNat(NotePrimaryKey(prefix + "p" + NatToString(pk)).value) == pk
  {
    var digits := NatToString(pk);
    var id := prefix + "p" + digits;
    assert id[|prefix| + 1..] == digits;
    assert KeyAt(id, |prefix|);
    NatToStringRoundTrip(pk);
  }

  /** An id that does not end in a digit has no primary key. */
  lemma NoKeyWithoutDigit(noteId: string)
    requires noteId == [] || !IsDigit(noteId[|noteId| - 1])
    ensures NotePrimaryKey(noteId) == None
  {
    forall k | 0 <= k && k + 1 < |noteId| ensures !KeyAt(noteId, k) {
      assert noteId[k + 1..][|noteId| - k - 2] == noteId[|noteId| - 1];
    }
  }

  // ---------------------------------------------------------------------
  // Book lists

  /** The elements of `list` that are not in `bookIds`, in their order. */
  function KeepOut(list: seq<string>, bookIds: seq<string>): (r: seq<string>)
    ensures |r| <= |list|
    ensures forall x :: x in r <==> x in list && x !in bookIds
    decreases |list|
  {
    if |list| == 0 then []
    else (if list[0] in bookIds then [] else [list[0]]) + KeepOut(list[1..], bookIds)
  }

  /** `removeBooksFromRefresh` and `removeBookFromFailedBooks`: an empty
      `bookIds` leaves the list as it is, otherwise the list keeps exactly
      its elements not in `bookIds`. */
  function RemoveBooks(list: seq<string>, bookIds: seq<string>): (r: seq<string>)
    ensures |bookIds| == 0 ==> r == list
    ensures forall x :: x in r <==> x in list && x !in bookIds
    ensures |r| <= |list|
  {
    if |bookIds| == 0 then list else KeepOut(list, bookIds)
  }

  /** Removal works piece by piece: the kept elements of a concatenation
      are the kept elements of each part, in order. */
  lemma {:induction false} KeepOutAppend(a: seq<string>, b: seq<string>, bookIds: seq<string>)
    ensures KeepOut(a + b, bookIds) == KeepOut(a, bookIds) + KeepOut(b, bookIds)
    decreases |a|
  {
    if |a| == 0 {
      assert a + b == b;
    } else {
      assert (a + b)[1..] == a[1..] + b;
      KeepOutAppend(a[1..], b, bookIds);
    }
  }

  /** A list with nothing to remove comes back unchanged. */
  lemma {:induction false} KeepOutNothing(list: seq<string>, bookIds: seq<string>)
    requires forall i :: 0 <= i < |list| ==> list[i] !in bookIds
    ensures KeepOut(list, bookIds) == list
    decreases |list|
  {
    if |list| > 0 {
      KeepOutNothing(list[1..], bookIds);
    }
  }

  /** Removing the same books twice removes nothing more. */
  lemma RemoveBooksIdempotent(list: seq<string>, bookIds: seq<string>)
    ensures RemoveBooks(RemoveBooks(list, bookIds), bookIds) == RemoveBooks(list, bookIds)
  {
    var r := RemoveBooks(list, bookIds);
    if |bookIds| > 0 {
      assert forall i :: 0 <= i < |r| ==> r[i] in r;
      KeepOutNothing(r, bookIds);
    }
  }

  /** How a processed entry ended: saved, the AppleScript write answered
      nothing, the entry had no data, or an exception was caught. */
  datatype EntryResult = Saved | NotSaved | EmptyEntry | Threw

  /** The end of `writeZipEntryToAppleNotes`: a failed write records the book
      as failed; an entry without data or one that threw does so only for a
      non-empty book id. Every other path removes the book from both lists. */
  function RecordEntry(failedBooks: seq<string>, booksToRefresh: seq<string>, bookId: string, result: EntryResult)
    : (r: (seq<string>, seq<string>))
    ensures result == NotSaved || (result != Saved && bookId != "") ==> r == (failedBooks + [bookId], booksToRefresh)
    ensures result == Saved || (result != NotSaved && bookId == "") ==>
      bookId !in r.0 && bookId !in r.1
      && (forall x :: x != bookId ==> (x in r.0 <==> x in failedBooks))
      && (forall x :: x != bookId ==> (x in r.1 <==> x in booksToRefresh))
  {
    if result == NotSaved || (result != Saved && bookId != "") then (failedBooks + [bookId], booksToRefresh)
    else (RemoveBooks(failedBooks, [bookId]), RemoveBooks(booksToRefresh, [bookId]))
  }

  /** `syncHighlights`' target list: the ids asked for, then the failed
      books, then the books to refresh when refreshing is on. */
  function TargetBookIds(bookIds: Option<seq<string>>, failedBooks: seq<string>, refreshBooks: bool, booksToRefresh: seq<string>)
    : (r: seq<string>)
    ensures var asked := if bookIds.Some? then bookIds.value else [];
      |r| == |asked| + |failedBooks| + (if refreshBooks then |booksToRefresh| else 0)
      && r[..|asked|] == asked
      && r[|asked|..|asked| + |failedBooks|] == failedBooks
      && (refreshBooks ==> r[|asked| + |failedBooks|..] == booksToRefresh)
    ensures forall x :: x in r <==> (bookIds.Some? && x in bookIds.value) || x in failedBooks || (refreshBooks && x in booksToRefresh)
  {
    var asked := if bookIds.Some? then bookIds.value else [];
    var t := asked + failedBooks;
    if refreshBooks then
      assert (t + booksToRefresh)[..|t|] == t;
      t + booksToRefresh
    else t
  }

  // ---------------------------------------------------------------------
  // Server answers

  /** The parts of a `fetch` response the sync reads. */
  datatype Response = Response(ok: bool, status: int, statusText: string)

  const DifferentClient := "Sync in progress initiated by different client"
  const ExportLocked := "Apple Notes export is locked. Wait for an hour."
  const NoConnection := "Can't connect to server"

  /** `getErrorMessageFromResponse`; `None` is the missing response of a
      request that threw. */
  function ErrorMessage(response: Option<Response>): (r: string)
    ensures response.None? ==> r == NoConnection
    ensures response.Some? && response.value.status == 409 ==> r == DifferentClient
    ensures response.Some? && response.value.status == 417 ==> r == ExportLocked
    ensures response.Some? && response.value.status != 409 && response.value.status != 417 ==> r == response.value.statusText
  {
    match response
    case None => NoConnection
    case Some(resp) =>
      if resp.status == 409 then DifferentClient
      else if resp.status == 417 then ExportLocked
      else resp.statusText
  }

  /** What `getExportStatus` does next with the task status it read. */
  datatype ExportStep = KeepPolling | Download | ExportFailed

  const WaitingStatuses := ["PENDING", "RECEIVED", "STARTED", "RETRY"]
  const SuccessStatuses := ["SUCCESS"]

  function ClassifyStatus(taskStatus: string): (r: ExportStep)
    ensures r == KeepPolling <==> taskStatus in WaitingStatuses
    ensures r == Download <==> taskStatus == "SUCCESS"
    ensures r == ExportFailed <==> taskStatus !in WaitingStatuses && taskStatus != "SUCCESS"
  {
    if taskStatus in WaitingStatuses then KeepPolling
    else if taskStatus in SuccessStatuses then Download
    else ExportFailed
  }

  // ---------------------------------------------------------------------
  // Stored settings

  /** The store entries a sync run reads and writes. */
  datatype Settings = Settings(
    isSyncing: bool,
    currentSyncStatusID: int,
    lastSyncFailed: bool,
    lastSavedStatusID: int,
    failedBooks: seq<string>,
    booksToRefresh: seq<string>,
    refreshBooks: bool)

  /** `clearSettingsAfterRun`: no sync is running and no export is being
      polled; nothing else changes. */
  function ClearSettingsAfterRun(s: Settings): (r: Settings)
    ensures !r.isSyncing && r.currentSyncStatusID == 0
    ensures r.(isSyncing := s.isSyncing, currentSyncStatusID := s.currentSyncStatusID) == s
  {
    s.(isSyncing := false, currentSyncStatusID := 0)
  }

  /** `handleSyncError`: the run is over and marked failed. */
  function HandleSyncError(s: Settings): (r: Settings)
    ensures !r.isSyncing && r.currentSyncStatusID == 0 && r.lastSyncFailed
    ensures r.(isSyncing := s.isSyncing, currentSyncStatusID := s.currentSyncStatusID, lastSyncFailed := s.lastSyncFailed) == s
  {
    ClearSettingsAfterRun(s).(lastSyncFailed := true)
  }

  /** `handleSyncSuccess`: the run is over and marked successful; the saved
      export id moves only when one is given and it is not 0, the ids
      JavaScript treats as false being `null` and 0. */
  function HandleSyncSuccess(s: Settings, exportID: Option<int>): (r: Settings)
    ensures !r.isSyncing && r.currentSyncStatusID == 0 && !r.lastSyncFailed
    ensures r.lastSavedStatusID != s.lastSavedStatusID ==> exportID.Some? && exportID.value != 0 && r.lastSavedStatusID == exportID.value
    ensures exportID.Some? && exportID.value != 0 ==> r.lastSavedStatusID == exportID.value
    ensures r.(isSyncing := s.isSyncing, currentSyncStatusID := s.currentSyncStatusID,
               lastSyncFailed := s.lastSyncFailed, lastSavedStatusID := s.lastSavedStatusID) == s
  {
    var c := ClearSettingsAfterRun(s).(lastSyncFailed := false);
    if exportID.Some? && exportID.value != 0 then c.(lastSavedStatusID := exportID.value) else c
  }

  /** One answer of the export-status endpoint: the request threw, or a
      response came with the task status in its body. */
  datatype StatusReply = StatusThrew | StatusAnswer(response: Response, taskStatus: string)

  /** One round of `getExportStatus`: a waiting status polls again and a
      finished one downloads, both with the settings untouched; a bad
      response, an unknown status or an exception ends the run as failed. */
  function ExportStatusStep(s: Settings, reply: StatusReply): (r: (Settings, ExportStep))
    ensures r.1 != ExportFailed ==> r.0 == s && reply.StatusAnswer? && reply.response.ok
    ensures r.1 == ExportFailed ==> r.0 == HandleSyncError(s)
    ensures reply.StatusAnswer? && reply.response.ok ==> r.1 == ClassifyStatus(reply.taskStatus)
  {
    match reply
    case StatusThrew => (HandleSyncError(s), ExportFailed)
    case StatusAnswer(resp, status) =>
      if !resp.ok then (HandleSyncError(s), ExportFailed)
      else
        var step := ClassifyStatus(status);
        if step == ExportFailed then (HandleSyncError(s), ExportFailed) else (s, step)
  }

  // ---------------------------------------------------------------------
  // Queueing an export

  /** What the Apple Notes folder checks answered. */
  datatype Folder = Folder(present: bool, isEmpty: bool, created: bool)

  /** The answer to the export request: it threw, or a response came with
      the `latest_id` of its body (`None` when the body is missing). */
  datatype QueueReply = QueueThrew | QueueAnswer(response: Response, latestId: Option<int>)

  /** How a `queueExport` call ended. `Polling` hands the export id to
      `getExportStatus`; `parentDeleted` is the flag the request carried. */
  datatype QueueOutcome =
    | AlreadyRunning
    | NoFolder
    | NoAccount
    | FolderNotCreated
    | Failed(message: string)
    | NoData
    | UpToDate
    | Polling(statusId: int, parentDeleted: bool)
    | SavedElsewhere

  datatype QueueRun = QueueRun(settings: Settings, outcome: QueueOutcome)

  /** The run ends while `isSyncing` still says a sync is running. */
  predicate LeftRunning(r: QueueRun) {
    r.settings.isSyncing
  }

  /** The request asks for a full sync when the folder had to be created or
      is empty. */
  function ParentDeleted(folder: Folder): (r: bool)
    ensures r <==> !folder.present || folder.isEmpty
  {
    if !folder.present then true else folder.isEmpty
  }

  /** `queueExport`, with a failed request ending the run as failed with the
      no-connection message, as every other failed request of the sync
      does. The stored export id never decreases; an id no newer than the
      saved one ends the run as up to date; a newer one is saved first and
      then either polled (status 201) or recorded as synced elsewhere. */
  function QueueExport(s: Settings, readwiseDir: string, account: string, folder: Folder, reply: QueueReply): (r: QueueRun)
    ensures s.isSyncing ==> r == QueueRun(s, AlreadyRunning)
    ensures !s.isSyncing ==> (LeftRunning(r) <==> r.outcome.Polling?)
    ensures r.settings.lastSavedStatusID >= s.lastSavedStatusID
    ensures r.settings.failedBooks == s.failedBooks && r.settings.booksToRefresh == s.booksToRefresh
    ensures r.outcome == UpToDate ==> r.settings.lastSavedStatusID == s.lastSavedStatusID && !r.settings.lastSyncFailed
    ensures r.outcome.Polling? ==>
      reply.QueueAnswer? && reply.latestId == Some(r.outcome.statusId)
      && r.outcome.statusId > s.lastSavedStatusID && r.settings.lastSavedStatusID == r.outcome.statusId
      && r.outcome.parentDeleted == ParentDeleted(folder)
    ensures r.outcome == SavedElsewhere ==>
      reply.QueueAnswer? && reply.latestId.Some? && reply.latestId.value > s.lastSavedStatusID
      && r.settings.lastSavedStatusID == reply.latestId.value && !r.settings.lastSyncFailed
    ensures r.outcome.Failed? ==> r.settings == HandleSyncError(s) && r.outcome.message == ErrorMessage(if reply.QueueAnswer? then Some(reply.response) else None)
    ensures r.outcome in {NoFolder, NoAccount, FolderNotCreated, NoData} ==> r.settings == HandleSyncError(s)
  {
    if s.isSyncing then QueueRun(s, AlreadyRunning)
    else
      var running := s.(isSyncing := true);
      if readwiseDir == "" then QueueRun(HandleSyncError(running), NoFolder)
      else if account == "" then QueueRun(HandleSyncError(running), NoAccount)
      else if !folder.present && !folder.created then QueueRun(HandleSyncError(running), FolderNotCreated)
      else
        match reply
        case QueueThrew => QueueRun(HandleSyncError(running), Failed(ErrorMessage(None)))
        case QueueAnswer(resp, data) =>
          if !resp.ok then QueueRun(HandleSyncError(running), Failed(ErrorMessage(Some(resp))))
          else if data.None? then QueueRun(HandleSyncError(running), NoData)
          else if data.value <= s.lastSavedStatusID then QueueRun(HandleSyncSuccess(running, None), UpToDate)
          else
            var saved := running.(lastSavedStatusID := data.value);
            if resp.status == 201 then QueueRun(saved, Polling(data.value, ParentDeleted(folder)))
            else QueueRun(HandleSyncSuccess(saved, Some(data.value)), SavedElsewhere)
  }

  /** `queueExport` as written: when the request throws, the run returns
      straight from the `catch` and `isSyncing` stays set. */
  function QueueExportAsWritten(s: Settings, readwiseDir: string, account: string, folder: Folder, reply: QueueReply): (r: QueueRun)
    ensures reply.QueueAnswer? ==> r == QueueExport(s, readwiseDir, account, folder, reply)
    ensures r.settings.lastSavedStatusID >= s.lastSavedStatusID
  {
    if !s.isSyncing && readwiseDir != "" && account != "" && (folder.present || folder.created) && reply == QueueThrew then
      QueueRun(s.(isSyncing := true), Failed(ErrorMessage(None)))
    else QueueExport(s, readwiseDir, account, folder, reply)
  }

  /** A request that throws leaves `isSyncing` set, so every later call
      stops at the already-running check, whatever the server would
      answer. */
  lemma AsWrittenThrowBlocksLaterRuns(s: Settings, readwiseDir: string, account: string, folder: Folder, next: QueueReply)
    requires !s.isSyncing && readwiseDir != "" && account != "" && folder.present
    ensures var first := QueueExportAsWritten(s, readwiseDir, account, folder, QueueThrew);
      LeftRunning(first)
      && QueueExportAsWritten(first.settings, readwiseDir, account, folder, next).outcome == AlreadyRunning
  {
  }

  /** With the failure handled, a run that is not waiting on an export
      leaves the next run free to start. */
  lemma QueueExportReleases(s: Settings, readwiseDir: string, account: string, folder: Folder, reply: QueueReply, next: QueueReply)
    requires !s.isSyncing
    requires !QueueExport(s, readwiseDir, account, folder, reply).outcome.Polling?
    ensures QueueExport(QueueExport(s, readwiseDir, account, folder, reply).settings, readwiseDir, account, folder, next).outcome != AlreadyRunning
  {
  }

  // ---------------------------------------------------------------------
  // Line breaks in the rendered HTML

  /** The closing tags the break insertion looks for: `</p>`, `</h1>` to
      `</h6>`, `</ul>` and `</ol>`. */
  predicate IsCloseTag(t: string) {
    t == "</p>" || t == "</ul>" || t == "</ol>"
    || (|t| == 5 && t[..3] == "</h" && '1' <= t[3] <= '6' && t[4] == '>')
  }

  /** The length of the closing tag the text starts with, 0 if none. The
      alternatives of `/<\/p>|<\/h[1-6]>|<\/ul>|<\/ol>/` cannot match at the
      same place, so their order does not matter. */
  function TagLength(s: string): (n: nat)
    ensures n == 0 || n == 4 || n == 5
    ensures n > 0 ==> n <= |s| && IsCloseTag(s[..n])
    ensures n == 0 ==> forall m :: 0 < m <= |s| ==> !IsCloseTag(s[..m])
    ensures n > 0 ==> s[0] == '<'
  {
    if |s| >= 4 && IsCloseTag(s[..4]) then 4
    else if |s| >= 5 && IsCloseTag(s[..5]) then 5
    else 0
  }

  /** A closing tag has its `<` first and nowhere else. */
  lemma CloseTagShape(t: string)
    requires IsCloseTag(t)
    ensures |t| >= 4 && t[0] == '<' && forall k :: 0 < k < |t| ==> t[k] != '<'
  {
  }

  const Break := "<br>"

  /** `html.replace(TAGS_TO_REPLACE_REGEX, '$&<br>')`: scanning left to
      right, each closing tag is copied with `<br>` after it and the scan
      goes on after the tag. */
  function InsertBreaks(s: string): (r: string)
    ensures |r| >= |s|
    ensures '<' !in s ==> r == s
    decreases |s|
  {
    if |s| == 0 then ""
    else
      var n := TagLength(s);
      if n > 0 then s[..n] + Break + InsertBreaks(s[n..])
      else [s[0]] + InsertBreaks(s[1..])
  }

  /** Taking out the `<br>` that follows each closing tag: the partner of
      the insertion. */
  function RemoveBreaks(s: string): string
    decreases |s|
  {
    if |s| == 0 then ""
    else
      var n := TagLength(s);
      if n > 0 && n + 4 <= |s| && s[n..n + 4] == Break then s[..n] + RemoveBreaks(s[n + 4..])
      else [s[0]] + RemoveBreaks(s[1..])
  }

  /** Removing the inserted breaks gives the HTML back: nothing is lost or
      reordered, and a `<br>` already in the HTML after a closing tag stays
      apart from the one added. */
  lemma {:induction false} BreaksRoundTrip(s: string)
    ensures RemoveBreaks(InsertBreaks(s)) == s
    decreases |s|
  {
    if |s| > 0 {
      var n := TagLength(s);
      if n > 0 {
        var tag := s[..n];
        assert s == tag + s[n..];
        BreaksRoundTrip(s[n..]);
        RemoveAtTag(tag, InsertBreaks(s[n..]));
      } else {
        var rest := InsertBreaks(s[1..]);
        NoTagAfterPlainChar(s, rest);
        RemoveAtPlain(s[0], rest);
        BreaksRoundTrip(s[1..]);
        assert s == [s[0]] + s[1..];
      }
    }
  }

  /** Text that starts with a closing tag is scanned as that tag. */
  lemma TagLengthOf(tag: string, rest: string)
    requires IsCloseTag(tag)
    ensures TagLength(tag + rest) == |tag|
  {
    var t := tag + rest;
    assert t[..|tag|] == tag;
    if |tag| == 5 {
      assert t[..4] == tag[..4];
      assert tag[3] != '>' by {
        assert tag == "</ul>" || tag == "</ol>" || '1' <= tag[3] <= '6';
      }
    }
  }

  /** The removal takes a tag and the break after it in one step. */
  lemma RemoveAtTag(tag: string, rest: string)
    requires IsCloseTag(tag)
    ensures RemoveBreaks(tag + Break + rest) == tag + RemoveBreaks(rest)
  {
    var t := tag + Break + rest;
    var n := |tag|;
    TagLengthOf(tag, Break + rest);
    assert t == tag + (Break + rest);
    assert t[..n] == tag;
    assert t[n..n + 4] == Break;
    assert t[n + 4..] == rest;
  }

  /** The removal copies a character that starts no tag-and-break. */
  lemma RemoveAtPlain(c: char, rest: string)
    requires var out := [c] + rest;
      var m := TagLength(out); !(m > 0 && m + 4 <= |out| && out[m..m + 4] == Break)
    ensures RemoveBreaks([c] + rest) == [c] + RemoveBreaks(rest)
  {
    assert ([c] + rest)[1..] == rest;
  }

  /** Where the text starts with no closing tag, the output does not start
      with a closing tag followed by a break either. */
  lemma NoTagAfterPlainChar(s: string, rest: string)
    requires |s| > 0 && TagLength(s) == 0 && rest == InsertBreaks(s[1..])
    ensures var out := [s[0]] + rest;
      var m := TagLength(out); !(m > 0 && m + 4 <= |out| && out[m..m + 4] == Break)
  {
    var out := [s[0]] + rest;
    var m := TagLength(out);
    if m > 0 {
      TagCopied(s, rest, m);
      assert false;
    }
  }

  /** A closing tag at the start of the output was copied from the text. */
  lemma TagCopied(s: string, rest: string, m: nat)
    requires |s| > 0 && rest == InsertBreaks(s[1..])
    requires 0 < m <= |rest| + 1 && IsCloseTag(([s[0]] + rest)[..m])
    ensures m <= |s| && IsCloseTag(s[..m])
  {
    var tag := ([s[0]] + rest)[..m];
    CloseTagShape(tag);
    forall k | 0 <= k < m - 1 ensures rest[k] != '<' {
      assert tag[k + 1] == rest[k];
    }
    PlainPrefix(s, rest, m - 1);
  }

  /** Before its first `<`, the insertion's output after the first
      character matches the text. */
  lemma PlainPrefix(s: string, rest: string, d: nat)
    requires |s| > 0 && rest == InsertBreaks(s[1..])
    requires d <= |rest| && forall k :: 0 <= k < d ==> rest[k] != '<'
    ensures d + 1 <= |s| && s[..d + 1] == ([s[0]] + rest)[..d + 1]
  {
    InsertPrefix(s[1..], d);
    PrefixCompose(s[0], rest, s[1..], d);
    assert [s[0]] + s[1..] == s;
  }

  /** Up to the first `<` it writes, the insertion copies its input. */
  lemma {:induction false} InsertPrefix(t: string, m: nat)
    requires m <= |InsertBreaks(t)|
    requires forall k :: 0 <= k < m ==> InsertBreaks(t)[k] != '<'
    ensures m <= |t| && InsertBreaks(t)[..m] == t[..m]
    decreases |t|
  {
    if m > 0 {
      InsertFirstPlain(t);
      TailPlain(t[0], InsertBreaks(t[1..]), m);
      InsertPrefix(t[1..], m - 1);
      PrefixCompose(t[0], InsertBreaks(t[1..]), t[1..], m - 1);
      assert [t[0]] + t[1..] == t;
    }
  }

  lemma TailPlain(c: char, rest: string, m: nat)
    requires 0 < m <= |rest| + 1
    requires forall k :: 0 <= k < m ==> ([c] + rest)[k] != '<'
    ensures forall k :: 0 <= k < m - 1 ==> rest[k] != '<'
  {
    forall k | 0 <= k < m - 1 ensures rest[k] != '<' {
      assert ([c] + rest)[k + 1] == rest[k];
    }
  }

  lemma PrefixCompose(c: char, r: string, u: string, n: nat)
    requires n <= |r| && n <= |u| && r[..n] == u[..n]
    ensures ([c] + r)[..n + 1] == ([c] + u)[..n + 1]
  {
    assert ([c] + r)[..n + 1] == [c] + r[..n];
    assert ([c] + u)[..n + 1] == [c] + u[..n];
  }

  /** Output that does not start with `<` starts with a copied character. */
  lemma InsertFirstPlain(t: string)
    requires |InsertBreaks(t)| > 0 && InsertBreaks(t)[0] != '<'
    ensures |t| > 0 && TagLength(t) == 0
    ensures InsertBreaks(t) == [t[0]] + InsertBreaks(t[1..])
  {
  }


  /** Each closing tag gains exactly one `<br>`: the output is four
      characters longer per tag found. */
  function TagCount(s: string): nat
    decreases |s|
  {
    if |s| == 0 then 0
    else
      var n := TagLength(s);
      if n > 0 then 1 + TagCount(s[n..]) else TagCount(s[1..])
  }

  lemma {:induction false} InsertBreaksLength(s: string)
    ensures |InsertBreaks(s)| == |s| + 4 * TagCount(s)
    decreases |s|
  {
    if |s| > 0 {
      var n := TagLength(s);
      if n > 0 {
        InsertBreaksLength(s[n..]);
      } else {
        InsertBreaksLength(s[1..]);
      }
    }
  }
}

=== FILE: table.dfy ===
/** `TableConverter`: a table attachment is a mergeable (CRDT) object graph.
    Rows and columns are ordered sets of uuids, cells are reached through
    two dictionaries, and every reference is an index into a shared list.
    The converter resolves the graph into a grid of cell texts and renders
    it as a Markdown pipe table. Reading a field of a missing object raises
    a `TypeError` in the source; here that is the outcome `Thrown`. */
module Table {
  import opened Base
  import opened NoteModel
  import opened Formatter
  import opened Tokenizer
  import opened NoteConverter

  datatype ObjectRef = ObjectRef(objectIndex: nat)
  datatype MapValue = MapValue(objectIndex: nat, unsignedIntegerValue: nat)
  datatype MapEntry = MapEntry(key: nat, value: MapValue)
  datatype CustomMap = CustomMap(typeIndex: nat, mapEntry: seq<MapEntry>)
  datatype DictionaryElement = DictionaryElement(key: ObjectRef, value: ObjectRef)

  /** An ordered set: the uuids in order, and the elements that map an
      entry to the uuid it stands for. */
  datatype OrderedSet = OrderedSet(ordering: seq<seq<bv8>>, contents: seq<DictionaryElement>)

  datatype TableObject = TableObject(
    customMap: Option<CustomMap>,
    orderedSet: Option<OrderedSet>,
    dictionary: Option<seq<DictionaryElement>>,
    note: Option<Document>)

  datatype MergeableTable = MergeableTable(
    keys: seq<string>,
    types: seq<string>,
    uuids: seq<seq<bv8>>,
    objects: seq<TableObject>)

  const TypeTable := "com.apple.notes.ICTable"
  const KeyRows := "crRows"
  const KeyColumns := "crColumns"
  const KeyCellColumns := "cellColumns"

  // ---------------------------------------------------------------------
  // Uuids

  const HexDigits := "0123456789abcdef"

  /** `Buffer.from(uuid).toString('hex')`: two lower-case hex digits per
      byte. */
  function UuidToString(uuid: seq<bv8>): (r: string)
    ensures |r| == 2 * |uuid|
    ensures forall i :: 0 <= i < |r| ==> r[i] in HexDigits
  {
    if |uuid| == 0 then ""
    else
      var b := uuid[0] as int;
      [HexDigits[b / 16], HexDigits[b % 16]] + UuidToString(uuid[1..])
  }

  function HexValue(c: char): Option<nat> {
    if '0' <= c <= '9' then Some(c as int - '0' as int)
    else if 'a' <= c <= 'f' then Some(c as int - 'a' as int + 10)
    else None
  }

  /** Reading hex text back into bytes. */
  function HexDecode(s: string): Option<seq<bv8>>
    decreases |s|
  {
    if |s| < 2 then (if |s| == 0 then Some([]) else None)
    else
      match (HexValue(s[0]), HexValue(s[1]), HexDecode(s[2..]))
      case (Some(h), Some(l), Some(rest)) =>
        if h < 16 && l < 16 then Some([(h * 16 + l) as bv8] + rest) else None
      case _ => None
  }

  lemma HexDigitValue(k: int)
    requires 0 <= k < 16
    ensures HexValue(HexDigits[k]) == Some(k)
  {
  }

  lemma ByteDigits(b: bv8)
    ensures b as int / 16 < 16
    ensures ((b as int / 16) * 16 + b as int % 16) as bv8 == b
  {
  }

  lemma HexDecodeCons(x: char, y: char, rest: string, h: nat, l: nat)
    requires HexValue(x) == Some(h) && HexValue(y) == Some(l) && h < 16 && l < 16
    requires HexDecode(rest).Some?
    ensures HexDecode([x, y] + rest) == Some([(h * 16 + l) as bv8] + HexDecode(rest).value)
  {
    assert ([x, y] + rest)[2..] == rest;
  }

  /** The hex text of a uuid reads back as the uuid, so distinct uuids get
      distinct keys. */
  lemma {:induction false} UuidHexRoundTrip(uuid: seq<bv8>)
    ensures HexDecode(UuidToString(uuid)) == Some(uuid)
    decreases |uuid|
  {
    if |uuid| > 0 {
      var b := uuid[0] as int;
      var hi, lo := b / 16, b % 16;
      var rest := UuidToString(uuid[1..]);
      assert UuidToString(uuid) == [HexDigits[hi], HexDigits[lo]] + rest;
      UuidHexRoundTrip(uuid[1..]);
      HexDigitValue(hi);
      HexDigitValue(lo);
      ByteDigits(uuid[0]);
      HexDecodeCons(HexDigits[hi], HexDigits[lo], rest, hi, lo);
      assert (hi * 16 + lo) as bv8 == uuid[0];
      assert uuid == [uuid[0]] + uuid[1..];
    }
  }

  lemma UuidToStringInjective(u: seq<bv8>, v: seq<bv8>)
    requires UuidToString(u) == UuidToString(v)
    ensures u == v
  {
    UuidHexRoundTrip(u);
    UuidHexRoundTrip(v);
  }

  // ---------------------------------------------------------------------
  // Following references

  function ObjectAt(t: MergeableTable, i: nat): Option<TableObject> {
    if i < |t.objects| then Some(t.objects[i]) else None
  }

  /** `getTargetUuid`: the referenced object's first map entry holds an
      index into the uuid list. A missing object, map or entry throws; an
      index past the list gives `undefined`, here `None`. */
  function TargetUuid(t: MergeableTable, ref: ObjectRef): (r: Outcome<Option<string>>)
    ensures r.Done? <==>
      ref.objectIndex < |t.objects| && t.objects[ref.objectIndex].customMap.Some?
      && |t.objects[ref.objectIndex].customMap.value.mapEntry| > 0
    ensures r.Done? ==>
      var i := t.objects[ref.objectIndex].customMap.value.mapEntry[0].value.unsignedIntegerValue;
      r.value == (if i < |t.uuids| then Some(UuidToString(t.uuids[i])) else None)
  {
    match ObjectAt(t, ref.objectIndex)
    case None => Thrown
    case Some(o) =>
      if o.customMap.None? || |o.customMap.value.mapEntry| == 0 then Thrown
      else
        var i := o.customMap.value.mapEntry[0].value.unsignedIntegerValue;
        if i < |t.uuids| then Done(Some(UuidToString(t.uuids[i]))) else Done(None)
  }

  /** `ordering.indexOf(key)`: the first position of the key, or -1. */
  function IndexOf(ordering: seq<string>, key: Option<string>): (r: int)
    ensures -1 <= r < |ordering|
    ensures r == -1 <==> key.None? || key.value !in ordering
    ensures r >= 0 ==> ordering[r] == key.value && forall k :: 0 <= k < r ==> ordering[k] != key.value
  {
    if key.None? || |ordering| == 0 then -1
    else if ordering[0] == key.value then 0
    else
      var r := IndexOf(ordering[1..], key);
      if r == -1 then -1 else r + 1
  }

  /** Locations keyed by uuid; the key `None` is JavaScript's "undefined". */
  type Locations = map<Option<string>, int>

  /** `indices[value] = ordering.indexOf(key)` for each element in turn. */
  function AssignIndices(t: MergeableTable, ordering: seq<string>, elems: seq<DictionaryElement>, acc: Locations): (r: Outcome<Locations>)
    ensures r.Done? <==> forall i :: 0 <= i < |elems| ==> Resolves(t, elems[i])
    ensures (forall v :: v in acc ==> -1 <= acc[v] < |ordering|) && r.Done?
      ==> forall v :: v in r.value ==> -1 <= r.value[v] < |ordering|
    decreases |elems|
  {
    if |elems| == 0 then Done(acc)
    else
      match (TargetUuid(t, elems[0].key), TargetUuid(t, elems[0].value))
      case (Done(k), Done(v)) => AssignIndices(t, ordering, elems[1..], acc[v := IndexOf(ordering, k)])
      case _ => Thrown
  }

  /** Both ends of an element lead to a uuid (or to `undefined`). */
  predicate Resolves(t: MergeableTable, e: DictionaryElement) {
    TargetUuid(t, e.key).Done? && TargetUuid(t, e.value).Done?
  }

  /** The position of the last element whose value names `u`, or -1 when
      none does. */
  function LastNaming(t: MergeableTable, elems: seq<DictionaryElement>, u: Option<string>): (r: int)
    ensures -1 <= r < |elems|
    ensures r >= 0 ==> TargetUuid(t, elems[r].value) == Done(u)
    ensures forall i :: r < i < |elems| ==> TargetUuid(t, elems[i].value) != Done(u)
    ensures r == -1 <==> forall i :: 0 <= i < |elems| ==> TargetUuid(t, elems[i].value) != Done(u)
    decreases |elems|
  {
    if |elems| == 0 then -1
    else
      var l := LastNaming(t, elems[1..], u);
      if l >= 0 then l + 1
      else if TargetUuid(t, elems[0].value) == Done(u) then 0
      else -1
  }

  /** The map `findLocations` builds: a uuid has a location exactly when
      it had one before or some element names it, and then the location
      is the index of the key of the last element that names it. */
  lemma {:induction false} AssignIndicesAt(t: MergeableTable, ordering: seq<string>, elems: seq<DictionaryElement>, acc: Locations, u: Option<string>)
    requires AssignIndices(t, ordering, elems, acc).Done?
    ensures var m := AssignIndices(t, ordering, elems, acc).value;
      var l := LastNaming(t, elems, u);
      && (u in m <==> u in acc || l >= 0)
      && (l >= 0 ==> Resolves(t, elems[l]) && m[u] == IndexOf(ordering, TargetUuid(t, elems[l].key).value))
      && (l == -1 && u in acc ==> m[u] == acc[u])
    decreases |elems|
  {
    if |elems| > 0 {
      var acc' := AssignStep(t, ordering, elems, acc);
      AssignIndicesAt(t, ordering, elems[1..], acc', u);
      LastNamingStep(t, elems, u);
    }
  }

  /** One turn of the loop: the first element's value gets its key's
      index, then the rest of the elements follow. */
  lemma AssignStep(t: MergeableTable, ordering: seq<string>, elems: seq<DictionaryElement>, acc: Locations)
    returns (acc': Locations)
    requires |elems| > 0 && AssignIndices(t, ordering, elems, acc).Done?
    ensures Resolves(t, elems[0])
    ensures acc' == acc[TargetUuid(t, elems[0].value).value := IndexOf(ordering, TargetUuid(t, elems[0].key).value)]
    ensures AssignIndices(t, ordering, elems, acc) == AssignIndices(t, ordering, elems[1..], acc')
  {
    assert Resolves(t, elems[0]);
    acc' := acc[TargetUuid(t, elems[0].value).value := IndexOf(ordering, TargetUuid(t, elems[0].key).value)];
  }

  /** The last element naming `u` is the last one among the later
      elements, shifted by one, or else the first element when it names
      `u`. */
  lemma LastNamingStep(t: MergeableTable, elems: seq<DictionaryElement>, u: Option<string>)
    requires |elems| > 0
    ensures var l' := LastNaming(t, elems[1..], u);
      && (l' >= 0 ==> LastNaming(t, elems, u) == l' + 1 && elems[l' + 1] == elems[1..][l'])
      && (l' < 0 ==> LastNaming(t, elems, u) == (if TargetUuid(t, elems[0].value) == Done(u) then 0 else -1))
  {
  }

  /** When several elements name the same uuid, the last one decides its
      location. */
  lemma {:induction false} LastElementWins(t: MergeableTable, ordering: seq<string>, elems: seq<DictionaryElement>, acc: Locations)
    requires |elems| > 0
    requires AssignIndices(t, ordering, elems, acc).Done?
    ensures var e := elems[|elems| - 1];
      TargetUuid(t, e.key).Done? && TargetUuid(t, e.value).Done?
      && TargetUuid(t, e.value).value in AssignIndices(t, ordering, elems, acc).value
      && AssignIndices(t, ordering, elems, acc).value[TargetUuid(t, e.value).value]
         == IndexOf(ordering, TargetUuid(t, e.key).value)
    decreases |elems|
  {
    var k := TargetUuid(t, elems[0].key);
    var v := TargetUuid(t, elems[0].value);
    if |elems| > 1 {
      LastElementWins(t, ordering, elems[1..], acc[v.value := IndexOf(ordering, k.value)]);
      assert elems[1..][|elems[1..]| - 1] == elems[|elems| - 1];
    }
  }

  /** `findLocations`: the location of every row (or column) uuid, and how
      many there are. */
  function FindLocations(t: MergeableTable, obj: Option<TableObject>): (r: Outcome<(Locations, nat)>)
    ensures r.Done? <==> (obj.Some? && obj.value.orderedSet.Some?
      && AssignIndices(t, Ordering(obj.value.orderedSet.value), obj.value.orderedSet.value.contents, map[]).Done?)
    ensures r.Done? ==> (r.value.1 == |obj.value.orderedSet.value.ordering|
      && r.value.0 == AssignIndices(t, Ordering(obj.value.orderedSet.value), obj.value.orderedSet.value.contents, map[]).value)
    ensures r.Done? ==> forall v :: v in r.value.0 ==> -1 <= r.value.0[v] < r.value.1
  {
    if obj.None? || obj.value.orderedSet.None? then Thrown
    else
      var set_ := obj.value.orderedSet.value;
      var ordering := Ordering(set_);
      match AssignIndices(t, ordering, set_.contents, map[])
      case Thrown => Thrown
      case Done(m) => Done((m, |ordering|))
  }

  /** The ordering as hex strings. */
  function Ordering(set_: OrderedSet): (r: seq<string>)
    ensures |r| == |set_.ordering|
    ensures forall i :: 0 <= i < |r| ==> r[i] == UuidToString(set_.ordering[i])
  {
    seq(|set_.ordering|, i requires 0 <= i < |set_.ordering| => UuidToString(set_.ordering[i]))
  }

  /** What `findLocations` finds: a uuid has a location exactly when an
      element of the ordered set names it, and its location is the position
      in the ordering of the key of the last element naming it. */
  lemma FindLocationsAt(t: MergeableTable, obj: Option<TableObject>, u: Option<string>)
    requires FindLocations(t, obj).Done?
    ensures var m := FindLocations(t, obj).value.0;
      var elems := obj.value.orderedSet.value.contents;
      var l := LastNaming(t, elems, u);
      && (u in m <==> exists i :: 0 <= i < |elems| && TargetUuid(t, elems[i].value) == Done(u))
      && (u in m ==> l >= 0 && Resolves(t, elems[l])
                     && m[u] == IndexOf(Ordering(obj.value.orderedSet.value), TargetUuid(t, elems[l].key).value))
  {
    var set_ := obj.value.orderedSet.value;
    AssignIndicesAt(t, Ordering(set_), set_.contents, map[], u);
  }

  // ---------------------------------------------------------------------
  // Reading the root object

  predicate IsRoot(t: MergeableTable, o: TableObject) {
    o.customMap.Some? && o.customMap.value.typeIndex < |t.types|
    && t.types[o.customMap.value.typeIndex] == TypeTable
  }

  /** `objects.find(...)`: the first object whose type is the table type. */
  function FindRoot(t: MergeableTable, i: nat): (r: Option<nat>)
    requires i <= |t.objects|
    ensures r.Some? ==> i <= r.value < |t.objects| && IsRoot(t, t.objects[r.value])
    ensures r.Some? ==> forall k :: i <= k < r.value ==> !IsRoot(t, t.objects[k])
    ensures r.None? ==> forall k :: i <= k < |t.objects| ==> !IsRoot(t, t.objects[k])
    decreases |t.objects| - i
  {
    if i == |t.objects| then None
    else if IsRoot(t, t.objects[i]) then Some(i)
    else FindRoot(t, i + 1)
  }

  /** What the root's entries establish. `cellData` is `None` when no entry
      names the cells, or when the last one that does points nowhere. */
  datatype Layout = Layout(
    rowLocations: Locations, rowCount: nat,
    columnLocations: Locations, columnCount: nat,
    cellData: Option<TableObject>)

  const NoLayout := Layout(map[], 0, map[], 0, None)

  /** Every row location is -1 or a row of the table, and every column
      location -1 or a column of it. */
  predicate LayoutOk(layout: Layout) {
    && (forall v :: v in layout.rowLocations ==> -1 <= layout.rowLocations[v] < layout.rowCount)
    && (forall v :: v in layout.columnLocations ==> -1 <= layout.columnLocations[v] < layout.columnCount)
  }

  function KeyName(t: MergeableTable, k: nat): Option<string> {
    if k < |t.keys| then Some(t.keys[k]) else None
  }

  /** The loop over the root's map entries. */
  function ReadRoot(t: MergeableTable, entries: seq<MapEntry>, layout: Layout): (r: Outcome<Layout>)
    ensures LayoutOk(layout) && r.Done? ==> LayoutOk(r.value)
    decreases |entries|
  {
    if |entries| == 0 then Done(layout)
    else
      var e := entries[0];
      var obj := ObjectAt(t, e.value.objectIndex);
      var key := KeyName(t, e.key);
      if key == Some(KeyRows) then
        match FindLocations(t, obj)
        case Thrown => Thrown
        case Done(found) => ReadRoot(t, entries[1..], layout.(rowLocations := found.0, rowCount := found.1))
      else if key == Some(KeyColumns) then
        match FindLocations(t, obj)
        case Thrown => Thrown
        case Done(found) => ReadRoot(t, entries[1..], layout.(columnLocations := found.0, columnCount := found.1))
      else if key == Some(KeyCellColumns) then
        ReadRoot(t, entries[1..], layout.(cellData := obj))
      else ReadRoot(t, entries[1..], layout)
  }

  // ---------------------------------------------------------------------
  // Filling the grid

  /** A grid cell: `None` is an array hole, rendered as the empty string. */
  type Grid = seq<seq<Option<string>>>

  function Lookup(m: Locations, k: Option<string>): Option<int> {
    if k in m then Some(m[k]) else None
  }

  /** `result[r][c] = text`: a missing or negative column sets a property
      that is not an element, so the row is unchanged; a column past the
      end grows the row with holes. */
  function SetCell(grid: Grid, r: nat, c: Option<int>, text: string): (g: Grid)
    requires r < |grid|
    ensures |g| == |grid|
    ensures forall i :: 0 <= i < |grid| && i != r ==> g[i] == grid[i]
    ensures c.Some? && c.value >= 0 ==>
      |g[r]| == (if c.value < |grid[r]| then |grid[r]| else c.value + 1)
      && g[r][c.value] == Some(text)
    ensures c.Some? && c.value >= 0 ==>
      forall j :: 0 <= j < |grid[r]| && j != c.value ==> g[r][j] == grid[r][j]
    ensures c.Some? && c.value >= 0 ==>
      forall j :: |grid[r]| <= j < |g[r]| && j != c.value ==> g[r][j] == None
    ensures c.None? || c.value < 0 ==> g == grid
  {
    if c.None? || c.value < 0 then grid
    else
      var row := grid[r];
      var row' :=
        if c.value < |row| then row[c.value := Some(text)]
        else row + seq(c.value - |row|, _ => None) + [Some(text)];
      grid[r := row']
  }

  /** One row after `row[c] = text`, position by position. */
  function RowSet(row: seq<Option<string>>, c: Option<int>, text: string): (r: seq<Option<string>>)
    ensures c.None? || c.value < 0 ==> r == row
    ensures c.Some? && c.value >= 0 ==>
      |r| == (if c.value < |row| then |row| else c.value + 1)
      && forall j :: 0 <= j < |r| ==> r[j] == (if j == c.value then Some(text) else if j < |row| then row[j] else None)
  {
    if c.None? || c.value < 0 then row
    else if c.value < |row| then row[c.value := Some(text)]
    else row + seq(c.value - |row|, _ => None) + [Some(text)]
  }

  /** A write touches one row only, and changes it as `RowSet` says. */
  lemma SetCellIsRowSet(grid: Grid, r: nat, c: Option<int>, text: string)
    requires r < |grid|
    ensures SetCell(grid, r, c, text) == grid[r := RowSet(grid[r], c, text)]
  {
    var g := SetCell(grid, r, c, text);
    var h := grid[r := RowSet(grid[r], c, text)];
    assert g[r] == h[r];
  }

  /** Writes to two different cells of a row can be done in either
      order. */
  lemma RowSetCommutes(row: seq<Option<string>>, c1: Option<int>, t1: string, c2: Option<int>, t2: string)
    requires c1 != c2
    ensures RowSet(RowSet(row, c1, t1), c2, t2) == RowSet(RowSet(row, c2, t2), c1, t1)
  {
    var a := RowSet(RowSet(row, c1, t1), c2, t2);
    var b := RowSet(RowSet(row, c2, t2), c1, t1);
    assert |a| == |b|;
    forall j | 0 <= j < |a| ensures a[j] == b[j] {
    }
  }

  /** Two writes to different cells commute. */
  lemma SetCellCommutes(grid: Grid, r1: nat, c1: Option<int>, t1: string, r2: nat, c2: Option<int>, t2: string)
    requires r1 < |grid| && r2 < |grid|
    requires r1 != r2 || c1 != c2
    ensures SetCell(SetCell(grid, r1, c1, t1), r2, c2, t2) == SetCell(SetCell(grid, r2, c2, t2), r1, c1, t1)
  {
    var g1 := SetCell(grid, r1, c1, t1);
    var g2 := SetCell(grid, r2, c2, t2);
    SetCellIsRowSet(grid, r1, c1, t1);
    SetCellIsRowSet(grid, r2, c2, t2);
    SetCellIsRowSet(g1, r2, c2, t2);
    SetCellIsRowSet(g2, r1, c1, t1);
    if r1 == r2 {
      RowSetCommutes(grid[r1], c1, t1, c2, t2);
    }
  }

  /** Every written cell is a formatted table cell: trimmed, with no line
      break and no pipe. */
  predicate CellOk(c: Option<string>) {
    c.Some? ==> ('|' !in c.value && '\n' !in c.value
                 && (c.value == [] || (!IsWs(c.value[0]) && !IsWs(c.value[|c.value| - 1]))))
  }

  predicate GridOk(g: Grid) {
    forall i, j :: 0 <= i < |g| && 0 <= j < |g[i]| ==> CellOk(g[i][j])
  }

  /** The text of one cell: a table note formatted in table mode. Only
      the corrected program is sure to give a well-formed cell. */
  function CellText(v: Variant, res: Resolver, doc: Document): (r: Outcome<string>)
    ensures LookupsHold(v, false, res, Tokens(doc)) ==> r.Done?
    ensures v == Corrected && r.Done? ==> CellOk(Some(r.value))
  {
    Format(v, doc, false, false, true, res)
  }

  /** The inner loop of `computeCells`, over the rows of one column. Rows
      whose location is not a row of the grid, or whose content is
      missing, are skipped. */
  function FillRows(v: Variant, t: MergeableTable, res: Resolver, layout: Layout, col: Option<int>, rows: seq<DictionaryElement>, grid: Grid): (r: Outcome<Grid>)
    ensures r.Done? ==> |r.value| == |grid|
    ensures v == Corrected && GridOk(grid) && r.Done? ==> GridOk(r.value)
    decreases |rows|
  {
    if |rows| == 0 then Done(grid)
    else
      match TargetUuid(t, rows[0].key)
      case Thrown => Thrown
      case Done(rk) =>
        var loc := Lookup(layout.rowLocations, rk);
        var content := ObjectAt(t, rows[0].value.objectIndex);
        if !(loc.Some? && 0 <= loc.value < |grid|) || content.None? then
          FillRows(v, t, res, layout, col, rows[1..], grid)
        else if content.value.note.None? then Thrown
        else
          match CellText(v, res, content.value.note.value)
          case Thrown => Thrown
          case Done(text) =>
            var g := SetCell(grid, loc.value, col, text);
            if v == Corrected then
              SetCellOk(grid, loc.value, col, text);
              FillRows(v, t, res, layout, col, rows[1..], g)
            else FillRows(v, t, res, layout, col, rows[1..], g)
  }

  /** Setting a well-formed cell keeps the grid well formed. */
  lemma SetCellOk(grid: Grid, r: nat, c: Option<int>, text: string)
    requires r < |grid| && CellOk(Some(text))
    ensures GridOk(grid) ==> GridOk(SetCell(grid, r, c, text))
  {
    var g := SetCell(grid, r, c, text);
    if GridOk(grid) && c.Some? && c.value >= 0 {
      forall i, j | 0 <= i < |g| && 0 <= j < |g[i]| ensures CellOk(g[i][j]) {
        if i == r && j < |grid[r]| && j != c.value {
          assert g[i][j] == grid[r][j];
        }
      }
    }
  }

  /** The outer loop of `computeCells`, over the columns. */
  function FillColumns(v: Variant, t: MergeableTable, res: Resolver, layout: Layout, cols: seq<DictionaryElement>, grid: Grid): (r: Outcome<Grid>)
    ensures r.Done? ==> |r.value| == |grid|
    ensures v == Corrected && GridOk(grid) && r.Done? ==> GridOk(r.value)
    decreases |cols|
  {
    if |cols| == 0 then Done(grid)
    else
      match TargetUuid(t, cols[0].key)
      case Thrown => Thrown
      case Done(ck) =>
        var rowData := ObjectAt(t, cols[0].value.objectIndex);
        if rowData.None? || rowData.value.dictionary.None? then Thrown
        else
          match FillRows(v, t, res, layout, Lookup(layout.columnLocations, ck), rowData.value.dictionary.value, grid)
          case Thrown => Thrown
          case Done(g) => FillColumns(v, t, res, layout, cols[1..], g)
  }

  /** The grid `computeCells` starts from: `rowCount` rows of
      `columnCount` holes. */
  function EmptyGrid(layout: Layout): (g: Grid)
    ensures |g| == layout.rowCount
    ensures forall i :: 0 <= i < |g| ==> g[i] == seq(layout.columnCount, _ => None)
  {
    seq(layout.rowCount, _ => seq(layout.columnCount, _ => None))
  }

  /** `computeCells`: a `rowCount` by `columnCount` grid of holes, filled
      column by column. */
  function ComputeCells(v: Variant, t: MergeableTable, res: Resolver, layout: Layout, cellData: TableObject): (r: Outcome<Grid>)
    ensures r.Done? ==> |r.value| == layout.rowCount
    ensures v == Corrected && r.Done? ==> GridOk(r.value)
    ensures r.Done? ==> cellData.dictionary.Some?
  {
    if cellData.dictionary.None? then Thrown
    else FillColumns(v, t, res, layout, cellData.dictionary.value, EmptyGrid(layout))
  }

  /** The root object and what its entries establish: `None` when there
      is no root. */
  function ReadLayout(t: MergeableTable): (r: Outcome<Option<Layout>>)
    ensures r == Done(None) <==> FindRoot(t, 0).None?
    ensures r.Done? && r.value.Some? ==> LayoutOk(r.value.value)
  {
    match FindRoot(t, 0)
    case None => Done(None)
    case Some(i) =>
      match ReadRoot(t, t.objects[i].customMap.value.mapEntry, NoLayout)
      case Thrown => Thrown
      case Done(layout) => Done(Some(layout))
  }

  /** `parse`: `null` when there is no root or no cell data; otherwise
      the grid `computeCells` fills from the layout the root establishes.
      Every row of it has one slot per column. */
  function Parse(v: Variant, t: MergeableTable, res: Resolver): (r: Outcome<Option<Grid>>)
    ensures FindRoot(t, 0).None? ==> r == Done(None)
    ensures ReadLayout(t).Done? && ReadLayout(t).value.Some? && ReadLayout(t).value.value.cellData.None?
      ==> r == Done(None)
    ensures r.Done? && r.value.Some? ==>
      && ReadLayout(t).Done? && ReadLayout(t).value.Some?
      && ReadLayout(t).value.value.cellData.Some?
      && ComputeCells(v, t, res, ReadLayout(t).value.value, ReadLayout(t).value.value.cellData.value) == Done(r.value.value)
    ensures r.Done? && r.value.Some? ==>
      |r.value.value| == ReadLayout(t).value.value.rowCount
      && forall i :: 0 <= i < |r.value.value| ==> |r.value.value[i]| == ReadLayout(t).value.value.columnCount
    ensures v == Corrected && r.Done? && r.value.Some? ==> GridOk(r.value.value)
  {
    match ReadLayout(t)
    case Thrown => Thrown
    case Done(None) => Done(None)
    case Done(Some(layout)) =>
      if layout.cellData.None? then Done(None)
      else
        match ComputeCells(v, t, res, layout, layout.cellData.value)
        case Thrown => Thrown
        case Done(g) =>
          ComputeCellsWidth(v, t, res, layout, layout.cellData.value);
          Done(Some(g))
  }

  // ---------------------------------------------------------------------
  // What `computeCells` writes

  /** One assignment `result[row][col] = text`. */
  datatype Write = Write(row: nat, col: Option<int>, text: string)

  /** The writes done in order, each as `SetCell` does it. */
  function Apply(grid: Grid, ws: seq<Write>): (g: Grid)
    requires forall k :: 0 <= k < |ws| ==> ws[k].row < |grid|
    ensures |g| == |grid|
    decreases |ws|
  {
    if |ws| == 0 then grid
    else Apply(SetCell(grid, ws[0].row, ws[0].col, ws[0].text), ws[1..])
  }

  function ApplyAll(grid: Grid, ws: Outcome<seq<Write>>): Outcome<Grid>
    requires ws.Done? ==> forall k :: 0 <= k < |ws.value| ==> ws.value[k].row < |grid|
  {
    match ws
    case Thrown => Thrown
    case Done(w) => Done(Apply(grid, w))
  }

  /** What one row element of a column writes: nothing when its location
      is not a row of a grid of `height` rows or its content object is
      missing; otherwise the cell text of the content's note at that row
      and the column. Reading a missing reference or a missing note
      throws. */
  function RowWrite(v: Variant, t: MergeableTable, res: Resolver, layout: Layout, col: Option<int>, e: DictionaryElement, height: nat): (r: Outcome<Option<Write>>)
    ensures TargetUuid(t, e.key).Thrown? ==> r.Thrown?
    ensures r.Done? && r.value.Some? ==> r.value.value.row < height && r.value.value.col == col
    ensures r == Done(None) <==> (TargetUuid(t, e.key).Done?
      && (var loc := Lookup(layout.rowLocations, TargetUuid(t, e.key).value);
          !(loc.Some? && 0 <= loc.value < height) || ObjectAt(t, e.value.objectIndex).None?))
    ensures r.Done? && r.value.Some? ==>
      var loc := Lookup(layout.rowLocations, TargetUuid(t, e.key).value);
      var content := ObjectAt(t, e.value.objectIndex);
      && loc.Some? && loc.value == r.value.value.row && r.value.value.row < height
      && r.value.value.col == col
      && content.Some? && content.value.note.Some?
      && CellText(v, res, content.value.note.value) == Done(r.value.value.text)
  {
    match TargetUuid(t, e.key)
    case Thrown => Thrown
    case Done(rk) =>
      var loc := Lookup(layout.rowLocations, rk);
      var content := ObjectAt(t, e.value.objectIndex);
      if !(loc.Some? && 0 <= loc.value < height) || content.None? then Done(None)
      else if content.value.note.None? then Thrown
      else
        match CellText(v, res, content.value.note.value)
        case Thrown => Thrown
        case Done(text) => Done(Some(Write(loc.value, col, text)))
  }

  /** The writes of one column, element by element. */
  function RowWrites(v: Variant, t: MergeableTable, res: Resolver, layout: Layout, col: Option<int>, rows: seq<DictionaryElement>, height: nat): (r: Outcome<seq<Write>>)
    ensures r.Done? ==> forall k :: 0 <= k < |r.value| ==> r.value[k].row < height && r.value[k].col == col
    decreases |rows|
  {
    if |rows| == 0 then Done([])
    else
      match RowWrite(v, t, res, layout, col, rows[0], height)
      case Thrown => Thrown
      case Done(w) =>
        match RowWrites(v, t, res, layout, col, rows[1..], height)
        case Thrown => Thrown
        case Done(ws) =>
          WritesCons(w, ws, height, col);
          Done(Optional(w) + ws)
  }

  /** Putting a write that keeps to the column in front of writes that
      do. */
  lemma WritesCons(w: Option<Write>, ws: seq<Write>, height: nat, col: Option<int>)
    requires w.Some? ==> w.value.row < height && w.value.col == col
    requires forall k :: 0 <= k < |ws| ==> ws[k].row < height && ws[k].col == col
    ensures forall k :: 0 <= k < |Optional(w) + ws| ==> (Optional(w) + ws)[k].row < height && (Optional(w) + ws)[k].col == col
  {
  }

  /** An optional write as a list of none or one. */
  function Optional(w: Option<Write>): (r: seq<Write>)
    ensures |r| <= 1
    ensures w.Some? ==> r == [w.value]
    ensures w.None? ==> r == []
  {
    if w.Some? then [w.value] else []
  }

  /** The writes of all columns, column by column. A column whose row
      dictionary is missing throws. */
  function CellWrites(v: Variant, t: MergeableTable, res: Resolver, layout: Layout, cols: seq<DictionaryElement>, height: nat): (r: Outcome<seq<Write>>)
    ensures r.Done? ==> forall k :: 0 <= k < |r.value| ==> r.value[k].row < height
    ensures r.Done? && LayoutOk(layout) ==>
      forall k :: 0 <= k < |r.value| ==> ColumnOk(r.value[k].col, layout.columnCount)
    decreases |cols|
  {
    if |cols| == 0 then Done([])
    else
      match TargetUuid(t, cols[0].key)
      case Thrown => Thrown
      case Done(ck) =>
        var rowData := ObjectAt(t, cols[0].value.objectIndex);
        if rowData.None? || rowData.value.dictionary.None? then Thrown
        else
          var col := Lookup(layout.columnLocations, ck);
          match RowWrites(v, t, res, layout, col, rowData.value.dictionary.value, height)
          case Thrown => Thrown
          case Done(ws) =>
            match CellWrites(v, t, res, layout, cols[1..], height)
            case Thrown => Thrown
            case Done(rest) => Done(ws + rest)
  }

  /** A column that writes inside a row of `width` slots, or not at all. */
  predicate ColumnOk(c: Option<int>, width: nat) {
    c.Some? ==> c.value < width
  }

  lemma {:induction false} ApplyAppend(grid: Grid, a: seq<Write>, b: seq<Write>)
    requires forall k :: 0 <= k < |a| ==> a[k].row < |grid|
    requires forall k :: 0 <= k < |b| ==> b[k].row < |grid|
    ensures Apply(grid, a + b) == Apply(Apply(grid, a), b)
    decreases |a|
  {
    if |a| > 0 {
      assert (a + b)[1..] == a[1..] + b;
      ApplyAppend(SetCell(grid, a[0].row, a[0].col, a[0].text), a[1..], b);
    } else {
      assert a + b == b;
    }
  }

  /** The loop over one column's rows does exactly that column's writes. */
  lemma {:induction false} FillRowsWrites(v: Variant, t: MergeableTable, res: Resolver, layout: Layout, col: Option<int>, rows: seq<DictionaryElement>, grid: Grid)
    ensures FillRows(v, t, res, layout, col, rows, grid) == ApplyAll(grid, RowWrites(v, t, res, layout, col, rows, |grid|))
    decreases |rows|
  {
    if |rows| > 0 {
      var w := RowWrite(v, t, res, layout, col, rows[0], |grid|);
      FillRowsStep(v, t, res, layout, col, rows, grid);
      if w.Done? {
        var g := if w.value.Some? then SetCell(grid, w.value.value.row, col, w.value.value.text) else grid;
        FillRowsWrites(v, t, res, layout, col, rows[1..], g);
        RowWritesStep(v, t, res, layout, col, rows, grid);
      }
    }
  }

  /** One turn of the loop over the rows: the write of the first element,
      if any, then the rest. */
  lemma FillRowsStep(v: Variant, t: MergeableTable, res: Resolver, layout: Layout, col: Option<int>, rows: seq<DictionaryElement>, grid: Grid)
    requires |rows| > 0
    ensures var w := RowWrite(v, t, res, layout, col, rows[0], |grid|);
      FillRows(v, t, res, layout, col, rows, grid) ==
        match w
        case Thrown => Thrown
        case Done(None) => FillRows(v, t, res, layout, col, rows[1..], grid)
        case Done(Some(x)) => FillRows(v, t, res, layout, col, rows[1..], SetCell(grid, x.row, col, x.text))
  {
  }

  /** The writes after the first element's, applied to the grid that
      write leaves, are all the writes applied to the grid. */
  lemma RowWritesStep(v: Variant, t: MergeableTable, res: Resolver, layout: Layout, col: Option<int>, rows: seq<DictionaryElement>, grid: Grid)
    requires |rows| > 0
    requires RowWrite(v, t, res, layout, col, rows[0], |grid|).Done?
    ensures var w := RowWrite(v, t, res, layout, col, rows[0], |grid|).value;
      var g := if w.Some? then SetCell(grid, w.value.row, col, w.value.text) else grid;
      ApplyAll(grid, RowWrites(v, t, res, layout, col, rows, |grid|))
      == ApplyAll(g, RowWrites(v, t, res, layout, col, rows[1..], |grid|))
  {
    var w := RowWrite(v, t, res, layout, col, rows[0], |grid|).value;
    var rest := RowWrites(v, t, res, layout, col, rows[1..], |grid|);
    if rest.Done? {
      if w.Some? {
        assert (Optional(w) + rest.value)[1..] == rest.value;
      } else {
        assert Optional(w) + rest.value == rest.value;
      }
    }
  }

  /** The loop over the columns does all the columns' writes in order. */
  lemma {:induction false} FillColumnsWrites(v: Variant, t: MergeableTable, res: Resolver, layout: Layout, cols: seq<DictionaryElement>, grid: Grid)
    ensures FillColumns(v, t, res, layout, cols, grid) == ApplyAll(grid, CellWrites(v, t, res, layout, cols, |grid|))
    decreases |cols|
  {
    if |cols| > 0 && TargetUuid(t, cols[0].key).Done? {
      var rowData := ObjectAt(t, cols[0].value.objectIndex);
      if rowData.Some? && rowData.value.dictionary.Some? {
        var col := Lookup(layout.columnLocations, TargetUuid(t, cols[0].key).value);
        var rows := rowData.value.dictionary.value;
        FillRowsWrites(v, t, res, layout, col, rows, grid);
        var ws := RowWrites(v, t, res, layout, col, rows, |grid|);
        if ws.Done? {
          var g := Apply(grid, ws.value);
          FillColumnsWrites(v, t, res, layout, cols[1..], g);
          var rest := CellWrites(v, t, res, layout, cols[1..], |grid|);
          if rest.Done? {
            ApplyAppend(grid, ws.value, rest.value);
          }
        }
      }
    }
  }

  /** The position of the last write to cell (`i`, `j`), or -1. */
  function LastWriteTo(ws: seq<Write>, i: nat, j: nat): (r: int)
    ensures -1 <= r < |ws|
    ensures r >= 0 ==> ws[r].row == i && ws[r].col == Some(j as int)
    ensures forall k :: r < k < |ws| ==> !(ws[k].row == i && ws[k].col == Some(j as int))
    decreases |ws|
  {
    if |ws| == 0 then -1
    else
      var l := LastWriteTo(ws[1..], i, j);
      if l >= 0 then l + 1
      else if ws[0].row == i && ws[0].col == Some(j as int) then 0
      else -1
  }

  /** After the writes, a cell of the starting grid holds the text of the
      last write to it, or what it held before when none wrote it. */
  lemma {:induction false} ApplyAt(grid: Grid, ws: seq<Write>, i: nat, j: nat)
    requires forall k :: 0 <= k < |ws| ==> ws[k].row < |grid|
    requires i < |grid| && j < |grid[i]|
    ensures j < |Apply(grid, ws)[i]|
    ensures Apply(grid, ws)[i][j] ==
      (if LastWriteTo(ws, i, j) >= 0 then Some(ws[LastWriteTo(ws, i, j)].text) else grid[i][j])
    decreases |ws|
  {
    if |ws| > 0 {
      var g := SetCell(grid, ws[0].row, ws[0].col, ws[0].text);
      ApplyAt(g, ws[1..], i, j);
      var l := LastWriteTo(ws[1..], i, j);
      if l >= 0 {
        assert ws[1..][l] == ws[l + 1];
      }
    }
  }

  /** Writes that stay inside rows of `width` slots keep every row at
      that width. */
  lemma {:induction false} ApplyWidth(grid: Grid, ws: seq<Write>, width: nat)
    requires forall k :: 0 <= k < |ws| ==> ws[k].row < |grid| && ColumnOk(ws[k].col, width)
    requires forall i :: 0 <= i < |grid| ==> |grid[i]| == width
    ensures forall i :: 0 <= i < |grid| ==> |Apply(grid, ws)[i]| == width
    decreases |ws|
  {
    if |ws| > 0 {
      ApplyWidth(SetCell(grid, ws[0].row, ws[0].col, ws[0].text), ws[1..], width);
    }
  }

  /** Every write lands in a row of the grid. */
  predicate RowsIn(ws: seq<Write>, height: nat) {
    forall k :: 0 <= k < |ws| ==> ws[k].row < height
  }

  /** Two writes done one after the other. */
  lemma ApplyPair(grid: Grid, w1: Write, w2: Write)
    requires w1.row < |grid| && w2.row < |grid|
    ensures Apply(grid, [w1, w2]) == SetCell(SetCell(grid, w1.row, w1.col, w1.text), w2.row, w2.col, w2.text)
  {
    var g1 := SetCell(grid, w1.row, w1.col, w1.text);
    assert [w1, w2][1..] == [w2];
    assert Apply(grid, [w1, w2]) == Apply(g1, [w2]);
    assert [w2][1..] == [];
    assert Apply(g1, [w2]) == Apply(SetCell(g1, w2.row, w2.col, w2.text), []);
  }

  /** Swapping two neighbouring writes to different cells, anywhere in a
      sequence of writes, leaves the grid as it was. */
  lemma SwapWrites(grid: Grid, a: seq<Write>, w1: Write, w2: Write, b: seq<Write>)
    requires RowsIn(a, |grid|) && RowsIn(b, |grid|)
    requires w1.row < |grid| && w2.row < |grid|
    requires w1.row != w2.row || w1.col != w2.col
    ensures Apply(grid, a + [w1, w2] + b) == Apply(grid, a + [w2, w1] + b)
  {
    var g := Apply(grid, a);
    SetCellCommutes(g, w1.row, w1.col, w1.text, w2.row, w2.col, w2.text);
    ApplyPair(g, w1, w2);
    ApplyPair(g, w2, w1);
    SplitApply(grid, a, w1, w2, b);
    SplitApply(grid, a, w2, w1, b);
  }

  /** Writes before, a pair of writes, writes after. */
  lemma SplitApply(grid: Grid, a: seq<Write>, w1: Write, w2: Write, b: seq<Write>)
    requires RowsIn(a, |grid|) && RowsIn(b, |grid|)
    requires w1.row < |grid| && w2.row < |grid|
    ensures RowsIn(a + [w1, w2] + b, |grid|)
    ensures Apply(grid, a + [w1, w2] + b) == Apply(Apply(Apply(grid, a), [w1, w2]), b)
  {
    var p := a + [w1, w2];
    assert RowsIn(p, |grid|) by {
      forall k | 0 <= k < |p| ensures p[k].row < |grid| {
        if k >= |a| {
          assert p[k] == [w1, w2][k - |a|];
        }
      }
    }
    assert RowsIn(p + b, |grid|) by {
      forall k | 0 <= k < |p + b| ensures (p + b)[k].row < |grid| {
        if k >= |p| {
          assert (p + b)[k] == b[k - |p|];
        }
      }
    }
    ApplyAppend(grid, p, b);
    ApplyAppend(grid, a, [w1, w2]);
  }

  /** Each cell `computeCells` fills holds the text of the last write to
      it (the last row element, of the last column element, that lands
      there), and a cell nothing lands in stays a hole. */
  lemma ComputeCellsAt(v: Variant, t: MergeableTable, res: Resolver, layout: Layout, cellData: TableObject, i: nat, j: nat)
    requires ComputeCells(v, t, res, layout, cellData).Done?
    requires i < layout.rowCount && j < layout.columnCount
    ensures cellData.dictionary.Some?
    ensures CellWrites(v, t, res, layout, cellData.dictionary.value, layout.rowCount).Done?
    ensures j < |ComputeCells(v, t, res, layout, cellData).value[i]|
    ensures var ws := CellWrites(v, t, res, layout, cellData.dictionary.value, layout.rowCount).value;
      var l := LastWriteTo(ws, i, j);
      ComputeCells(v, t, res, layout, cellData).value[i][j] == (if l >= 0 then Some(ws[l].text) else None)
  {
    var g0 := EmptyGrid(layout);
    FillColumnsWrites(v, t, res, layout, cellData.dictionary.value, g0);
    var ws := CellWrites(v, t, res, layout, cellData.dictionary.value, layout.rowCount).value;
    ApplyAt(g0, ws, i, j);
  }

  /** Under a consistent layout every row of the computed grid has one
      slot per column. */
  lemma ComputeCellsWidth(v: Variant, t: MergeableTable, res: Resolver, layout: Layout, cellData: TableObject)
    requires ComputeCells(v, t, res, layout, cellData).Done? && LayoutOk(layout)
    ensures forall i :: 0 <= i < layout.rowCount ==> |ComputeCells(v, t, res, layout, cellData).value[i]| == layout.columnCount
  {
    var g0 := EmptyGrid(layout);
    FillColumnsWrites(v, t, res, layout, cellData.dictionary.value, g0);
    var ws := CellWrites(v, t, res, layout, cellData.dictionary.value, layout.rowCount).value;
    ApplyWidth(g0, ws, layout.columnCount);
  }

  // ---------------------------------------------------------------------
  // Rendering

  function Texts(row: seq<Option<string>>): (r: seq<string>)
    ensures |r| == |row|
    ensures forall j :: 0 <= j < |row| ==> r[j] == (if row[j].Some? then row[j].value else "")
  {
    if |row| == 0 then [] else [if row[0].Some? then row[0].value else ""] + Texts(row[1..])
  }

  /** `| a | b |` */
  function RowLine(row: seq<Option<string>>): string {
    "| " + JoinWith(Texts(row), " | ") + " |"
  }

  /** `| -- | -- |` under the first row, as wide as the first row. */
  function SeparatorLine(n: nat): string {
    "|" + Repeat(" -- |", n)
  }

  /** The lines of a rendered table, in the order `format` writes them:
      each row, with the separator line right after the first. */
  function TableLines(grid: Grid): seq<string> {
    if |grid| == 0 then []
    else
      [RowLine(grid[0]), SeparatorLine(|grid[0]|)]
      + seq(|grid| - 1, r requires 0 <= r < |grid| - 1 => RowLine(grid[r + 1]))
  }

  /** Each line followed by a line break. */
  function LinesText(lines: seq<string>): string {
    if |lines| == 0 then "" else lines[0] + "\n" + LinesText(lines[1..])
  }

  /** `format` once the grid is known. */
  function RenderTable(grid: Grid): string {
    "\n" + LinesText(TableLines(grid)) + "\n"
  }

  /** `format`: the empty string when parsing gives no table. */
  function FormatTable(v: Variant, t: MergeableTable, res: Resolver): (r: Outcome<string>)
    ensures Parse(v, t, res) == Done(None) <==> r == Done("")
  {
    match Parse(v, t, res)
    case Thrown => Thrown
    case Done(None) => Done("")
    case Done(Some(g)) => Done(RenderTable(g))
  }

  /** A table whose root names its rows by an object that is not there. */
  function BrokenTable(): MergeableTable {
    var root := TableObject(Some(CustomMap(0, [MapEntry(0, MapValue(1, 0))])), None, None, None);
    MergeableTable([KeyRows], [TypeTable], [], [root])
  }

  /** The table of an attachment is converted with the note's own
      resolver, so a table that cannot be read takes the note with it in
      either program: the note holding `BrokenTable` as its one attachment
      cannot be converted. */
  lemma BrokenTableNoteThrows(v: Variant, html: bool, table: bool, res: Resolver, info: AttachmentInfo, text: string)
    requires KindOf(info.typeUti) == TableKind
    requires res.inlineText(TableKind, info.attachmentIdentifier) == FormatTable(v, BrokenTable(), res)
    requires text != [] && forall i :: 0 <= i < |text| ==> !IsWs(text[i])
    ensures FormatTable(v, BrokenTable(), res) == Thrown
    ensures Format(v, AttachmentNote(info, text), html, false, table, res) == Thrown
  {
    var t := BrokenTable();
    assert FindRoot(t, 0) == Some(0);
    assert FindLocations(t, ObjectAt(t, 1)) == Thrown;
    assert ReadRoot(t, t.objects[0].customMap.value.mapEntry, NoLayout) == Thrown;
    AttachmentNoteThrows(v, html, table, res, info, text);
  }

  // ---------------------------------------------------------------------
  // Reading a rendered table back

  /** The cells of a table line: the text between the pipes, trimmed. */
  function ParseRow(line: string): seq<string> {
    var ps := SplitOn(line, "|");
    if |ps| < 2 then [] else
      seq(|ps| - 2, j requires 0 <= j < |ps| - 2 => Trim(ps[j + 1]))
  }

  /** The rows of a rendered table, skipping the separator line. */
  function ParseTable(text: string): seq<seq<string>> {
    var lines := SplitOn(text, "\n");
    if |lines| < 3 then [] else ParseBody(lines[1..|lines| - 2])
  }

  /** The rows of the table lines: the first line, then every line after
      the separator. */
  function ParseBody(body: seq<string>): seq<seq<string>> {
    if |body| == 0 then []
    else if |body| == 1 then [ParseRow(body[0])]
    else [ParseRow(body[0])] + seq(|body| - 2, j requires 0 <= j < |body| - 2 => ParseRow(body[j + 2]))
  }

  /** Lines each ended by a break, plus one more break, are the lines
      joined by breaks with two empty lines after them. */
  lemma {:induction false} LinesTextJoin(lines: seq<string>)
    ensures LinesText(lines) + "\n" == JoinWith(lines + ["", ""], "\n")
    decreases |lines|
  {
    if |lines| == 0 {
      assert lines + ["", ""] == ["", ""];
    } else {
      LinesTextJoin(lines[1..]);
      var rest := lines[1..] + ["", ""];
      assert lines + ["", ""] == [lines[0]] + rest;
      JoinCons(lines[0], rest, "\n");
    }
  }

  /** Each cell with the single space written on either side of it. */
  function Pad(cells: seq<string>): (r: seq<string>)
    ensures |r| == |cells|
    ensures forall j :: 0 <= j < |cells| ==> r[j] == " " + cells[j] + " "
  {
    if |cells| == 0 then [] else [" " + cells[0] + " "] + Pad(cells[1..])
  }

  lemma {:induction false} PaddedJoin(cells: seq<string>)
    requires |cells| >= 1
    ensures " " + JoinWith(cells, " | ") + " " == JoinWith(Pad(cells), "|")
    decreases |cells|
  {
    if |cells| > 1 {
      PaddedJoin(cells[1..]);
      assert Pad(cells)[1..] == Pad(cells[1..]);
    }
  }

  /** A table line is the padded cells joined with pipes, with an empty
      piece at each end. */
  lemma CellsLineJoin(cells: seq<string>)
    requires |cells| >= 1
    ensures "| " + JoinWith(cells, " | ") + " |" == JoinWith([""] + Pad(cells) + [""], "|")
  {
    var inner := JoinWith(cells, " | ");
    var pad := Pad(cells);
    var mid := JoinWith(pad, "|");
    PaddedJoin(cells);
    assert mid == " " + inner + " ";
    JoinWithBracket(pad, "|");
    assert JoinWith([""] + pad + [""], "|") == "|" + mid + "|";
    PipeEdges(inner);
  }

  lemma PipeEdges(inner: string)
    ensures "|" + (" " + inner + " ") + "|" == "| " + inner + " |"
  {
  }

  lemma TrimPaddedCell(c: string)
    requires CellOk(Some(c))
    ensures Trim(" " + c + " ") == c
  {
    if c == [] {
      assert AllWs(" " + c + " ");
      TrimAllWs(" " + c + " ");
    } else {
      assert AllWs(" ");
      TrimPadded(" ", c, " ");
    }
  }

  /** Reading back a line made of pipe-free pieces gives the inner pieces,
      trimmed. */
  lemma ParseJoinedRow(parts: seq<string>)
    requires |parts| >= 2
    requires forall i :: 0 <= i < |parts| ==> '|' !in parts[i]
    ensures |ParseRow(JoinWith(parts, "|"))| == |parts| - 2
    ensures forall j :: 0 <= j < |parts| - 2 ==> ParseRow(JoinWith(parts, "|"))[j] == Trim(parts[j + 1])
  {
    SplitJoinChar(parts, '|');
  }

  lemma {:induction false} CellsRoundTrip(cells: seq<string>)
    requires |cells| >= 1
    requires forall j :: 0 <= j < |cells| ==> CellOk(Some(cells[j]))
    ensures ParseRow("| " + JoinWith(cells, " | ") + " |") == cells
  {
    var pad := Pad(cells);
    var parts := [""] + pad + [""];
    var line := "| " + JoinWith(cells, " | ") + " |";
    CellsLineJoin(cells);
    assert line == JoinWith(parts, "|");
    forall i | 0 <= i < |parts| ensures '|' !in parts[i] {
      if 0 < i < |parts| - 1 {
        assert parts[i] == pad[i - 1];
        assert CellOk(Some(cells[i - 1]));
      }
    }
    ParseJoinedRow(parts);
    var got := ParseRow(line);
    assert |got| == |cells|;
    forall j | 0 <= j < |cells| ensures got[j] == cells[j] {
      assert parts[j + 1] == pad[j];
      assert CellOk(Some(cells[j]));
      TrimPaddedCell(cells[j]);
    }
  }

  /** Reading a rendered line gives back its cells, holes as empty text,
      provided no cell holds a pipe and each is trimmed. */
  lemma RowRoundTrip(row: seq<Option<string>>)
    requires |row| >= 1
    requires forall j :: 0 <= j < |row| ==> CellOk(row[j])
    ensures ParseRow(RowLine(row)) == Texts(row)
  {
    var cells := Texts(row);
    forall j | 0 <= j < |cells| ensures CellOk(Some(cells[j])) {
      assert CellOk(row[j]);
    }
    CellsRoundTrip(cells);
  }

  /** The rendered table, split at line breaks: an empty first line, the
      table lines, and two empty pieces for the final line breaks. */
  lemma RenderedLines(grid: Grid)
    requires GridOk(grid)
    ensures SplitOn(RenderTable(grid), "\n") == [""] + TableLines(grid) + ["", ""]
  {
    LinesShape(grid);
    LinesSplit(TableLines(grid));
  }

  /** Lines without breaks, each ended by one and the whole preceded and
      followed by one, split back into an empty piece, the lines and two
      empty pieces. */
  lemma LinesSplit(lines: seq<string>)
    requires forall k :: 0 <= k < |lines| ==> '\n' !in lines[k]
    ensures SplitOn("\n" + LinesText(lines) + "\n", "\n") == [""] + lines + ["", ""]
  {
    var parts := [""] + lines + ["", ""];
    LinesJoin(lines);
    forall i | 0 <= i < |parts| ensures '\n' !in parts[i] {
      if 0 < i <= |lines| {
        assert parts[i] == lines[i - 1];
      }
    }
    SplitJoinChar(parts, '\n');
  }

  /** The text of the lines, between two breaks, is the lines joined by
      breaks with an empty piece before and two after. */
  lemma LinesJoin(lines: seq<string>)
    ensures "\n" + LinesText(lines) + "\n" == JoinWith([""] + lines + ["", ""], "\n")
  {
    var rest := lines + ["", ""];
    LinesTextJoin(lines);
    JoinWithAppend([""], rest, "\n");
    assert [""] + lines + ["", ""] == [""] + rest;
  }

  /** A text that splits as an empty first line, the table lines and two
      empty pieces reads as the rows of those lines. */
  lemma ParseTableLines(text: string, lines: seq<string>)
    requires SplitOn(text, "\n") == [""] + lines + ["", ""]
    ensures ParseTable(text) == ParseBody(lines)
  {
    var split := SplitOn(text, "\n");
    assert split[1..|split| - 2] == lines;
  }

  /** One row of a well-formed grid reads back as its texts. */
  lemma GridRowRoundTrip(grid: Grid, i: nat)
    requires GridOk(grid) && i < |grid| && |grid[i]| >= 1
    ensures ParseRow(RowLine(grid[i])) == Texts(grid[i])
  {
    assert forall j :: 0 <= j < |grid[i]| ==> CellOk(grid[i][j]);
    RowRoundTrip(grid[i]);
  }

  /** The rows read from the table lines are the grid's rows. */
  lemma BodyRoundTrip(grid: Grid)
    requires GridOk(grid)
    requires forall i :: 0 <= i < |grid| ==> |grid[i]| >= 1
    ensures ParseBody(TableLines(grid)) == seq(|grid|, i requires 0 <= i < |grid| => Texts(grid[i]))
  {
    var lines := TableLines(grid);
    LinesShape(grid);
    var expected := seq(|grid|, i requires 0 <= i < |grid| => Texts(grid[i]));
    var got := ParseBody(lines);
    if |grid| >= 1 {
      ParseBodyLength(lines);
      forall i | 0 <= i < |grid| ensures got[i] == expected[i] {
        ParseBodyAt(lines, i);
        GridRowRoundTrip(grid, i);
      }
    }
  }

  lemma ParseBodyLength(body: seq<string>)
    requires |body| >= 2
    ensures |ParseBody(body)| == |body| - 1
  {
  }

  /** Row `i` of the table lines is the first line or the line `i + 1`. */
  lemma ParseBodyAt(body: seq<string>, i: nat)
    requires |body| >= 2 && i < |body| - 1
    ensures ParseBody(body)[i] == ParseRow(body[if i == 0 then 0 else i + 1])
  {
    var rest := seq(|body| - 2, j requires 0 <= j < |body| - 2 => ParseRow(body[j + 2]));
    assert ParseBody(body) == [ParseRow(body[0])] + rest;
    if i > 0 {
      assert rest[i - 1] == ParseRow(body[i + 1]);
    }
  }

  /** The Markdown pipe table reads back as the grid it was rendered from:
      one line per row, holes as empty cells, the separator skipped. */
  lemma TableRoundTrip(grid: Grid)
    requires GridOk(grid)
    requires forall i :: 0 <= i < |grid| ==> |grid[i]| >= 1
    ensures ParseTable(RenderTable(grid)) == seq(|grid|, i requires 0 <= i < |grid| => Texts(grid[i]))
  {
    RenderedLines(grid);
    ParseTableLines(RenderTable(grid), TableLines(grid));
    BodyRoundTrip(grid);
  }

  /** The lines of a rendered table hold no line break: the first row, the
      separator, then the other rows in order, each on its own line. */
  lemma LinesShape(grid: Grid)
    requires GridOk(grid)
    ensures |TableLines(grid)| == (if |grid| > 0 then |grid| + 1 else 0)
    ensures forall k :: 0 <= k < |TableLines(grid)| ==> '\n' !in TableLines(grid)[k]
    ensures |grid| > 0 ==>
      && TableLines(grid)[0] == RowLine(grid[0])
      && TableLines(grid)[1] == SeparatorLine(|grid[0]|)
    ensures forall r :: 1 <= r < |grid| ==> TableLines(grid)[r + 1] == RowLine(grid[r])
  {
    var lines := TableLines(grid);
    if |grid| > 0 {
      SeparatorNoBreak(|grid[0]|);
      forall k | 0 <= k < |lines| ensures '\n' !in lines[k] {
        if k == 0 {
          GridRowNoBreak(grid, 0);
        } else if k >= 2 {
          GridRowNoBreak(grid, k - 1);
        }
      }
    }
  }

  lemma {:induction false} SeparatorNoBreak(n: nat)
    ensures '\n' !in SeparatorLine(n)
  {
    if n > 0 {
      SeparatorNoBreak(n - 1);
      assert Repeat(" -- |", n) == " -- |" + Repeat(" -- |", n - 1);
      assert SeparatorLine(n) == "| -- |" + Repeat(" -- |", n - 1);
      assert SeparatorLine(n - 1) == "|" + Repeat(" -- |", n - 1);
    }
  }

  lemma GridRowNoBreak(grid: Grid, i: nat)
    requires GridOk(grid) && i < |grid|
    ensures '\n' !in RowLine(grid[i])
  {
    assert forall j :: 0 <= j < |grid[i]| ==> CellOk(grid[i][j]);
    RowLineNoBreak(grid[i]);
  }

  lemma RowLineNoBreak(row: seq<Option<string>>)
    requires forall j :: 0 <= j < |row| ==> CellOk(row[j])
    ensures '\n' !in RowLine(row)
  {
    var cells := Texts(row);
    assert forall j :: 0 <= j < |cells| ==> '\n' !in cells[j] by {
      forall j | 0 <= j < |cells| ensures '\n' !in cells[j] {
        assert CellOk(row[j]);
      }
    }
    JoinNoChar(cells, " | ", '\n');
  }

  lemma {:induction false} JoinNoChar(parts: seq<string>, sep: string, c: char)
    requires c !in sep
    requires forall j :: 0 <= j < |parts| ==> c !in parts[j]
    ensures c !in JoinWith(parts, sep)
    decreases |parts|
  {
    if |parts| > 1 {
      JoinNoChar(parts[1..], sep, c);
    }
  }

  // ---------------------------------------------------------------------
  // The pipe in a cell, as written

  /** The note of a table cell holding `a|b` as one plain run. */
  function PipeNote(): Document {
    Document("a|b", [PlainRun(3)])
  }

  /** As written the cell text keeps its pipe; corrected, the pipe is
      escaped. */
  lemma AsWrittenPipeCell(res: Resolver)
    ensures CellText(AsWritten, res, PipeNote()) == Done("a|b")
    ensures CellText(Corrected, res, PipeNote()) == Done("a&#124;b")
  {
    PipeCellIs(AsWritten, res);
    PipeCellIs(Corrected, res);
    EscapePipe();
  }

  /** The cell of the pipe note holds its escaped text. */
  lemma PipeCellIs(v: Variant, res: Resolver)
    ensures CellText(v, res, PipeNote()) == Done(EscapeFor(v, "a|b"))
  {
    var s := "a|b";
    assert forall i :: 0 <= i < |s| ==> !IsWs(s[i]);
    SolidCellExact(v, res, s);
  }

  /** Escaping `a|b` for a table replaces the pipe by its character
      reference. */
  lemma EscapePipe()
    ensures EscapeTable("a|b") == "a&#124;b"
  {
    assert EscapeTable("b") == "b";
    assert EscapeTable("|b") == "&#124;" + EscapeTable("b");
  }

  /** With the table escaping discarded, the row holding `a|b` is the
      four pieces `""`, `" a"`, `"b "`, `""` joined by pipes. */
  lemma AsWrittenPipeLine()
    ensures RowLine([Some("a|b")]) == JoinWith(["", " a", "b ", ""], "|")
  {
    var parts := ["", " a", "b ", ""];
    assert Texts([Some("a|b")]) == ["a|b"];
    assert JoinWith(["a|b"], " | ") == "a|b";
    assert JoinWith(parts[3..], "|") == "";
    assert JoinWith(parts[2..], "|") == "b |";
    assert JoinWith(parts[1..], "|") == " a|b |";
  }

  /** As written, a table cell whose note reads `a|b` reads back as two
      cells: the row gains a column. */
  lemma AsWrittenPipeSplitsCell(res: Resolver)
    ensures CellText(AsWritten, res, PipeNote()).Done?
    ensures ParseRow(RowLine([Some(CellText(AsWritten, res, PipeNote()).value)])) == ["a", "b"]
  {
    AsWrittenPipeCell(res);
    PipeRowSplits(CellText(AsWritten, res, PipeNote()).value);
  }

  /** The row line of the one cell `a|b` parses as the two cells `a`
      and `b`. */
  lemma PipeRowSplits(c: string)
    requires c == "a|b"
    ensures ParseRow(RowLine([Some(c)])) == ["a", "b"]
  {
    var parts := ["", " a", "b ", ""];
    AsWrittenPipeLine();
    ParseJoinedRow(parts);
    TrimPaddedChar('a');
    TrimPaddedChar('b');
    assert parts[1] == [' ', 'a'] && parts[2] == ['b', ' '];
    var row := ParseRow(JoinWith(parts, "|"));
    assert row[0] == "a" && row[1] == "b";
  }

}

=== FILE: tokenizer.dfy ===
/** Turning a document into fragments: neighbouring attribute runs with equal
    attributes are merged, and the merged text is cut so that no fragment
    crosses a line break or begins or ends with whitespace. */
module Tokenizer {
  import opened Base
  import opened NoteModel

  // ---------------------------------------------------------------------
  // Attribute equality

  /** Byte fields are compared as objects: only the shared empty default
      equals another byte field. */
  predicate SameBytes(a: seq<bv8>, b: seq<bv8>) {
    |a| == 0 && |b| == 0
  }

  predicate ChecklistEquals(a: Option<Checklist>, b: Option<Checklist>) {
    (a.None? && b.None?)
    || (a.Some? && b.Some? && SameBytes(a.value.uuid, b.value.uuid) && a.value.done == b.value.done)
  }

  predicate ParagraphEquals(a: Option<ParagraphStyle>, b: Option<ParagraphStyle>) {
    (a.None? && b.None?)
    || (a.Some? && b.Some?
        && a.value.styleType == b.value.styleType
        && a.value.alignment == b.value.alignment
        && a.value.indentAmount == b.value.indentAmount
        && a.value.blockquote == b.value.blockquote
        && ChecklistEquals(a.value.checklist, b.value.checklist))
  }

  predicate FontEquals(a: Option<Font>, b: Option<Font>) {
    (a.None? && b.None?)
    || (a.Some? && b.Some? && a.value.fontName == b.value.fontName
        && a.value.pointSize == b.value.pointSize && a.value.fontHints == b.value.fontHints)
  }

  predicate ColorEquals(a: Option<Color>, b: Option<Color>) {
    (a.None? && b.None?)
    || (a.Some? && b.Some? && a.value.red == b.value.red && a.value.green == b.value.green
        && a.value.blue == b.value.blue && a.value.alpha == b.value.alpha)
  }

  predicate AttachmentEquals(a: Option<AttachmentInfo>, b: Option<AttachmentInfo>) {
    (a.None? && b.None?)
    || (a.Some? && b.Some? && a.value.attachmentIdentifier == b.value.attachmentIdentifier
        && a.value.typeUti == b.value.typeUti)
  }

  /** A run carries a checklist whose uuid bytes were decoded. */
  predicate HasChecklistUuid(a: AttributeRun) {
    a.paragraphStyle.Some? && a.paragraphStyle.value.checklist.Some?
    && |a.paragraphStyle.value.checklist.value.uuid| > 0
  }

  /** `attrEquals(a, b)`: field by field, skipping `length`, descending into
      sub-messages; a missing `b` is never equal. */
  predicate AttrEquals(a: AttributeRun, b: Option<AttributeRun>) {
    b.Some?
    && ParagraphEquals(a.paragraphStyle, b.value.paragraphStyle)
    && FontEquals(a.font, b.value.font)
    && a.fontWeight == b.value.fontWeight
    && a.underlined == b.value.underlined
    && a.strikethrough == b.value.strikethrough
    && a.superscript == b.value.superscript
    && a.link == b.value.link
    && ColorEquals(a.color, b.value.color)
    && AttachmentEquals(a.attachmentInfo, b.value.attachmentInfo)
  }

  /** Two runs are equal exactly when they agree on every kept field but
      their length, except that a decoded checklist uuid never equals another. */
  lemma AttrEqualsSpec(a: AttributeRun, b: Option<AttributeRun>)
    ensures AttrEquals(a, b) <==> b.Some? && a.(length := 0) == b.value.(length := 0) && !HasChecklistUuid(a)
  {
  }

  // ---------------------------------------------------------------------
  // The fragment split

  /** End of the whitespace run that starts at `q`. */
  function WsRunEnd(s: string, q: nat): (e: nat)
    requires q <= |s|
    ensures q <= e <= |s|
    ensures AllWs(s[q..e])
    ensures e == |s| || !IsWs(s[e])
    decreases |s| - q
  {
    if q < |s| && IsWs(s[q]) then WsRunEnd(s, q + 1) else q
  }

  /** The split pattern matches at `q`: whitespace at the very start of the
      text, whitespace around a line break, or whitespace that runs to the
      end. Whichever alternative matches, the match covers the whole
      whitespace run from `q`. */
  predicate SeparatorAt(s: string, q: nat)
    requires q <= |s|
  {
    q < |s| && IsWs(s[q])
    && (q == 0 || '\n' in s[q..WsRunEnd(s, q)] || WsRunEnd(s, q) == |s|)
  }

  /** `s.split(FRAGMENT_SPLIT)` from the current piece start `p` and search
      position `q`; the capturing group keeps every separator as a piece of
      its own, so pieces alternate text, separator, text, ... */
  function SplitPieces(s: string, p: nat, q: nat): (pieces: seq<string>)
    requires p <= q <= |s|
    ensures |pieces| >= 1
    decreases |s| - q
  {
    if q == |s| then [s[p..]]
    else if SeparatorAt(s, q) then
      var e := WsRunEnd(s, q);
      [s[p..q], s[q..e]] + SplitPieces(s, e, e)
    else SplitPieces(s, p, q + 1)
  }

  function FragmentSplit(s: string): seq<string> {
    SplitPieces(s, 0, 0)
  }

  /** The pieces of a split put back together are the text. */
  lemma {:induction false} SplitPiecesConcat(s: string, p: nat, q: nat)
    requires p <= q <= |s|
    ensures Concat(SplitPieces(s, p, q)) == s[p..]
    decreases |s| - q
  {
    if q == |s| {
      assert Concat([s[p..]]) == s[p..] + Concat([]);
    } else if SeparatorAt(s, q) {
      var e := WsRunEnd(s, q);
      SplitPiecesConcat(s, e, e);
      var rest := SplitPieces(s, e, e);
      assert ([s[p..q], s[q..e]] + rest)[1..] == [s[q..e]] + rest;
      assert ([s[q..e]] + rest)[1..] == rest;
      assert s[p..] == s[p..q] + s[q..e] + s[e..];
    } else {
      SplitPiecesConcat(s, p, q + 1);
    }
  }

  /** A piece is whitespace only, or it has no line break and neither begins
      nor ends with whitespace. */
  predicate WellShaped(f: string) {
    AllWs(f) || ('\n' !in f && !IsWs(f[0]) && !IsWs(f[|f| - 1]))
  }

  lemma WsRunStep(s: string, k: nat)
    requires k < |s| && IsWs(s[k])
    ensures WsRunEnd(s, k) == WsRunEnd(s, k + 1)
  {
  }

  /** Between a piece start `p` and a separator (or the end of the text) at
      `q`, the text `s[p..q]` is well shaped. */
  lemma TextPieceShape(s: string, p: nat, q: nat)
    requires p <= q <= |s|
    requires forall k :: p <= k < q ==> !SeparatorAt(s, k)
    requires p == 0 || p == |s| || !IsWs(s[p])
    requires q == |s| || SeparatorAt(s, q)
    ensures WellShaped(s[p..q])
  {
    var f := s[p..q];
    if |f| > 0 {
      assert f[0] == s[p];
      if p == 0 {
        assert !SeparatorAt(s, 0);
      }
      WsBeforeSeparator(s, q - 1);
      assert !SeparatorAt(s, q - 1);
      assert f[|f| - 1] == s[q - 1];
      forall i | 0 <= i < |f| ensures f[i] != '\n' {
        NewlineSeparator(s, p + i);
        assert !SeparatorAt(s, p + i);
      }
    }
  }

  /** Whitespace just before a separator, or at the very end, starts a
      separator itself. */
  lemma WsBeforeSeparator(s: string, k: nat)
    requires k < |s| && (k + 1 == |s| || SeparatorAt(s, k + 1))
    ensures IsWs(s[k]) ==> SeparatorAt(s, k)
  {
    if IsWs(s[k]) {
      WsRunStep(s, k);
      var e := WsRunEnd(s, k);
      if k + 1 < |s| && '\n' in s[k + 1..e] {
        var i :| 0 <= i < |s[k + 1..e]| && s[k + 1..e][i] == '\n';
        assert s[k..e][i + 1] == '\n';
      }
    }
  }

  /** A line break always starts a separator. */
  lemma NewlineSeparator(s: string, k: nat)
    requires k < |s|
    ensures s[k] == '\n' ==> SeparatorAt(s, k)
  {
    if s[k] == '\n' {
      assert IsWs(s[k]);
      assert s[k..WsRunEnd(s, k)][0] == '\n';
    }
  }

  lemma {:induction false} SplitPiecesShape(s: string, p: nat, q: nat)
    requires p <= q <= |s|
    requires forall k :: p <= k < q ==> !SeparatorAt(s, k)
    requires p == 0 || p == |s| || !IsWs(s[p])
    ensures forall i :: 0 <= i < |SplitPieces(s, p, q)| ==> WellShaped(SplitPieces(s, p, q)[i])
    decreases |s| - q
  {
    var pieces := SplitPieces(s, p, q);
    if q == |s| {
      TextPieceShape(s, p, q);
    } else if SeparatorAt(s, q) {
      var e := WsRunEnd(s, q);
      TextPieceShape(s, p, q);
      SplitPiecesShape(s, e, e);
      var rest := SplitPieces(s, e, e);
      assert pieces == [s[p..q], s[q..e]] + rest;
      forall i | 0 <= i < |pieces| ensures WellShaped(pieces[i]) {
        if i >= 2 {
          assert pieces[i] == rest[i - 2];
        }
      }
    } else {
      SplitPiecesShape(s, p, q + 1);
    }
  }

  /** Every piece of `FragmentSplit` is well shaped, and together they are
      the text. */
  lemma FragmentSplitSpec(s: string)
    ensures Concat(FragmentSplit(s)) == s
    ensures forall i :: 0 <= i < |FragmentSplit(s)| ==> WellShaped(FragmentSplit(s)[i])
  {
    SplitPiecesConcat(s, 0, 0);
    SplitPiecesShape(s, 0, 0);
  }

  // ---------------------------------------------------------------------
  // Merging runs and cutting fragments

  /** `s.substring(a, b)` for `a <= b`: both ends are clamped to the text. */
  function Substring(s: string, a: nat, b: nat): (r: string)
    requires a <= b
    ensures |r| <= b - a
    ensures b <= |s| ==> r == s[a..b]
  {
    var a' := if a < |s| then a else |s|;
    var b' := if b < |s| then b else |s|;
    s[a'..b']
  }

  lemma SubstringJoin(s: string, a: nat, b: nat, c: nat)
    requires a <= b <= c
    ensures Substring(s, a, b) + Substring(s, b, c) == Substring(s, a, c)
  {
  }

  /** Offset of run `i`: the lengths of the runs before it. */
  function Offset(runs: seq<AttributeRun>, i: nat): nat
    requires i <= |runs|
  {
    if i == 0 then 0 else Offset(runs, i - 1) + runs[i - 1].length
  }

  lemma OffsetMono(runs: seq<AttributeRun>, i: nat, j: nat)
    requires i <= j <= |runs|
    ensures Offset(runs, i) <= Offset(runs, j)
    decreases j - i
  {
    if i < j {
      OffsetMono(runs, i, j - 1);
    }
  }

  /** Run `i` is merged with run `i + 1`. */
  predicate NextIsSame(runs: seq<AttributeRun>, i: nat)
    requires i < |runs|
  {
    i != |runs| - 1 && AttrEquals(runs[i], Some(runs[i + 1]))
  }

  /** The group that begins at run `i` ends before `j`: every run but the
      last is merged with its successor, and the last is not. */
  function GroupEnd(runs: seq<AttributeRun>, i: nat): (j: nat)
    requires i < |runs|
    ensures i < j <= |runs|
    ensures forall k :: i <= k < j - 1 ==> NextIsSame(runs, k)
    ensures !NextIsSame(runs, j - 1)
    decreases |runs| - i
  {
    if NextIsSame(runs, i) then GroupEnd(runs, i + 1) else i + 1
  }

  /** The group end is determined by its two defining properties. */
  lemma GroupEndUnique(runs: seq<AttributeRun>, i: nat, j: nat)
    requires i < j <= |runs|
    requires forall k :: i <= k < j - 1 ==> NextIsSame(runs, k)
    requires !NextIsSame(runs, j - 1)
    ensures GroupEnd(runs, i) == j
  {
  }

  /** Pushes the non-empty pieces, each with the group's attributes. */
  function KeepNonEmpty(attr: AttributeRun, pieces: seq<string>): (fs: seq<Fragment>)
    ensures forall i :: 0 <= i < |fs| ==> fs[i].attr == attr && fs[i].text != ""
  {
    if |pieces| == 0 then []
    else if pieces[0] == "" then KeepNonEmpty(attr, pieces[1..])
    else [Fragment(attr, pieces[0])] + KeepNonEmpty(attr, pieces[1..])
  }

  /** The note text covered by the merge group starting at run `i`. */
  function GroupText(doc: Document, i: nat): string
    requires i < |doc.attributeRun|
  {
    var runs := doc.attributeRun;
    var j := GroupEnd(runs, i);
    OffsetMono(runs, i, j);
    Substring(doc.noteText, Offset(runs, i), Offset(runs, j))
  }

  /** The fragments of the merge group starting at run `i`: the non-empty
      pieces of its text, with the attributes of its last run. */
  function GroupTokens(doc: Document, i: nat): seq<Fragment>
    requires i < |doc.attributeRun|
  {
    KeepNonEmpty(doc.attributeRun[GroupEnd(doc.attributeRun, i) - 1], FragmentSplit(GroupText(doc, i)))
  }

  function TokensFrom(doc: Document, i: nat): seq<Fragment>
    requires i <= |doc.attributeRun|
    decreases |doc.attributeRun| - i
  {
    if i == |doc.attributeRun| then []
    else GroupTokens(doc, i) + TokensFrom(doc, GroupEnd(doc.attributeRun, i))
  }

  /** The fragments of a document, in order. */
  function Tokens(doc: Document): seq<Fragment> {
    TokensFrom(doc, 0)
  }

  /** A text with no whitespace is a single piece. */
  lemma {:induction false} SolidPieces(s: string, p: nat, q: nat)
    requires p <= q <= |s|
    requires forall i :: q <= i < |s| ==> !IsWs(s[i])
    ensures SplitPieces(s, p, q) == [s[p..]]
    decreases |s| - q
  {
    if q < |s| {
      assert !SeparatorAt(s, q);
      SolidPieces(s, p, q + 1);
    }
  }

  /** A note that is one run over a text without whitespace gives that
      text as its only fragment. */
  lemma SolidTextOneToken(text: string, run: AttributeRun)
    requires text != [] && run.length == |text|
    requires forall i :: 0 <= i < |text| ==> !IsWs(text[i])
    ensures Tokens(Document(text, [run])) == [Fragment(run, text)]
  {
    var doc := Document(text, [run]);
    assert GroupEnd(doc.attributeRun, 0) == 1;
    assert Offset(doc.attributeRun, 1) == |text|;
    assert GroupText(doc, 0) == text[0..|text|] == text;
    SolidPieces(text, 0, 0);
    assert text[0..] == text;
    assert GroupTokens(doc, 0) == KeepNonEmpty(run, [text]);
    assert KeepNonEmpty(run, [text]) == [Fragment(run, text)] + KeepNonEmpty(run, []);
    assert TokensFrom(doc, 1) == [];
    assert TokensFrom(doc, 0) == GroupTokens(doc, 0) + TokensFrom(doc, 1);
  }

  function Texts(fs: seq<Fragment>): (ts: seq<string>)
    ensures |ts| == |fs|
    ensures forall i :: 0 <= i < |fs| ==> ts[i] == fs[i].text
  {
    if |fs| == 0 then [] else [fs[0].text] + Texts(fs[1..])
  }

  lemma TextsAppend(a: seq<Fragment>, b: seq<Fragment>)
    ensures Texts(a + b) == Texts(a) + Texts(b)
  {
    assert Texts(a + b) == Texts(a) + Texts(b);
  }

  lemma {:induction false} KeepNonEmptyConcat(attr: AttributeRun, pieces: seq<string>)
    ensures Concat(Texts(KeepNonEmpty(attr, pieces))) == Concat(pieces)
    ensures forall i :: 0 <= i < |KeepNonEmpty(attr, pieces)| ==> KeepNonEmpty(attr, pieces)[i].text in pieces
    decreases |pieces|
  {
    if |pieces| > 0 {
      KeepNonEmptyConcat(attr, pieces[1..]);
      var rest := KeepNonEmpty(attr, pieces[1..]);
      if pieces[0] != "" {
        TextsAppend([Fragment(attr, pieces[0])], rest);
        ConcatAppend([pieces[0]], Texts(rest));
      }
      assert Concat(pieces) == pieces[0] + Concat(pieces[1..]);
    }
  }

  /** Reading the fragments' texts in order gives back the note text the
      runs cover (the runs' lengths are clamped to the text). */
  lemma {:induction false} TokensFromText(doc: Document, i: nat)
    requires i <= |doc.attributeRun|
    ensures Offset(doc.attributeRun, i) <= Offset(doc.attributeRun, |doc.attributeRun|)
    ensures Concat(Texts(TokensFrom(doc, i)))
      == Substring(doc.noteText, Offset(doc.attributeRun, i), Offset(doc.attributeRun, |doc.attributeRun|))
    decreases |doc.attributeRun| - i
  {
    var runs := doc.attributeRun;
    OffsetMono(runs, i, |runs|);
    if i < |runs| {
      var j := GroupEnd(runs, i);
      OffsetMono(runs, i, j);
      var text := GroupText(doc, i);
      var head := GroupTokens(doc, i);
      TokensFromText(doc, j);
      KeepNonEmptyConcat(runs[j - 1], FragmentSplit(text));
      FragmentSplitSpec(text);
      TextsAppend(head, TokensFrom(doc, j));
      ConcatAppend(Texts(head), Texts(TokensFrom(doc, j)));
      SubstringJoin(doc.noteText, Offset(runs, i), Offset(runs, j), Offset(runs, |runs|));
    }
  }

  /** Every fragment is non-empty and well shaped, and carries the
      attributes of one of the document's runs. */
  lemma {:induction false} TokensFromShape(doc: Document, i: nat)
    requires i <= |doc.attributeRun|
    ensures forall k :: 0 <= k < |TokensFrom(doc, i)| ==>
      TokensFrom(doc, i)[k].text != "" && WellShaped(TokensFrom(doc, i)[k].text)
      && TokensFrom(doc, i)[k].attr in doc.attributeRun
    decreases |doc.attributeRun| - i
  {
    var runs := doc.attributeRun;
    if i < |runs| {
      var j := GroupEnd(runs, i);
      OffsetMono(runs, i, j);
      var text := GroupText(doc, i);
      var head := GroupTokens(doc, i);
      var tail := TokensFrom(doc, j);
      TokensFromShape(doc, j);
      KeepNonEmptyConcat(runs[j - 1], FragmentSplit(text));
      FragmentSplitSpec(text);
      assert TokensFrom(doc, i) == head + tail;
      forall k | 0 <= k < |head| ensures WellShaped(head[k].text) {
        var w :| 0 <= w < |FragmentSplit(text)| && FragmentSplit(text)[w] == head[k].text;
      }
    }
  }

  /** The fragments of a document reassemble its covered text, and each is a
      non-empty, well-shaped piece carrying one of its runs' attributes. */
  lemma TokensSpec(doc: Document)
    ensures Concat(Texts(Tokens(doc)))
      == Substring(doc.noteText, 0, Offset(doc.attributeRun, |doc.attributeRun|))
    ensures forall k :: 0 <= k < |Tokens(doc)| ==>
      Tokens(doc)[k].text != "" && WellShaped(Tokens(doc)[k].text) && Tokens(doc)[k].attr in doc.attributeRun
  {
    TokensFromText(doc, 0);
    TokensFromShape(doc, 0);
  }

  /** The group's pieces, kept with the attributes of its last run, are
      its fragments. */
  lemma GroupTokensOf(doc: Document, i: nat, attr: AttributeRun, text: string)
    requires i < |doc.attributeRun|
    requires attr == doc.attributeRun[GroupEnd(doc.attributeRun, i) - 1]
    requires text == GroupText(doc, i)
    ensures KeepNonEmpty(attr, FragmentSplit(text)) == GroupTokens(doc, i)
  {
  }

  /** Appending the fragments of the group at run `i` moves the walk to
      the end of the group. */
  lemma TokensFromStep(doc: Document, i: nat, done: seq<Fragment>, kept: seq<Fragment>)
    requires i < |doc.attributeRun|
    requires kept == GroupTokens(doc, i)
    ensures done + TokensFrom(doc, i) == (done + kept) + TokensFrom(doc, GroupEnd(doc.attributeRun, i))
  {
  }

  /** `parseTokens`: walk the runs, merging each run into the current group
      while the next one has the same attributes, then split the merged
      text and keep its non-empty pieces. */
  method ParseTokens(doc: Document) returns (tokens: seq<Fragment>)
    ensures tokens == Tokens(doc)
  {
    var runs := doc.attributeRun;
    var i: nat := 0;
    var offset: nat := 0;
    tokens := [];
    while i < |runs|
      invariant i <= |runs|
      invariant offset == Offset(runs, i)
      invariant tokens + TokensFrom(doc, i) == Tokens(doc)
      decreases |runs| - i
    {
      var attr, attrText, j, offsetEnd := MergeGroup(doc, i, offset);
      var kept := KeepPieces(attr, FragmentSplit(attrText));
      GroupTokensOf(doc, i, attr, attrText);
      TokensFromStep(doc, i, tokens, kept);
      tokens := tokens + kept;
      i, offset := j, offsetEnd;
    }
  }

  /** The do-while of `parseTokens`: starting at run `i`, append each run's
      text and move on while the next run has the same attributes. */
  method MergeGroup(doc: Document, i: nat, offset: nat)
    returns (attr: AttributeRun, attrText: string, j: nat, offsetEnd: nat)
    requires i < |doc.attributeRun| && offset == Offset(doc.attributeRun, i)
    ensures j == GroupEnd(doc.attributeRun, i)
    ensures attr == doc.attributeRun[j - 1]
    ensures offsetEnd == Offset(doc.attributeRun, j) && offset <= offsetEnd
    ensures attrText == Substring(doc.noteText, offset, offsetEnd) == GroupText(doc, i)
  {
    var runs := doc.attributeRun;
    j := i;
    offsetEnd := offset;
    var offsetStart := offset;
    attrText := "";
    var nextIsSame := true;
    while true
      invariant i <= j < |runs|
      invariant offsetStart == offsetEnd == Offset(runs, j)
      invariant offset <= offsetEnd
      invariant attrText == Substring(doc.noteText, offset, offsetEnd)
      invariant forall k :: i <= k < j ==> NextIsSame(runs, k)
      decreases |runs| - j
    {
      attr := runs[j];
      offsetEnd := offsetEnd + attr.length;
      SubstringJoin(doc.noteText, offset, offsetStart, offsetEnd);
      attrText := attrText + Substring(doc.noteText, offsetStart, offsetEnd);
      offsetStart := offsetEnd;
      nextIsSame := if j == |runs| - 1 then false else AttrEquals(attr, Some(runs[j + 1]));
      j := j + 1;
      if !nextIsSame {
        break;
      }
    }
    GroupEndUnique(runs, i, j);
  }

  /** The inner `for` of `parseTokens`: push every non-empty piece. */
  method KeepPieces(attr: AttributeRun, pieces: seq<string>) returns (kept: seq<Fragment>)
    ensures kept == KeepNonEmpty(attr, pieces)
  {
    kept := [];
    var n := 0;
    while n < |pieces|
      invariant n <= |pieces|
      invariant kept + KeepNonEmpty(attr, pieces[n..]) == KeepNonEmpty(attr, pieces)
    {
      assert pieces[n..][1..] == pieces[n + 1..];
      if pieces[n] != "" {
        kept := kept + [Fragment(attr, pieces[n])];
      }
      n := n + 1;
    }
    assert pieces[n..] == [];
  }
}
